=== FILE: README.md ===
# MapReader sheet downloading, tile addressing and annotation bookkeeping in Dafny

This project models three parts of MapReader:

- **The sheet downloader.** `SheetDownloader` keeps a catalogue of map sheets. Each sheet has a WFS id, an outline geometry, an image name and url, and a title.
  - Four one-way flags record which derived fields exist: polygons, grid bounding boxes, WFS id numbers and publication dates.
  - A list of query results (`found_queries`) is filled by the `query_map_sheets_by_*` operations.
  - The `download_*` operations select sheets and download them through `_download_map_sheets`, which appends one metadata row per merged sheet.
- **Slippy-map tile addressing.** This is the OpenStreetMap "Slippy map tilenames" scheme: longitude ↔ tile column is exact rational arithmetic, and latitude ↔ tile row goes through the Web-Mercator projection.
- **The `AnnotationsLoader` bookkeeping:**
  - column names that are set only once;
  - reading a CSV file and keeping the first row per id;
  - rewriting image paths;
  - appending or replacing annotations;
  - the three-way policy for broken image paths;
  - numbering labels in order of first occurrence;
  - the checks and arithmetic of `create_datasets`.

Everything the program delegates to libraries comes in as a parameter record:

- shapely predicates and `bounds`;
- the Mercator latitude formulas;
- regular-expression matches and `str()`;
- whether a file exists;
- tile download and merge;
- `pd.read_csv`;
- `os.path.abspath`.

Operations are pure functions from a state to a state plus an optional error. When the source raises part-way through, the model keeps the state as mutated up to that point.

Modules:

| file | module | contents |
|---|---|---|
| common.dfy | `Common` | `Option`, `Result` and the `Error` kinds raised |
| geometry.dfy | `Geometry` | shapes, bounds and the geometry oracle |
| downloader_utils.dfy | `DownloaderUtils` | tile index ↔ coordinate, grid bounding boxes, polygon and line builders |
| catalogue.dfy | `Catalogue` | sheet records, downloader state, the derivations and their flags |
| queries.dfy | `Queries` | the `query_map_sheets_by_*` transitions |
| downloads.dfy | `Downloads` | `_save_metadata` and the `_download_map_sheets` loop |
| download_requests.dfy | `DownloadRequests` | `download_all_map_sheets` and `download_map_sheets_by_*` |
| annotations.dfy | `Annotations` | `AnnotationsLoader` |

Two behaviours of the code are easy to misread; the model follows the code, the second under an assumption about a class it does not model:

- The tile column is `int(...)`, which rounds toward zero. The OpenStreetMap Slippy map tilenames formulas that downloader_utils.py:105 names round down. The two agree from longitude -180 eastwards (`DownloaderUtils.TruncationWestOfAntimeridian`).
- `get_grid_bb_from_polygon` passes the tile of the minimum latitude and maximum longitude as the first argument of `GridBoundingBox` and the tile of the maximum latitude and minimum longitude as the second. `GridBoundingBox` is defined in mapreader/download/data_structures.py, which is not part of this model. The model assumes its constructor keeps its arguments in the order given, the first becoming `lower_corner`. Under that assumption the lower corner's column is at least the upper corner's, and its row at least the upper corner's, contrary to what the names lower and upper suggest (`DownloaderUtils.GridBbCornerOrder`).

## Model

| member | source | states |
|---|---|---|
| Geometry.BoundsOf | mapreader/download/sheet_downloader.py:103-104 | the bounds of a box are the least and greatest of its corner coordinates, on each axis |
| Geometry.FirstPart | mapreader/download/sheet_downloader.py:84-89 | `shape(geometry).geoms[0]` succeeds exactly on a multi-part geometry with a part, and yields its first part |
| DownloaderUtils.IndexFromLonLat | mapreader/download/downloader_utils.py:145-158 | fails exactly on a negative zoom, with that error |
| DownloaderUtils.LonLatFromIndex | mapreader/download/downloader_utils.py:161-174 | fails exactly on a negative zoom, with that error |
| DownloaderUtils.GetIndexFromCoordinate | mapreader/download/downloader_utils.py:108-123 | the tile returned holds the coordinate: its west edge is at or west of the longitude and the next column's west edge is east of it; it fails only on a negative zoom |
| DownloaderUtils.GetCoordinateFromIndex | mapreader/download/downloader_utils.py:126-142 | the coordinate returned is the tile's upper-left corner: the north edge of its row and the west edge of its column, which lies in the given tile column; it fails only on a negative zoom |
| DownloaderUtils.TileXOfTileLon | mapreader/download/downloader_utils.py:155-171 | index(lon(x)) = x for every integer column x and zoom |
| DownloaderUtils.TileXMonotone | mapreader/download/downloader_utils.py:155 | the column index is monotone in longitude |
| DownloaderUtils.TileLonBracket | mapreader/download/downloader_utils.py:155-171 | from -180 eastwards, lon(index(lon)) ≤ lon < lon(index(lon)+1) |
| DownloaderUtils.TileLonOrder | mapreader/download/downloader_utils.py:155-171 | a tile edge is west of a longitude exactly when the column is below the longitude's fractional column |
| DownloaderUtils.TileXRange | mapreader/download/downloader_utils.py:153-155 | longitudes in [-180, 180) give columns in [0, 2^z); longitude 180 gives 2^z |
| DownloaderUtils.TruncationWestOfAntimeridian | mapreader/download/downloader_utils.py:155 | west of -180, rounding toward zero puts a longitude in a tile whose west edge is east of it |
| DownloaderUtils.TileYAntitone | mapreader/download/downloader_utils.py:156-157 | with a decreasing projection, a more northern latitude never gets a larger row |
| DownloaderUtils.CreatePolygonFromLatlons | mapreader/download/downloader_utils.py:9-37 | the box has bounds (min_lon, min_lat, max_lon, max_lat) |
| DownloaderUtils.CreateLineFromLatlons | mapreader/download/downloader_utils.py:39-60 | the line has two points stored in (lon, lat) order that read back as the given (lat, lon) pairs |
| DownloaderUtils.GetGridBbFromPolygon | mapreader/download/downloader_utils.py:62-82 | both corners are at the given zoom; the lower corner is the tile of (min_lat, max_lon) and the upper corner the tile of (max_lat, min_lon); fails only on a negative zoom |
| DownloaderUtils.GetPolygonFromGridBb | mapreader/download/downloader_utils.py:84-100 | the lower corner's (lat, lon) become the min arguments and the upper corner's the max arguments: the box's first x lies in the lower corner's column and its second x in the upper corner's |
| DownloaderUtils.GridBbCornerOrder | mapreader/download/downloader_utils.py:77-82 | for ordered bounds, lower.x ≥ upper.x and lower.y ≥ upper.y |
| Catalogue.AsValue | mapreader/download/sheet_downloader.py:52-55 | the feature dictionary holds the catalogue's own keys (such as `type`), `id`, the GeoJSON `geometry` dictionary and `properties` with `IMAGE`, `IMAGEURL` and `WFS_TITLE`; each derived key is present with its value once derived; no other keys appear |
| Catalogue.New | mapreader/download/sheet_downloader.py:24-70 | a missing catalogue file or a download url that is neither a string nor a list raises; otherwise all flags are off, no queries are held, the tile servers are the url(s), and a raw catalogue is `Valid` |
| Catalogue.FirstFailure | mapreader/download/sheet_downloader.py:83-89 | the position where a derivation loop stops: every earlier step succeeds and that one fails |
| Catalogue.Derive | mapreader/download/sheet_downloader.py:83-151 | a derivation loop either updates every feature or stops at the first failing one, with the earlier features updated and the rest untouched |
| Catalogue.PolygonStep | mapreader/download/sheet_downloader.py:84-89 | a feature's polygon becomes its geometry's first part, or the step raises `NoGeometryParts` |
| Catalogue.GridBbStep | mapreader/download/sheet_downloader.py:105-116 | the grid box is derived from the feature's polygon at the zoom; it fails exactly when the polygon is missing or the zoom is negative |
| Catalogue.WfsIdStep | mapreader/download/sheet_downloader.py:124-128 | the id number is the integer the last `.`-separated segment of the id spells; it fails exactly when that segment is not a plain decimal literal |
| Catalogue.DateStep | mapreader/download/sheet_downloader.py:136-151 | the stored date is the first match, or `[]` when there is none; it fails only on a first match that is not a plain decimal literal |
| Catalogue.LastSegment | mapreader/download/sheet_downloader.py:125 | `split(".")[-1]`: a dot-free suffix of the id that follows a dot, unless it is the whole id |
| Catalogue.EvalInt | mapreader/download/sheet_downloader.py:128 | `eval` yields a number exactly on a plain decimal literal (digits, no leading zero unless all zeros), and yields its decimal value |
| Catalogue.EvalShowNat | mapreader/download/sheet_downloader.py:128 | `eval` reads back every spelled-out number |
| Catalogue.LeadingZeroRejected | mapreader/download/sheet_downloader.py:128 | `eval` rejects "0123" and accepts "00" as 0, as Python 3 does |
| Catalogue.GetPolygons | mapreader/download/sheet_downloader.py:79-90 | the flag is set exactly when every feature yields a polygon; the sheets are kept, flags only rise and the query results are untouched |
| Catalogue.Chain | mapreader/download/sheet_downloader.py:41-44 | two derivations in a row still keep the sheets and only raise flags |
| Catalogue.GetGridBb | mapreader/download/sheet_downloader.py:92-118 | derives the polygons first when their flag is off; on success both flags are set and every feature has a polygon and its grid box is `get_grid_bb_from_polygon` of that polygon at the zoom; polygons already derived are kept |
| Catalogue.DeriveGridBbs | mapreader/download/sheet_downloader.py:105-118 | the grid-box loop succeeds exactly when every feature's step does, and leaves the polygons alone |
| Catalogue.ExtractWfsIdNos | mapreader/download/sheet_downloader.py:120-130 | succeeds exactly when every id ends in a plain decimal literal, then sets the flag and every id number; any error is `NotAnInteger` |
| Catalogue.ExtractPublishedDates | mapreader/download/sheet_downloader.py:132-153 | it raises exactly when the year of some title's first match is not an integer literal, so a catalogue whose titles carry no dates never raises; on success the flag is set and every date is the first match or `[]` |
| Catalogue.GetMergedPolygon | mapreader/download/sheet_downloader.py:155-166 | derives the polygons when their flag is off and otherwise keeps the features; it succeeds exactly when every feature yields a polygon (flag off) or has one (flag on); on success the merged polygon is the union of all the features' polygons, in catalogue order |
| Catalogue.GetPolygonsKeepsValid | mapreader/download/sheet_downloader.py:79-90 | `get_polygons` keeps what the flags promise, raise or not |
| Catalogue.GetGridBbKeepsValid | mapreader/download/sheet_downloader.py:92-118 | `get_grid_bb` keeps what the flags promise |
| Catalogue.ExtractWfsIdNosKeepsValid | mapreader/download/sheet_downloader.py:120-130 | `extract_wfs_id_nos` keeps what the flags promise |
| Catalogue.ExtractPublishedDatesKeepsValid | mapreader/download/sheet_downloader.py:132-153 | `extract_published_dates` keeps what the flags promise |
| Catalogue.GetMergedPolygonKeepsValid | mapreader/download/sheet_downloader.py:155-166 | `get_merged_polygon` keeps what the flags promise |
| Queries.Walk | mapreader/download/sheet_downloader.py:413 | the `reduce(... .get ...)` key walk raises on a missing intermediate key or a non-dictionary, and yields `None` for a missing final key |
| Queries.WalkFeatureKeys | mapreader/download/sheet_downloader.py:413 | keys `["type"]` reach the feature's top-level `type`, keys `["geometry", "type"]` the geometry's own `type`, and walking on past the `id` text raises |
| Queries.Hit | mapreader/download/sheet_downloader.py:217-418 | a feature test fails only when a derived field it reads is missing, the key walk fails, or the search pattern does not compile; a string test raises the pattern's error exactly when the pattern does not compile and the key walk succeeds |
| Queries.Scan | mapreader/download/sheet_downloader.py:214-222 | the query loop only appends, at most one position per sheet it looks at |
| Queries.ScanExtends | mapreader/download/sheet_downloader.py:216-222 | the query loop keeps the results it started with and appends positions in increasing order |
| Queries.ScanRaises | mapreader/download/sheet_downloader.py:216-222 | the loop runs to the end exactly when no test raises |
| Queries.ScanHoldsMatches | mapreader/download/sheet_downloader.py:221-222 | after a deduplicating loop, every matching sheet is held |
| Queries.ScanNeverAppendsMatches | mapreader/download/sheet_downloader.py:270-272 | a loop whose duplicate test never fires appends exactly the matches |
| Queries.ScanHeldAppendsNothing | mapreader/download/sheet_downloader.py:221-222 | a deduplicating loop over matches already held appends nothing |
| Queries.ScanDistinctAppendsMatches | mapreader/download/sheet_downloader.py:214-222 | on distinct sheets, a fresh deduplicating loop appends exactly the matches in catalogue order |
| Queries.Run | mapreader/download/sheet_downloader.py:214-222 | `append=False` empties the results before scanning; only `found_queries` changes |
| Queries.RunFacts | mapreader/download/sheet_downloader.py:214-222 | on success, a deduplicating run holds every match; a run that cannot deduplicate appends exactly the matches |
| Queries.Prepare | mapreader/download/sheet_downloader.py:202-203 | runs the derivation the query needs only when its flag is off |
| Queries.Query | mapreader/download/sheet_downloader.py:205-222 | the derivation, then the scan; the sheets are kept and flags only rise |
| Queries.QueryKeepsValid | mapreader/download/sheet_downloader.py:182-222 | every query keeps the state invariant, raise or not |
| Queries.QueryErrorKind | mapreader/download/sheet_downloader.py:182-222 | a query stops only with a derivation error or a scan error |
| Queries.QueryIdempotent | mapreader/download/sheet_downloader.py:221-222 | repeating a deduplicating query with append changes nothing |
| Queries.QueryRepeats | mapreader/download/sheet_downloader.py:270-272 | repeating a query that cannot deduplicate, with append, appends every match again after the results already held |
| Queries.QueryByWfsIds | mapreader/download/sheet_downloader.py:182-222 | ids are extracted first; ids that are neither an int nor a list raise with `found_queries` untouched; a fresh query on distinct sheets finds exactly the sheets whose id number was requested |
| Queries.QueryByPolygon | mapreader/download/sheet_downloader.py:227-279 | a non-polygon or an unknown mode raises with the state untouched; a fresh query finds exactly the sheets within/intersecting the polygon |
| Queries.QueryByPolygonCorrected | mapreader/download/sheet_downloader.py:264-276 | as above, with the `within` duplicate test comparing features |
| Queries.QueryByCoordinates | mapreader/download/sheet_downloader.py:281-320 | a non-tuple, or a tuple `Point` refuses, raises with the state untouched; a fresh query finds exactly the sheets containing the point |
| Queries.QueryByLine | mapreader/download/sheet_downloader.py:322-364 | a non-line raises with the state untouched; a fresh query finds exactly the sheets the line intersects |
| Queries.QueryByString | mapreader/download/sheet_downloader.py:366-418 | a non-string pattern, or keys that are neither a string nor a list, raise with the state untouched; with `print=False` only `found_queries` ever changes; a fresh query finds exactly the matching sheets |
| Queries.QueryByWfsIdsIdempotent | mapreader/download/sheet_downloader.py:221-222 | a repeated WFS-id query with append leaves the results as they were |
| Queries.QueryByPolygonIntersectsIdempotent | mapreader/download/sheet_downloader.py:274-276 | a repeated `intersects` query with append leaves the results as they were |
| Queries.QueryByPolygonWithinRepeats | mapreader/download/sheet_downloader.py:270-272 | a repeated `within` query with append re-adds every match |
| Queries.QueryByPolygonCorrectedIdempotent | mapreader/download/sheet_downloader.py:264-276 | with the corrected duplicate test, both modes are idempotent |
| Queries.QueryByCoordinatesIdempotent | mapreader/download/sheet_downloader.py:315-317 | a repeated point query with append changes nothing |
| Queries.QueryByLineIdempotent | mapreader/download/sheet_downloader.py:359-361 | a repeated line query with append changes nothing |
| Queries.QueryByStringBadPattern | mapreader/download/sheet_downloader.py:409-418 | a pattern that does not compile raises on the first sheet after the reset, so only an empty catalogue gets through and nothing is appended |
| Queries.PrintFoundQueries | mapreader/download/sheet_downloader.py:423-428 | showing the results keeps them, derives the polygons when the flag is off, and raises exactly when that derivation fails |
| Queries.Printing | mapreader/download/sheet_downloader.py:420-421 | `if print: self.print_found_queries()` changes nothing unless asked to show results after a query that raised nothing and left the polygons underived |
| Queries.QueryByWfsIdsPrinted | mapreader/download/sheet_downloader.py:182-225 | showing the results keeps what the query found; without `print`, or after a raise, it is the query itself; after a query that raised nothing it derives the polygons, raising `NoGeometryParts` exactly when it does not leave both the id and polygon flags set |
| Queries.QueryByStringPrinted | mapreader/download/sheet_downloader.py:366-421 | showing the results keeps what the query found; with the polygons already derived it changes nothing, and otherwise it derives them or raises part-way |
| Queries.PrintingAfterPolygonQueries | mapreader/download/sheet_downloader.py:423-428 | polygon, point and line queries derive the polygons themselves, so showing their results changes nothing |
| Queries.QueryByStringIdempotent | mapreader/download/sheet_downloader.py:416-418 | a repeated string query with append changes nothing |
| Queries.WithinMatchesIntersect | mapreader/download/sheet_downloader.py:266-276 | if within implies intersects, every `within` match is an `intersects` match |
| Queries.WithinResultsIntersect | mapreader/download/sheet_downloader.py:264-276 | a fresh `within` query finds a subset of what a fresh `intersects` query finds |
| Downloads.RecordedBounds | mapreader/download/sheet_downloader.py:531-536 | the bounds as written: min x lies in the lower corner's column and max x in the upper corner's |
| Downloads.CoveredBounds | mapreader/download/sheet_downloader.py:531-536 | the corrected bounds: min x is the upper corner column's west edge and max x the lower corner column's east edge |
| Downloads.RecordedBoundsReversed | mapreader/download/sheet_downloader.py:531-536 | for a box's grid bounds, the recorded min x is never west of the recorded max x |
| Downloads.RecordedBoundsCounterexample | mapreader/download/sheet_downloader.py:531-536 | a sheet spanning longitudes -10 to 10 at zoom 1 is recorded with min x 0 and max x -180 |
| Downloads.CoveredBoundsContain | mapreader/download/sheet_downloader.py:531-536 | the corrected bounds contain the sheet's longitudes and, with a decreasing projection, are ordered in latitude |
| Downloads.MetadataRowOf | mapreader/download/sheet_downloader.py:521-538 | the row holds the map file name, the url, the bounds as `_save_metadata` records them, the publication date and the grid box; it fails exactly when one of these is missing or a zoom is negative |
| Downloads.MetadataRowReversed | mapreader/download/sheet_downloader.py:531-536 | the row recorded for a sheet whose grid box comes from its outline has its west bound at or east of its east bound |
| Downloads.SaveMetadata | mapreader/download/sheet_downloader.py:504-538 | publication dates are extracted when their flag is off; on success exactly one row, that of sheet k, is appended; a raise appends nothing |
| Downloads.DownloadMapSheets | mapreader/download/sheet_downloader.py:558-583 | the collected rows are appended to the metadata file once, after the loop, and not at all when the loop raises; the sheets are kept and flags only rise |
| Downloads.Skips | mapreader/download/sheet_downloader.py:575-577 | the skip guard: only without `overwrite`, and only when the sheet's file exists |
| Downloads.VisitSheet | mapreader/download/sheet_downloader.py:574-580 | one pass of the loop body: an existing file is skipped; a sheet without a grid box raises `KeyError`; a failed merge records nothing; a merged sheet is recorded as written and downloaded and its metadata saved |
| Downloads.VisitSheetStep | mapreader/download/sheet_downloader.py:575-580 | one pass of the loop body is one turn of the loop: skip an existing file, download and merge, save the metadata of a merged sheet |
| Downloads.DownloadMapSheetsLoop | mapreader/download/sheet_downloader.py:558-583 | the loop as written computes `DownloadMapSheets`: the file gains the collected rows when nothing raises and is left alone otherwise |
| Downloads.LoopKeeps | mapreader/download/sheet_downloader.py:574-580 | a property every turn keeps holds after the loop, error or not |
| Downloads.LoopSucceeds | mapreader/download/sheet_downloader.py:574-580 | the loop raises nothing when no turn it can reach raises |
| Downloads.ExtractKeepsFiles | mapreader/download/sheet_downloader.py:132-153 | deriving publication dates changes none of the fields a download reads |
| Downloads.SaveMetadataLaws | mapreader/download/sheet_downloader.py:504-538 | the metadata step leaves the downloaded files and the sheets alone, and on success appends one row naming the sheet |
| Downloads.LoopKeepsSheets | mapreader/download/sheet_downloader.py:574-580 | the loop keeps the catalogue's sheets and the fields a download reads |
| Downloads.DownloadSkipsExisting | mapreader/download/sheet_downloader.py:574-580 | without `overwrite`, a run that raises nothing downloads exactly the sheets whose file was not on disk, was not written earlier in the run, and whose tiles merge, in input order |
| Downloads.FetchedExactly | mapreader/download/sheet_downloader.py:574-580 | a position is downloaded without `overwrite` exactly when its file was not on disk, is not the file of an earlier downloaded position, and its tiles merge |
| Downloads.DownloadNeverRewrites | mapreader/download/sheet_downloader.py:575-577 | without `overwrite`, no file that existed is written and no file is written twice |
| Downloads.DownloadRecords | mapreader/download/sheet_downloader.py:578-580 | a run that raises nothing has exactly one metadata row per merged sheet, in input order, naming that sheet |
| Downloads.DownloadOverwrites | mapreader/download/sheet_downloader.py:575-580 | with `overwrite`, a run that raises nothing downloads exactly the sheets whose tiles merge, in input order |
| Downloads.DownloadSucceeds | mapreader/download/sheet_downloader.py:524-583 | on a downloader whose sheets all have grid boxes at a valid zoom and whose publication dates are derived or derivable, the loop never raises |
| DownloadRequests.AllSheets | mapreader/download/sheet_downloader.py:605 | every sheet of the catalogue in catalogue order |
| DownloadRequests.Select | mapreader/download/sheet_downloader.py:654-657 | the filter raises exactly when a test raises; otherwise it selects exactly the matches |
| DownloadRequests.MatchesExactly | mapreader/download/sheet_downloader.py:654-657 | a position is selected exactly when its sheet passes the test; positions are in range and increasing |
| DownloadRequests.Bounded | mapreader/download/sheet_downloader.py:710-714 | the merged polygon is derived when missing; a shape disjoint from it raises `OutOfBounds` |
| DownloadRequests.Fetch | mapreader/download/sheet_downloader.py:659 | a selection that raised is refused without downloading; otherwise the selected sheets are downloaded |
| DownloadRequests.DownloadAll | mapreader/download/sheet_downloader.py:585-607 | without grid boxes it raises before downloading; otherwise every sheet is downloaded, never overwriting |
| DownloadRequests.DownloadAllCorrected | mapreader/download/sheet_downloader.py:585-607 | the same request with `overwrite` passed on |
| DownloadRequests.DownloadByWfsIds | mapreader/download/sheet_downloader.py:609-659 | ids are extracted first; a bad argument, missing grid boxes, or no requested id in the catalogue raise before downloading |
| DownloadRequests.DownloadByPolygon | mapreader/download/sheet_downloader.py:661-727 | a non-polygon, an unknown mode, missing grid boxes, or a polygon disjoint from the catalogue raise before downloading; the sheets fetched are those within/intersecting the polygon |
| DownloadRequests.DownloadByCoordinates | mapreader/download/sheet_downloader.py:729-773 | a non-tuple, a tuple `Point` refuses, missing grid boxes, or a point outside the catalogue raise before downloading; a success has the merged polygon, which the point touches, and the sheets fetched contain the point |
| DownloadRequests.DownloadByLine | mapreader/download/sheet_downloader.py:775-822 | a non-line, missing grid boxes, or a line outside the catalogue raise before downloading; a success has the merged polygon, which the line touches, and the sheets fetched intersect the line |
| DownloadRequests.DownloadByString | mapreader/download/sheet_downloader.py:824-882 | a bad pattern or keys, or missing grid boxes, raise before downloading; the sheets fetched match the pattern |
| DownloadRequests.DownloadByQueries | mapreader/download/sheet_downloader.py:884-912 | missing grid boxes or empty query results raise before downloading; otherwise exactly the held results are downloaded |
| DownloadRequests.SelectedExactly | mapreader/download/sheet_downloader.py:717-725 | a request selects a sheet exactly when the sheet passes its test |
| DownloadRequests.DownloadByWfsIdsSelects | mapreader/download/sheet_downloader.py:654-657 | the request fetches exactly the sheets whose id number was requested |
| DownloadRequests.DownloadByWfsIdsDisjoint | mapreader/download/sheet_downloader.py:649-651 | when no sheet's id number was requested, the request raises `NoMatchingWfsIds` and downloads nothing |
| DownloadRequests.DownloadByPolygonSelects | mapreader/download/sheet_downloader.py:717-725 | the request fetches exactly the sheets within (or intersecting) the polygon |
| DownloadRequests.DownloadAllIgnoresOverwrite | mapreader/download/sheet_downloader.py:607 | `download_all_map_sheets` behaves the same whether or not `overwrite` is asked for, and never rewrites an existing file |
| DownloadRequests.DownloadAllCorrectedOverwrites | mapreader/download/sheet_downloader.py:585-607 | with `overwrite` passed on, every sheet whose tiles merge is downloaded |
| DownloadRequests.DownloadAllSucceeds | mapreader/download/sheet_downloader.py:600-607 | on a downloader ready to download, fetching every sheet raises nothing |
| DownloadRequests.DownloadByQueriesSucceeds | mapreader/download/sheet_downloader.py:902-912 | on a downloader ready to download, the request raises exactly when there are no query results |
| Annotations.SetOnce | mapreader/classify/load_annotations.py:89-108 | a column name that is already set is kept; an unset one takes the given name |
| Annotations.SetOnceSticks | mapreader/classify/load_annotations.py:89-108 | once a non-empty name is chosen, no later call changes it |
| Annotations.Join | mapreader/classify/load_annotations.py:121 | `os.path.join`: an absolute name, or an empty directory, gives the name itself; otherwise the result starts with the directory, ends with the name and has at most one separator between them |
| Annotations.WithImagesDir | mapreader/classify/load_annotations.py:119-121 | a missing id column raises; otherwise every row's path becomes the directory joined with its id and every other cell is unchanged |
| Annotations.Present | mapreader/classify/load_annotations.py:213-218 | removing broken rows keeps no more rows than there were, and every kept row is one of them with its file on disk |
| Annotations.PresentExactly | mapreader/classify/load_annotations.py:214-218 | the kept rows are exactly those whose file exists, and kept plus broken is all rows |
| Annotations.PresentIdempotent | mapreader/classify/load_annotations.py:214-218 | filtering twice keeps what filtering once kept, with nothing broken left |
| Annotations.CheckPatchPaths | mapreader/classify/load_annotations.py:210-240 | empty annotations are left alone; with `remove_broken` the present rows remain, in order, and it raises exactly when none remains; without it, it raises on any broken path unless `ignore_broken`, and never changes the rows |
| Annotations.CheckPatchPathsIdempotent | mapreader/classify/load_annotations.py:210-240 | after a successful removing check, any further check changes nothing and raises nothing |
| Annotations.CheckPatchPathsKeepsPresent | mapreader/classify/load_annotations.py:214-218 | a removing check keeps exactly the rows whose file exists |
| Annotations.FirstPositionsExactly | mapreader/classify/load_annotations.py:187 | the first-occurrence positions are exactly the entries no earlier entry equals, in increasing order |
| Annotations.Unique | mapreader/classify/load_annotations.py:134 | every label `unique()` lists is a label of the column |
| Annotations.UniqueSpec | mapreader/classify/load_annotations.py:134 | `unique()` lists every label once and nothing else |
| Annotations.UniqueOrder | mapreader/classify/load_annotations.py:134 | a label listed earlier by `unique()` first turns up before any copy of a label listed later |
| Annotations.DropDuplicates | mapreader/classify/load_annotations.py:187 | every row kept by `drop_duplicates` is a row of the table |
| Annotations.DropDuplicatesSpec | mapreader/classify/load_annotations.py:187 | after `drop_duplicates(keep="first")` no two rows share an id, no id is lost, every first row with an id is kept, and nothing new appears |
| Annotations.DropDuplicatesIdempotent | mapreader/classify/load_annotations.py:187 | dropping duplicates twice is dropping them once |
| Annotations.DistinctKeptWhole | mapreader/classify/load_annotations.py:187 | rows with distinct ids are kept as they are |
| Annotations.IndexOf | mapreader/classify/load_annotations.py:724-742 | `list.index`: the first position holding the label, or `LabelNotFound` exactly when it is not listed |
| Annotations.LabelIndexes | mapreader/classify/load_annotations.py:136-138 | every row's index is the label's position in the list; it fails exactly when some label is not listed |
| Annotations.LabelsMap | mapreader/classify/load_annotations.py:140-141 | the map's keys are the list's positions and each reads back the label there |
| Annotations.Index | mapreader/classify/load_annotations.py:134-141 | numbering never raises, keeps the table and its column names, and gives `unique_labels`, `label_index` and `labels_map` that number the label column consistently |
| Annotations.Read | mapreader/classify/load_annotations.py:110-117 | something other than a path or a table raises `ValueError`; a table is taken as is; a path is loaded from CSV, and what loads has one row per id |
| Annotations.NumberingSpec | mapreader/classify/load_annotations.py:134-141 | numbering never fails, and labels_map[label_index[i]] is the label of row i |
| Annotations.IndexSpec | mapreader/classify/load_annotations.py:134-141 | the numbering step leaves the rows alone and leaves the loader `Indexed` |
| Annotations.IndexOfInverse | mapreader/classify/load_annotations.py:742 | on distinct labels, looking up the label at position i gives i |
| Annotations.LoadCsv | mapreader/classify/load_annotations.py:176-187 | a path that is not a file raises, and so does a table without the id column; otherwise the columns are the file's and the rows are the file's rows with every later row of a repeated id dropped, so the ids are distinct |
| Annotations.Incoming | mapreader/classify/load_annotations.py:110-125 | something other than a path or a table raises `ValueError`, and a failed CSV read raises its own error; with an image directory, a missing id column raises; then a missing label column raises; a batch that comes through has the read table's rows, one for one, with every cell kept except the path column, which becomes the absolute image directory joined with the id |
| Annotations.Concat | mapreader/classify/load_annotations.py:127-128 | `pd.concat`: the old rows, then the new ones, under the union of the columns |
| Annotations.Load | mapreader/classify/load_annotations.py:89-142 | column names are set once; a bad argument raises with the annotations untouched; a successful load leaves the loader `Indexed` |
| Annotations.LoadCombines | mapreader/classify/load_annotations.py:127-132 | on success the annotations are the old rows (when appending) then the new batch, less the broken rows when they are removed |
| Annotations.LoadKeepsOld | mapreader/classify/load_annotations.py:127-128 | appending without removal keeps the old annotations, in order, in front |
| Annotations.LoadRemovesBroken | mapreader/classify/load_annotations.py:127-132 | with `remove_broken`, every row left after a successful load has its file on disk |
| Annotations.PresentKeepsDistinct | mapreader/classify/load_annotations.py:214-218 | removing broken rows never makes two ids equal |
| Annotations.LoadCsvDistinctIds | mapreader/classify/load_annotations.py:114-132 | a load from CSV that replaces the annotations leaves one row per id, when the path column is not the id column |
| Annotations.IncomingCsvDistinct | mapreader/classify/load_annotations.py:114-121 | a batch read from CSV has one row per id after its paths are rewritten |
| Annotations.Quantize | mapreader/classify/load_annotations.py:566 | the result is a multiple of 0.001 within 0.0005 of the input |
| Annotations.QuantizeNearest | mapreader/classify/load_annotations.py:566 | no multiple of 0.001 is nearer, and a tie goes to the even multiple |
| Annotations.QuantizeIdempotent | mapreader/classify/load_annotations.py:566 | a value already on the 0.001 grid is its own quantization |
| Annotations.CreateDatasets | mapreader/classify/load_annotations.py:540-578 | no annotations, or fractions whose exact decimal sum is not 1, raise; then a held-out share 1 - train outside (0, 1) raises as the first split's `test_size`; on success the held-out share is val + test, and the relative test share is present exactly when test ≠ 0, lies in (0, 1) and within 0.0005 of test/(val+test); any other size error is the second split's quantized share |
| Annotations.RelativeShareAccepted | mapreader/classify/load_annotations.py:564-571 | a relative share in [0, 1] quantizes to a size the second split accepts exactly when it lies strictly between 0.0005 and 0.9995 |
| Annotations.CreateDatasetsShares | mapreader/classify/load_annotations.py:540-571 | for non-negative fractions summing to 1, the splits go through exactly when 0 < train < 1 and, with a test set, test/(val+test) lies strictly between 0.0005 and 0.9995 |
| Annotations.CreateDatasetsAllTraining | mapreader/classify/load_annotations.py:555-561 | train = 1 raises: the first split is asked to hold out a share of 0 |
| Annotations.CreateDatasetsNoValidation | mapreader/classify/load_annotations.py:563-571 | a test set with val = 0 raises: the second split is asked for a relative share of 1 |

## Left out

- Shapely geometry (`shape`, `within`, `intersects`, `contains`, `disjoint`, `unary_union`, `bounds`) is an oracle. The only law assumed is "within implies intersects", and only where a lemma says so.
- The latitude formulas (`asinh`, `tan`, `atan`, `sinh`) are an oracle. Lemmas that need it assume the projection is decreasing. Floating-point rounding is not modelled: longitudes are exact reals.
- Tile fetching and merging (`TileDownloader`, `TileMerger`), `os.path.exists`, CSV writing and reading, and `os.path.abspath` are oracles or appended sequences.
- `shutil.rmtree("_tile_cache/")` after each merge (mapreader/download/sheet_downloader.py:501) is not modelled: it is assumed to succeed. Were the cache directory missing, the source would raise `FileNotFoundError` there, and the model never does.
- mapreader/download/data_structures.py (`Coordinate`, `GridIndex`, `GridBoundingBox`) is not part of this model. Its classes are plain records here, and `GridBoundingBox(start, end)` is assumed to keep `start` as `lower_corner` and `end` as `upper_corner`.
- DownloaderUtils.GridBbCornerOrder depends on that assumption about `GridBoundingBox`: it shows the lower corner holding the larger column only if the constructor keeps its arguments in the order given.
- Downloads.RecordedBoundsReversed depends on the same assumption: the recorded west bound comes from whatever `GridBoundingBox` stores as `lower_corner`.
- Downloads.RecordedBoundsCounterexample depends on the same assumption: its recorded bounds 0 and -180 are those of a constructor that keeps its arguments in order.
- Downloads.MetadataRowReversed depends on the same assumption: it reads the row's bounds from corners the constructor is assumed to keep in order.
- `Catalogue.EvalInt` accepts only plain decimal digit runs. Python's `eval` also accepts hexadecimal, octal and binary prefixes (`0x1F`), underscores (`1_000`), leading spaces (` 12`), floats (`1.5`) and any other expression; the model raises `NotAnInteger` on these.
- `Catalogue.WfsIdStep`, `Catalogue.DateStep` and `Catalogue.ExtractWfsIdNos` inherit that limit of `Catalogue.EvalInt`: a WFS id or a publication match in one of those forms raises in the model, though the source reads it.
- `Catalogue.AsValue` takes the feature's `geometry` shape to be what `shape()` makes of its GeoJSON dictionary; the two are given together and the conversion is not modelled.
- The user regex of `query_map_sheets_by_string` and of the publication-date search is an abstract matcher; whether a pattern compiles is an oracle too. `eval` is modelled only for plain decimal literals.
- Queries.QueryByWfsIds and Queries.QueryByString model `print=False`. With `print=True` the source also derives the polygons when they are missing, and may raise while doing so; `Queries.QueryByWfsIdsPrinted` and `Queries.QueryByStringPrinted` model that case.
- Queries.QueryByPolygon, Queries.QueryByCoordinates and Queries.QueryByLine take no `print` argument: they derive the polygons before scanning, so showing their results changes no state (`Queries.PrintingAfterPolygonQueries`).
- Queries.QueryByCoordinates and DownloadRequests.DownloadByCoordinates read every tuple `Point` accepts as the pair (x, y): a third, z coordinate is dropped. Which tuples `Point` refuses is left to the argument (`BadTuple`), not computed.
- Annotations.CheckPatchPaths reads a row that lacks the path cell as the text `"nan"`. In the source that cell is a float NaN, and `os.path.exists` raises `TypeError` on it (mapreader/classify/load_annotations.py:215). This arises only for rows appended from a batch without the path column. The model does not raise there: it asks whether a file named `nan` exists.
- Printing and plotting are left out: the text `print_found_queries` prints (its `get_polygons` call is modelled by `Queries.PrintFoundQueries`), `hist_published_dates`, `plot_*`, `show_patch`, `show_sample`, `print_unique_labels`, `__str__`. The warnings printed on a column rename or a multi-part geometry are also left out.
- `review_labels` is left out because it is interactive.
- `scramble_frame` and `reset_index` are left out because they shuffle rows at random.
- `train_test_split`, the `PatchDataset` construction, `create_dataloaders` and `_define_sampler` are left out: they are randomness and training glue. `CreateDatasets` stops at the two split fractions and the range check both splits apply to a float `test_size`. The checks that depend on the rows are left out: an empty train or test part after rounding the sizes, and a label with too few rows to stratify.
- The `broken_files.txt` report of `_check_patch_paths` is file output and is left out.
- Pandas index labels are left out: rows are a sequence with distinct identities. After `concat`, duplicated index labels would make `drop(i)` remove more than one row.
- A cell a row lacks reads as the text `"nan"`. Other dtype conversions of `astype(str)` are not modelled.
- The `label_index` column is kept beside the table (`Loader.labelIndex`) rather than as a column of it.
- `Annotations.CreateDatasets` computes `frac_test / (frac_val + frac_test)` exactly. The source's `Decimal` division rounds to 28 significant digits before quantizing, which can differ only on inputs within 10^-28 of a tie.
- `Annotations.CreateDatasets` treats `float(...)` of a `Decimal` share as exact, so a share that rounds to 0.0 or 1.0 as a float is not refused.
- `Annotations.CreateDatasets` does not model the `InvalidOperation` that `quantize` raises on a result with more than 28 digits.
- The `assert` on split sizes inside `create_datasets` belongs to `train_test_split` and is left out.
- `get_minmax_latlon` is left out because it only prints.
- `download_url` that is a list of non-strings is not checked by the source and is not modelled.

## Findings

| source | as written | input that shows it | evidently intended | confidence | as-written member | corrected member |
|---|---|---|---|---|---|---|
| mapreader/download/sheet_downloader.py:270-272 | in `within` mode the duplicate test asks whether the sheet's polygon is in `found_queries`, a list of features, so it never fires | any `within` query repeated with `append=True` that has a match: the match is held twice | compare the feature, as the `intersects` branch does, so a repeated query changes nothing | high (not executed) | Queries.QueryByPolygonWithinRepeats | Queries.QueryByPolygonCorrectedIdempotent |
| mapreader/download/sheet_downloader.py:607 | `download_all_map_sheets` accepts `overwrite` but does not pass it to `_download_map_sheets` | `overwrite=True` with a sheet file already on disk: the sheet is skipped | pass `overwrite` on, as every other `download_*` does | high (not executed) | DownloadRequests.DownloadAllIgnoresOverwrite | DownloadRequests.DownloadAllCorrectedOverwrites |
| mapreader/download/sheet_downloader.py:531-536 | the recorded coordinates take x min from the lower corner, the tile of the maximum longitude, and x max from the upper corner, each as the tile's upper-left corner | a sheet spanning longitudes -10 to 10 at zoom 1: recorded x min 0, x max -180 | the bounds of the downloaded tiles: x from the upper corner column's west edge to the lower corner column's east edge, y from the lower row's south edge to the upper row's north edge | medium (not executed; assumes `GridBoundingBox` keeps its arguments in the order given, its class not being part of this model) | Downloads.RecordedBoundsCounterexample | Downloads.CoveredBoundsContain |

=== FILE: annotations.dfy ===
/** The bookkeeping of `AnnotationsLoader`: which columns it reads, how a
    new batch of annotations joins the old ones, how rows whose image file
    is missing are treated, how labels are numbered, and the checks that
    guard a train/validation/test split.

    A table is a set of column names and a sequence of rows; a row maps
    column names to the text in its cells.  A cell a row lacks reads as
    `"nan"`, which is what converting a missing value to text gives.  The
    file system comes in as a `Files` record: whether a path exists, and
    the table a CSV file holds, when it is a file. */
module Annotations {
  import opened Common

  type Row = map<string, string>

  datatype Frame = Frame(columns: set<string>, rows: seq<Row>)

  datatype Files = Files(
    present: string -> bool,                     // os.path.exists(path)
    readCsv: (string, string) -> Option<Frame>,  // pd.read_csv(path, sep) of a path that is a file; None when it is not
    absolute: string -> string)                  // os.path.abspath(path)

  /** What `load` accepts as annotations: a CSV path, a table, or anything
      else. */
  datatype Source = CsvFile(path: string) | Table(frame: Frame) | NotATable

  /** The loader's attributes.  `labelIndex` is the `label_index` column,
      one entry per row. */
  datatype Loader = Loader(
    annotations: Frame,
    idCol: Option<string>,
    pathCol: Option<string>,
    labelCol: Option<string>,
    uniqueLabels: seq<string>,
    labelIndex: seq<nat>,
    labelsMap: map<nat, string>)

  datatype Loaded = Loaded(after: Loader, raised: Option<Error>)

  /** `AnnotationsLoader()`: no annotations, no columns chosen. */
  function NewLoader(): Loader {
    Loader(Frame({}, []), None, None, None, [], [], map[])
  }

  function Cell(r: Row, column: string): string {
    if column in r then r[column] else "nan"
  }

  // ---------------------------------------------------------------------
  // Column names

  /** `not self.id_col`: never set, or set to the empty name. */
  predicate Unset(column: Option<string>) {
    column.None? || column.value == ""
  }

  /** The first `load` chooses a column name; a later one with a different
      name only warns. */
  function SetOnce(current: Option<string>, given: string): (r: Option<string>)
    ensures r.Some?
    ensures !Unset(current) ==> r == current
  {
    if Unset(current) then Some(given) else current
  }

  /** Once a non-empty name is chosen, no later call changes it. */
  lemma SetOnceSticks(current: Option<string>, first: string, later: string)
    requires first != ""
    ensures SetOnce(SetOnce(current, first), later) == SetOnce(current, first)
    ensures Unset(current) ==> SetOnce(SetOnce(current, first), later) == Some(first)
  {
  }

  // ---------------------------------------------------------------------
  // Image paths

  /** `os.path.join(directory, name)`: an absolute name replaces the
      directory, and so does an empty directory; otherwise a separator is
      added unless the directory already ends in one. */
  function Join(directory: string, name: string): (r: string)
    ensures (|name| > 0 && name[0] == '/') || directory == "" ==> r == name
    ensures !(|name| > 0 && name[0] == '/') ==>
      |directory| + |name| <= |r| <= |directory| + |name| + 1 && r[..|directory|] == directory && r[|r| - |name|..] == name
  {
    if |name| > 0 && name[0] == '/' then name
    else if directory == "" || directory[|directory| - 1] == '/' then directory + name
    else directory + "/" + name
  }

  /** `annotations[path_col] = annotations[id_col].apply(join)`: every row's
      path becomes the image directory joined with its id. */
  function WithImagesDir(f: Frame, idCol: string, pathCol: string, directory: string): (r: Result<Frame>)
    ensures r.Err? <==> idCol !in f.columns
    ensures r.Err? ==> r.error == MissingColumn(idCol)
    ensures r.Ok? ==> r.value.columns == f.columns + {pathCol} && |r.value.rows| == |f.rows|
    ensures r.Ok? ==> forall i :: 0 <= i < |f.rows| ==>
      && Cell(r.value.rows[i], pathCol) == Join(directory, Cell(f.rows[i], idCol))
      && forall c :: c != pathCol ==> Cell(r.value.rows[i], c) == Cell(f.rows[i], c)
  {
    if idCol !in f.columns then Err(MissingColumn(idCol))
    else Ok(Frame(f.columns + {pathCol}, seq(|f.rows|, i requires 0 <= i < |f.rows| => f.rows[i][pathCol := Join(directory, Cell(f.rows[i], idCol))])))
  }

  // ---------------------------------------------------------------------
  // Broken paths

  /** The rows whose image file exists, in order. */
  function Present(rows: seq<Row>, pathCol: string, onDisk: string -> bool): (r: seq<Row>)
    ensures |r| <= |rows|
    ensures forall x :: x in r ==> x in rows && onDisk(Cell(x, pathCol))
    decreases |rows|
  {
    if |rows| == 0 then []
    else (if onDisk(Cell(rows[0], pathCol)) then [rows[0]] else []) + Present(rows[1..], pathCol, onDisk)
  }

  /** The number of rows whose image file is missing. */
  function BrokenCount(rows: seq<Row>, pathCol: string, onDisk: string -> bool): nat
    decreases |rows|
  {
    if |rows| == 0 then 0
    else (if onDisk(Cell(rows[0], pathCol)) then 0 else 1) + BrokenCount(rows[1..], pathCol, onDisk)
  }

  /** `Present` keeps exactly the rows whose file exists, and every row is
      either kept or counted as broken. */
  lemma {:induction false} PresentExactly(rows: seq<Row>, pathCol: string, onDisk: string -> bool)
    ensures forall x :: x in Present(rows, pathCol, onDisk) <==> x in rows && onDisk(Cell(x, pathCol))
    ensures |Present(rows, pathCol, onDisk)| + BrokenCount(rows, pathCol, onDisk) == |rows|
    decreases |rows|
  {
    if |rows| > 0 {
      PresentExactly(rows[1..], pathCol, onDisk);
      assert rows == [rows[0]] + rows[1..];
    }
  }

  /** Filtering twice keeps what filtering once kept. */
  lemma {:induction false} PresentIdempotent(rows: seq<Row>, pathCol: string, onDisk: string -> bool)
    ensures Present(Present(rows, pathCol, onDisk), pathCol, onDisk) == Present(rows, pathCol, onDisk)
    ensures BrokenCount(Present(rows, pathCol, onDisk), pathCol, onDisk) == 0
    decreases |rows|
  {
    if |rows| > 0 {
      PresentIdempotent(rows[1..], pathCol, onDisk);
      var rest := Present(rows[1..], pathCol, onDisk);
      if onDisk(Cell(rows[0], pathCol)) {
        var kept := [rows[0]] + rest;
        assert Present(rows, pathCol, onDisk) == kept;
        assert kept[0] == rows[0] && kept[1..] == rest;
        assert Present(kept, pathCol, onDisk) == [rows[0]] + Present(rest, pathCol, onDisk);
        assert BrokenCount(kept, pathCol, onDisk) == BrokenCount(rest, pathCol, onDisk);
      } else {
        assert Present(rows, pathCol, onDisk) == rest;
      }
    }
  }

  datatype Checked = Checked(frame: Frame, raised: Option<Error>)

  /** `_check_patch_paths`: nothing to do on an empty table; otherwise,
      with `removeBroken`, keep the rows whose file exists and raise if
      none is left; without it, raise on any broken path unless told to
      ignore them. */
  function CheckPatchPaths(f: Frame, pathCol: string, onDisk: string -> bool, removeBroken: bool, ignoreBroken: bool): (r: Checked)
    ensures |f.rows| == 0 ==> r == Checked(f, None)
    ensures |f.rows| > 0 && pathCol !in f.columns ==> r == Checked(f, Some(MissingColumn(pathCol)))
    ensures r.frame.columns == f.columns
    ensures |f.rows| > 0 && pathCol in f.columns && removeBroken ==>
      && r.frame.rows == Present(f.rows, pathCol, onDisk)
      && (r.raised.Some? <==> r.frame.rows == []) && (r.raised.Some? ==> r.raised == Some(NoAnnotationsRemaining))
    ensures !removeBroken ==> r.frame == f
    ensures |f.rows| > 0 && pathCol in f.columns && !removeBroken ==>
      (r.raised.Some? <==> !ignoreBroken && BrokenCount(f.rows, pathCol, onDisk) > 0)
      && (r.raised.Some? ==> r.raised == Some(BrokenPaths(BrokenCount(f.rows, pathCol, onDisk))))
  {
    if |f.rows| == 0 then Checked(f, None)
    else if pathCol !in f.columns then Checked(f, Some(MissingColumn(pathCol)))
    else
      var broken := BrokenCount(f.rows, pathCol, onDisk);
      if removeBroken then
        var kept := Present(f.rows, pathCol, onDisk);
        PresentExactly(f.rows, pathCol, onDisk);
        if broken != 0 && |kept| == 0 then Checked(f.(rows := kept), Some(NoAnnotationsRemaining))
        else Checked(f.(rows := kept), None)
      else if broken != 0 && !ignoreBroken then Checked(f, Some(BrokenPaths(broken)))
      else Checked(f, None)
  }

  /** After a check that removed broken rows, every remaining file exists:
      checking again changes nothing and raises nothing. */
  lemma CheckPatchPathsIdempotent(f: Frame, pathCol: string, onDisk: string -> bool, ignoreBroken: bool)
    requires CheckPatchPaths(f, pathCol, onDisk, true, ignoreBroken).raised.None?
    ensures var c := CheckPatchPaths(f, pathCol, onDisk, true, ignoreBroken);
      forall remove: bool, ignore: bool :: CheckPatchPaths(c.frame, pathCol, onDisk, remove, ignore) == c
  {
    var c := CheckPatchPaths(f, pathCol, onDisk, true, ignoreBroken);
    if |f.rows| > 0 {
      PresentIdempotent(f.rows, pathCol, onDisk);
    }
  }

  /** The rows a check keeps all have a file on disk, and none that has
      one is dropped. */
  lemma CheckPatchPathsKeepsPresent(f: Frame, pathCol: string, onDisk: string -> bool, ignoreBroken: bool)
    requires |f.rows| > 0 && pathCol in f.columns
    ensures var c := CheckPatchPaths(f, pathCol, onDisk, true, ignoreBroken);
      forall x :: x in c.frame.rows <==> x in f.rows && onDisk(Cell(x, pathCol))
  {
    PresentExactly(f.rows, pathCol, onDisk);
  }

  // ---------------------------------------------------------------------
  // First occurrences: duplicate ids and unique labels

  /** The text of one column, row by row. */
  function Column(rows: seq<Row>, column: string): (r: seq<string>)
    ensures |r| == |rows| && forall i :: 0 <= i < |rows| ==> r[i] == Cell(rows[i], column)
  {
    seq(|rows|, i requires 0 <= i < |rows| => Cell(rows[i], column))
  }

  /** No earlier entry equals entry i. */
  predicate FirstOf(keys: seq<string>, i: nat)
    requires i < |keys|
  {
    forall j :: 0 <= j < i ==> keys[j] != keys[i]
  }

  /** The positions from k on that hold a first occurrence, in order. */
  function FirstPositions(keys: seq<string>, k: nat): (r: seq<nat>)
    requires k <= |keys|
    ensures forall j :: 0 <= j < |r| ==> k <= r[j] < |keys|
    decreases |keys| - k
  {
    if k == |keys| then []
    else (if FirstOf(keys, k) then [k] else []) + FirstPositions(keys, k + 1)
  }

  /** `FirstPositions` holds exactly the first occurrences, each once, in
      increasing order. */
  lemma {:induction false} FirstPositionsExactly(keys: seq<string>, k: nat)
    requires k <= |keys|
    ensures forall i :: k <= i < |keys| ==> (i in FirstPositions(keys, k) <==> FirstOf(keys, i))
    ensures forall a, b :: 0 <= a < b < |FirstPositions(keys, k)| ==> FirstPositions(keys, k)[a] < FirstPositions(keys, k)[b]
    decreases |keys| - k
  {
    if k < |keys| {
      FirstPositionsExactly(keys, k + 1);
      var here: seq<nat> := if FirstOf(keys, k) then [k] else [];
      assert FirstPositions(keys, k) == here + FirstPositions(keys, k + 1);
    }
  }

  /** Every entry has a first occurrence at or before it. */
  lemma {:induction false} FirstOccurrence(keys: seq<string>, i: nat) returns (f: nat)
    requires i < |keys|
    ensures f <= i && keys[f] == keys[i] && FirstOf(keys, f)
    decreases i
  {
    if FirstOf(keys, i) {
      f := i;
    } else {
      var j :| 0 <= j < i && keys[j] == keys[i];
      f := FirstOccurrence(keys, j);
    }
  }

  /** `Series.unique()`: the distinct entries in order of first
      occurrence. */
  function Unique(keys: seq<string>): (r: seq<string>)
    ensures forall j :: 0 <= j < |r| ==> r[j] in keys
  {
    var ps := FirstPositions(keys, 0);
    seq(|ps|, j requires 0 <= j < |ps| => keys[ps[j]])
  }

  /** `drop_duplicates(subset=id_col, keep="first")`. */
  function DropDuplicates(rows: seq<Row>, idCol: string): (r: seq<Row>)
    ensures forall j :: 0 <= j < |r| ==> r[j] in rows
  {
    var ps := FirstPositions(Column(rows, idCol), 0);
    seq(|ps|, j requires 0 <= j < |ps| => rows[ps[j]])
  }

  ghost predicate Distinct(keys: seq<string>) {
    forall a, b :: 0 <= a < b < |keys| ==> keys[a] != keys[b]
  }

  /** `unique()` lists every entry once and nothing else. */
  lemma UniqueSpec(keys: seq<string>)
    ensures Distinct(Unique(keys))
    ensures forall x :: x in Unique(keys) <==> x in keys
  {
    var ps := FirstPositions(keys, 0);
    var u := Unique(keys);
    FirstPositionsExactly(keys, 0);
    forall a, b | 0 <= a < b < |u| ensures u[a] != u[b] {
      assert ps[a] < ps[b] && FirstOf(keys, ps[b]);
      assert keys[ps[a]] == u[a];
    }
    forall x | x in keys ensures x in u {
      var i :| 0 <= i < |keys| && keys[i] == x;
      var f := FirstOccurrence(keys, i);
      var j :| 0 <= j < |ps| && ps[j] == f;
      assert u[j] == x;
    }
  }

  /** `unique()` keeps the order of first occurrence: an entry listed
      earlier turns up in the input before any copy of one listed later. */
  lemma UniqueOrder(keys: seq<string>, a: nat, b: nat, j: nat) returns (i: nat)
    requires a < b < |Unique(keys)| && j < |keys| && keys[j] == Unique(keys)[b]
    ensures i < j && keys[i] == Unique(keys)[a]
  {
    var ps := FirstPositions(keys, 0);
    FirstPositionsExactly(keys, 0);
    assert FirstOf(keys, ps[b]);
    i := ps[a];
  }

  /** After dropping duplicates no two rows share an id, every id is still
      there, and what is kept is the first row with each id. */
  lemma DropDuplicatesSpec(rows: seq<Row>, idCol: string)
    ensures Distinct(Column(DropDuplicates(rows, idCol), idCol))
    ensures forall x :: x in DropDuplicates(rows, idCol) ==> x in rows
    ensures forall i :: 0 <= i < |rows| && FirstOf(Column(rows, idCol), i) ==> rows[i] in DropDuplicates(rows, idCol)
    ensures forall i :: 0 <= i < |rows| ==> Cell(rows[i], idCol) in Column(DropDuplicates(rows, idCol), idCol)
  {
    var keys := Column(rows, idCol);
    var ps := FirstPositions(keys, 0);
    var r := DropDuplicates(rows, idCol);
    var ids := Column(r, idCol);
    FirstPositionsExactly(keys, 0);
    forall a, b | 0 <= a < b < |ids| ensures ids[a] != ids[b] {
      assert ps[a] < ps[b] && FirstOf(keys, ps[b]);
      assert ids[a] == keys[ps[a]] && ids[b] == keys[ps[b]];
    }
    forall i | 0 <= i < |rows| && FirstOf(keys, i) ensures rows[i] in r {
      var j :| 0 <= j < |ps| && ps[j] == i;
      assert r[j] == rows[i];
    }
    forall i | 0 <= i < |rows| ensures Cell(rows[i], idCol) in ids {
      var f := FirstOccurrence(keys, i);
      var j :| 0 <= j < |ps| && ps[j] == f;
      assert ids[j] == keys[f];
    }
  }

  /** Rows whose ids are already distinct are kept as they are, so
      dropping duplicates twice is dropping them once. */
  lemma DropDuplicatesIdempotent(rows: seq<Row>, idCol: string)
    ensures DropDuplicates(DropDuplicates(rows, idCol), idCol) == DropDuplicates(rows, idCol)
  {
    DropDuplicatesSpec(rows, idCol);
    DistinctKeptWhole(DropDuplicates(rows, idCol), idCol);
  }

  lemma DistinctKeptWhole(rows: seq<Row>, idCol: string)
    requires Distinct(Column(rows, idCol))
    ensures DropDuplicates(rows, idCol) == rows
  {
    var keys := Column(rows, idCol);
    AllFirst(keys, 0);
  }

  /** Without repeats every position is a first occurrence. */
  lemma {:induction false} AllFirst(keys: seq<string>, k: nat)
    requires Distinct(keys) && k <= |keys|
    ensures FirstPositions(keys, k) == seq(|keys| - k, i requires 0 <= i < |keys| - k => k + i)
    decreases |keys| - k
  {
    if k < |keys| {
      AllFirst(keys, k + 1);
      assert FirstOf(keys, k);
    }
  }

  // ---------------------------------------------------------------------
  // Label numbering

  /** `unique_labels.index(label)`: the first position of the label, or an
      error when it is not listed. */
  function IndexOf(u: seq<string>, name: string, k: nat): (r: Result<nat>)
    requires k <= |u|
    ensures r.Ok? ==> k <= r.value < |u| && u[r.value] == name && forall j :: k <= j < r.value ==> u[j] != name
    ensures r.Err? <==> forall j :: k <= j < |u| ==> u[j] != name
    ensures r.Err? ==> r.error == LabelNotFound(name)
    decreases |u| - k
  {
    if k == |u| then Err(LabelNotFound(name))
    else if u[k] == name then Ok(k)
    else IndexOf(u, name, k + 1)
  }

  /** The `label_index` column: each row's label looked up in the list. */
  function LabelIndexes(labels: seq<string>, u: seq<string>): (r: Result<seq<nat>>)
    ensures r.Ok? ==> |r.value| == |labels| && forall i :: 0 <= i < |labels| ==> IndexOf(u, labels[i], 0) == Ok(r.value[i])
    ensures r.Err? <==> exists i :: 0 <= i < |labels| && labels[i] !in u
    decreases |labels|
  {
    if |labels| == 0 then Ok([])
    else match IndexOf(u, labels[0], 0)
      case Err(e) => Err(e)
      case Ok(n) =>
        match LabelIndexes(labels[1..], u)
        case Err(e) =>
          assert exists i :: 0 <= i < |labels| - 1 && labels[1..][i] !in u;
          Err(e)
        case Ok(ns) => Ok([n] + ns)
  }

  /** `labels_map = {i: label for i, label in enumerate(unique_labels)}`. */
  function LabelsMap(u: seq<string>): (m: map<nat, string>)
    ensures forall i: nat :: i in m <==> i < |u|
    ensures forall i :: 0 <= i < |u| ==> m[i] == u[i]
  {
    map i: nat | i < |u| :: u[i]
  }

  /** Labels numbered by a list: the list is the distinct labels, each
      row's number points at its label, and the map reads the number back
      to the label. */
  ghost predicate NumberedBy(labels: seq<string>, u: seq<string>, ns: seq<nat>, m: map<nat, string>) {
    && Distinct(u)
    && (forall x :: x in u <==> x in labels)
    && |ns| == |labels|
    && (forall i :: 0 <= i < |labels| ==> ns[i] < |u| && u[ns[i]] == labels[i])
    && (forall i :: 0 <= i < |labels| ==> ns[i] in m && m[ns[i]] == labels[i])
    && (forall n: nat :: n in m <==> n < |u|)
  }

  /** What a successful `load` leaves. */
  ghost predicate Indexed(l: Loader) {
    && l.labelCol.Some?
    && NumberedBy(Column(l.annotations.rows, l.labelCol.value), l.uniqueLabels, l.labelIndex, l.labelsMap)
  }

  /** The indexing step of `load`: `unique()`, `label_index` by
      `list.index`, and `labels_map`.  Every label is in the list, so the
      lookup never raises. */
  function Index(l: Loader, labelCol: string): (r: Loaded)
    ensures r.raised.None?
    ensures r.after.annotations == l.annotations
    ensures r.after.idCol == l.idCol && r.after.pathCol == l.pathCol && r.after.labelCol == l.labelCol
    ensures NumberedBy(Column(l.annotations.rows, labelCol), r.after.uniqueLabels, r.after.labelIndex, r.after.labelsMap)
  {
    var labels := Column(l.annotations.rows, labelCol);
    var u := Unique(labels);
    NumberingSpec(labels);
    Loaded(l.(uniqueLabels := u, labelIndex := LabelIndexes(labels, u).value, labelsMap := LabelsMap(u)), None)
  }

  /** Every label is found in the list of unique labels, and the numbers
      and map that come out read back to each row's label. */
  lemma NumberingSpec(labels: seq<string>)
    ensures LabelIndexes(labels, Unique(labels)).Ok?
    ensures NumberedBy(labels, Unique(labels), LabelIndexes(labels, Unique(labels)).value, LabelsMap(Unique(labels)))
  {
    var u := Unique(labels);
    UniqueSpec(labels);
    var ns: seq<nat> := LabelIndexes(labels, u).value;
    var m := LabelsMap(u);
    forall i | 0 <= i < |labels|
      ensures ns[i] < |u| && u[ns[i]] == labels[i]
      ensures ns[i] in m && m[ns[i]] == labels[i]
    {
      assert IndexOf(u, labels[i], 0) == Ok(ns[i]);
    }
  }

  /** Numbering never fails, leaves the rows alone and its result is
      `Indexed`. */
  lemma IndexSpec(l: Loader, labelCol: string)
    requires l.labelCol == Some(labelCol)
    ensures Index(l, labelCol).raised.None? && Indexed(Index(l, labelCol).after)
    ensures Index(l, labelCol).after.annotations == l.annotations
  {
    NumberingSpec(Column(l.annotations.rows, labelCol));
  }

  /** For distinct labels, looking a label up is the inverse of reading the
      list at a position. */
  lemma IndexOfInverse(u: seq<string>, i: nat)
    requires Distinct(u) && i < |u|
    ensures IndexOf(u, u[i], 0) == Ok(i)
  {
  }

  // ---------------------------------------------------------------------
  // Loading

  /** `_load_annotations_csv`: read the file, or raise when the path is not
      a file; then keep the first row for each id, raising when the table
      has no id column. */
  function LoadCsv(files: Files, path: string, delimiter: string, idCol: string): (r: Result<Frame>)
    ensures files.readCsv(path, delimiter).None? ==> r == Err(FileNotFound(path))
    ensures files.readCsv(path, delimiter).Some? && idCol !in files.readCsv(path, delimiter).value.columns ==>
      r == Err(MissingColumn(idCol))
    ensures r.Ok? <==> files.readCsv(path, delimiter).Some? && idCol in files.readCsv(path, delimiter).value.columns
    ensures r.Ok? ==> Distinct(Column(r.value.rows, idCol))
    ensures r.Ok? ==> r.value.columns == files.readCsv(path, delimiter).value.columns
    ensures r.Ok? ==> r.value.rows == DropDuplicates(files.readCsv(path, delimiter).value.rows, idCol)
  {
    match files.readCsv(path, delimiter)
    case None => Err(FileNotFound(path))
    case Some(f) =>
      if idCol !in f.columns then Err(MissingColumn(idCol))
      else
        DropDuplicatesSpec(f.rows, idCol);
        Ok(f.(rows := DropDuplicates(f.rows, idCol)))
  }

  /** The table `load` starts from: read from a CSV path, taken as given,
      or refused. */
  function Read(files: Files, source: Source, delimiter: string, idCol: string): (r: Result<Frame>)
    ensures source.NotATable? ==> r == Err(InvalidArgument("annotations"))
    ensures source.Table? ==> r == Ok(source.frame)
    ensures source.CsvFile? ==> r == LoadCsv(files, source.path, delimiter, idCol)
    ensures source.CsvFile? && r.Ok? ==> Distinct(Column(r.value.rows, idCol))
  {
    match source
    case NotATable => Err(InvalidArgument("annotations"))
    case CsvFile(path) => LoadCsv(files, path, delimiter, idCol)
    case Table(f) => Ok(f)
  }

  /** `if images_dir:`: a named, non-empty image directory. */
  predicate Rewrites(imagesDir: Option<string>) {
    imagesDir.Some? && imagesDir.value != ""
  }

  /** The new batch as `load` prepares it, before it meets the old
      annotations: the table read, image paths rewritten when an image
      directory is named, and the label column required. */
  function Incoming(files: Files, source: Source, delimiter: string, imagesDir: Option<string>,
                    idCol: string, pathCol: string, labelCol: string): (r: Result<Frame>)
    ensures source.NotATable? ==> r == Err(InvalidArgument("annotations"))
    ensures Read(files, source, delimiter, idCol).Err? ==> r == Read(files, source, delimiter, idCol)
    ensures Read(files, source, delimiter, idCol).Ok? ==> var f := Read(files, source, delimiter, idCol).value;
      && (Rewrites(imagesDir) && idCol !in f.columns ==> r == Err(MissingColumn(idCol)))
      && (r.Ok? <==> (Rewrites(imagesDir) ==> idCol in f.columns) && (labelCol in f.columns || (Rewrites(imagesDir) && labelCol == pathCol)))
      && ((Rewrites(imagesDir) ==> idCol in f.columns) && r.Err? ==> r == Err(MissingColumn(labelCol)))
    ensures r.Ok? ==> labelCol in r.value.columns
    ensures r.Ok? ==> var f := Read(files, source, delimiter, idCol).value;
      && |r.value.rows| == |f.rows|
      && r.value.columns == f.columns + (if Rewrites(imagesDir) then {pathCol} else {})
      && forall i, c :: 0 <= i < |f.rows| ==>
           Cell(r.value.rows[i], c) == (if Rewrites(imagesDir) && c == pathCol then Join(files.absolute(imagesDir.value), Cell(f.rows[i], idCol))
                                        else Cell(f.rows[i], c))
  {
    var f :- Read(files, source, delimiter, idCol);
    var g :- if Rewrites(imagesDir)
      then WithImagesDir(f, idCol, pathCol, files.absolute(imagesDir.value))
      else Ok(f);
    if labelCol !in g.columns then Err(MissingColumn(labelCol)) else Ok(g)
  }

  /** `pd.concat([old, new])`: the columns of both, the old rows then the
      new. */
  function Concat(a: Frame, b: Frame): (r: Frame)
    ensures r.columns == a.columns + b.columns && |r.rows| == |a.rows| + |b.rows|
    ensures r.rows[..|a.rows|] == a.rows && r.rows[|a.rows|..] == b.rows
  {
    Frame(a.columns + b.columns, a.rows + b.rows)
  }

  /** `load`: fix the column names the first time, prepare the new batch,
      append it to or let it replace the old annotations, check the image
      paths and number the labels.  A raise keeps the column names already
      set, and the annotations as far as they got. */
  function Load(l: Loader, files: Files, source: Source, delimiter: string, imagesDir: Option<string>,
                removeBroken: bool, ignoreBroken: bool,
                idCol: string, pathCol: string, labelCol: string, append: bool): (r: Loaded)
    ensures r.after.idCol == SetOnce(l.idCol, idCol)
    ensures r.after.pathCol == SetOnce(l.pathCol, pathCol)
    ensures r.after.labelCol == SetOnce(l.labelCol, labelCol)
    ensures source.NotATable? ==> r.raised == Some(InvalidArgument("annotations")) && r.after.annotations == l.annotations
    ensures r.raised.None? ==> Indexed(r.after)
  {
    var l1 := l.(idCol := SetOnce(l.idCol, idCol), pathCol := SetOnce(l.pathCol, pathCol),
                 labelCol := SetOnce(l.labelCol, labelCol));
    var id, path, lab := l1.idCol.value, l1.pathCol.value, l1.labelCol.value;
    match Incoming(files, source, delimiter, imagesDir, id, path, lab)
    case Err(e) => Loaded(l1, Some(e))
    case Ok(batch) =>
      var combined := if append then Concat(l1.annotations, batch) else batch;
      var c := CheckPatchPaths(combined, path, files.present, removeBroken, ignoreBroken);
      var l2 := l1.(annotations := c.frame);
      if c.raised.Some? then Loaded(l2, c.raised)
      else
        IndexSpec(l2, lab);
        Index(l2, lab)
  }

  /** After a successful `load` the annotations are the old rows (when
      appending) followed by the new batch, less the rows with a missing
      file when broken rows are removed. */
  lemma LoadCombines(l: Loader, files: Files, source: Source, delimiter: string, imagesDir: Option<string>,
                     removeBroken: bool, ignoreBroken: bool,
                     idCol: string, pathCol: string, labelCol: string, append: bool)
    requires Load(l, files, source, delimiter, imagesDir, removeBroken, ignoreBroken, idCol, pathCol, labelCol, append).raised.None?
    ensures var r := Load(l, files, source, delimiter, imagesDir, removeBroken, ignoreBroken, idCol, pathCol, labelCol, append);
      var batch := Incoming(files, source, delimiter, imagesDir, r.after.idCol.value, r.after.pathCol.value, r.after.labelCol.value);
      var rows := if append then l.annotations.rows + batch.value.rows else batch.value.rows;
      && batch.Ok?
      && r.after.annotations.rows == (if removeBroken && |rows| > 0 then Present(rows, r.after.pathCol.value, files.present) else rows)
  {
  }

  /** Dropping rows never makes two ids equal. */
  lemma {:induction false} PresentKeepsDistinct(rows: seq<Row>, pathCol: string, onDisk: string -> bool, idCol: string)
    requires Distinct(Column(rows, idCol))
    ensures Distinct(Column(Present(rows, pathCol, onDisk), idCol))
    decreases |rows|
  {
    if |rows| > 0 {
      var tail := rows[1..];
      HeadIdUnique(rows, idCol);
      PresentKeepsDistinct(tail, pathCol, onDisk, idCol);
      PresentExactly(tail, pathCol, onDisk);
      var rest := Present(tail, pathCol, onDisk);
      if onDisk(Cell(rows[0], pathCol)) {
        assert Present(rows, pathCol, onDisk) == [rows[0]] + rest;
        DistinctCons(rows[0], rest, idCol);
      } else {
        assert Present(rows, pathCol, onDisk) == rest;
      }
    }
  }

  /** Without repeats, the first id recurs nowhere in the rest, and the
      rest has no repeats either. */
  lemma HeadIdUnique(rows: seq<Row>, idCol: string)
    requires |rows| > 0 && Distinct(Column(rows, idCol))
    ensures forall y :: y in rows[1..] ==> Cell(y, idCol) != Cell(rows[0], idCol)
    ensures Distinct(Column(rows[1..], idCol))
  {
    var ids := Column(rows, idCol);
    forall y | y in rows[1..] ensures Cell(y, idCol) != Cell(rows[0], idCol) {
      var j :| 0 <= j < |rows[1..]| && rows[1..][j] == y;
      assert ids[j + 1] == Cell(y, idCol);
    }
    forall a, b | 0 <= a < b < |rows| - 1 ensures Column(rows[1..], idCol)[a] != Column(rows[1..], idCol)[b] {
      assert ids[a + 1] != ids[b + 1];
    }
  }

  /** A row whose id is new may go in front of rows without repeats. */
  lemma DistinctCons(x: Row, rest: seq<Row>, idCol: string)
    requires Distinct(Column(rest, idCol)) && forall y :: y in rest ==> Cell(y, idCol) != Cell(x, idCol)
    ensures Distinct(Column([x] + rest, idCol))
  {
    var ids := Column([x] + rest, idCol);
    forall a, b | 0 <= a < b < |ids| ensures ids[a] != ids[b] {
      assert ([x] + rest)[b] == rest[b - 1];
      if a > 0 {
        assert ([x] + rest)[a] == rest[a - 1];
        assert Column(rest, idCol)[a - 1] != Column(rest, idCol)[b - 1];
      }
    }
  }

  /** A successful `load` that appends without removing rows keeps the old
      annotations, in order, in front of the new ones. */
  lemma LoadKeepsOld(l: Loader, files: Files, source: Source, delimiter: string, imagesDir: Option<string>,
                     ignoreBroken: bool, idCol: string, pathCol: string, labelCol: string)
    requires Load(l, files, source, delimiter, imagesDir, false, ignoreBroken, idCol, pathCol, labelCol, true).raised.None?
    ensures var rows := Load(l, files, source, delimiter, imagesDir, false, ignoreBroken, idCol, pathCol, labelCol, true).after.annotations.rows;
      |l.annotations.rows| <= |rows| && rows[..|l.annotations.rows|] == l.annotations.rows
  {
    LoadCombines(l, files, source, delimiter, imagesDir, false, ignoreBroken, idCol, pathCol, labelCol, true);
  }

  /** When broken rows are removed, every row a successful `load` leaves
      has its image file on disk. */
  lemma LoadRemovesBroken(l: Loader, files: Files, source: Source, delimiter: string, imagesDir: Option<string>,
                          ignoreBroken: bool, idCol: string, pathCol: string, labelCol: string, append: bool)
    requires Load(l, files, source, delimiter, imagesDir, true, ignoreBroken, idCol, pathCol, labelCol, append).raised.None?
    ensures var r := Load(l, files, source, delimiter, imagesDir, true, ignoreBroken, idCol, pathCol, labelCol, append);
      forall x :: x in r.after.annotations.rows ==> files.present(Cell(x, r.after.pathCol.value))
  {
    var r := Load(l, files, source, delimiter, imagesDir, true, ignoreBroken, idCol, pathCol, labelCol, append);
    LoadCombines(l, files, source, delimiter, imagesDir, true, ignoreBroken, idCol, pathCol, labelCol, append);
    var batch := Incoming(files, source, delimiter, imagesDir, r.after.idCol.value, r.after.pathCol.value, r.after.labelCol.value);
    var rows := if append then l.annotations.rows + batch.value.rows else batch.value.rows;
    PresentExactly(rows, r.after.pathCol.value, files.present);
  }

  /** Annotations freshly read from a CSV file have one row per id, even
      after broken rows are removed, as long as the path column is not the
      id column (rewriting paths would otherwise rewrite ids). */
  lemma LoadCsvDistinctIds(l: Loader, files: Files, path: string, delimiter: string, imagesDir: Option<string>,
                           removeBroken: bool, ignoreBroken: bool, idCol: string, pathCol: string, labelCol: string)
    requires SetOnce(l.idCol, idCol) != SetOnce(l.pathCol, pathCol)
    requires Load(l, files, CsvFile(path), delimiter, imagesDir, removeBroken, ignoreBroken, idCol, pathCol, labelCol, false).raised.None?
    ensures var r := Load(l, files, CsvFile(path), delimiter, imagesDir, removeBroken, ignoreBroken, idCol, pathCol, labelCol, false);
      Distinct(Column(r.after.annotations.rows, r.after.idCol.value))
  {
    var r := Load(l, files, CsvFile(path), delimiter, imagesDir, removeBroken, ignoreBroken, idCol, pathCol, labelCol, false);
    var id, p := r.after.idCol.value, r.after.pathCol.value;
    LoadCombines(l, files, CsvFile(path), delimiter, imagesDir, removeBroken, ignoreBroken, idCol, pathCol, labelCol, false);
    var rows := Incoming(files, CsvFile(path), delimiter, imagesDir, id, p, r.after.labelCol.value).value.rows;
    IncomingCsvDistinct(files, path, delimiter, imagesDir, id, p, r.after.labelCol.value);
    if removeBroken && |rows| > 0 {
      PresentKeepsDistinct(rows, p, files.present, id);
    }
  }

  /** A batch read from CSV has one row per id; rewriting the path column
      leaves the ids alone when it is a different column. */
  lemma IncomingCsvDistinct(files: Files, path: string, delimiter: string, imagesDir: Option<string>,
                            idCol: string, pathCol: string, labelCol: string)
    requires idCol != pathCol
    requires Incoming(files, CsvFile(path), delimiter, imagesDir, idCol, pathCol, labelCol).Ok?
    ensures Distinct(Column(Incoming(files, CsvFile(path), delimiter, imagesDir, idCol, pathCol, labelCol).value.rows, idCol))
  {
    var f := LoadCsv(files, path, delimiter, idCol).value;
    if imagesDir.Some? && imagesDir.value != "" {
      var g := WithImagesDir(f, idCol, pathCol, files.absolute(imagesDir.value)).value;
      assert Column(g.rows, idCol) == Column(f.rows, idCol);
    }
  }

  // ---------------------------------------------------------------------
  // Splitting into datasets

  /** `Decimal.quantize(Decimal("0.001"))` under the default rounding:
      the nearest multiple of 0.001, ties to the even multiple. */
  function Quantize(x: real): (r: real)
    ensures (r * 1000.0).Floor as real == r * 1000.0
    ensures -1.0 / 2000.0 <= r - x <= 1.0 / 2000.0
  {
    var n := (x * 1000.0).Floor;
    var rest := x * 1000.0 - n as real;
    var q := if rest < 0.5 then n else if rest > 0.5 then n + 1 else if n % 2 == 0 then n else n + 1;
    q as real / 1000.0
  }

  /** No multiple of 0.001 is nearer to x than its quantized value, and a
      tie goes to the even multiple. */
  lemma QuantizeNearest(x: real, k: int)
    ensures var d := Quantize(x) - x; var e := k as real / 1000.0 - x;
      (if d < 0.0 then -d else d) <= (if e < 0.0 then -e else e)
    ensures x * 1000.0 - (x * 1000.0).Floor as real == 0.5 ==> (Quantize(x) * 1000.0).Floor % 2 == 0
  {
    var n := (x * 1000.0).Floor;
    assert n as real <= x * 1000.0 < n as real + 1.0;
    assert k <= n || k >= n + 1;
  }

  /** A value already on the 0.001 grid is its own quantization. */
  lemma QuantizeIdempotent(x: real)
    ensures Quantize(Quantize(x)) == Quantize(x)
  {
    var q := (Quantize(x) * 1000.0).Floor;
    assert Quantize(x) * 1000.0 == q as real;
  }

  /** What `train_test_split` is asked for: the share held out from
      training, and, when there is a test set, the test share of what is
      held out. */
  datatype Split = Split(heldOut: real, relativeTest: Option<real>)

  /** `train_test_split` accepts a float `test_size` only strictly between
      0 and 1. */
  predicate AcceptedTestSize(t: real) {
    0.0 < t < 1.0
  }

  /** The checks and arithmetic of `create_datasets`: no annotations, or
      fractions whose exact decimal sum is not 1, raise.  The first split
      holds out `1 - frac_train`; when `frac_test` is not 0 the second
      splits off `frac_test / (frac_val + frac_test)` quantized to 0.001.
      Either split raises on a share outside (0, 1).  The fractions are the
      decimals the floats print as. */
  function CreateDatasets(l: Loader, fracTrain: real, fracVal: real, fracTest: real): (r: Result<Split>)
    ensures |l.annotations.rows| == 0 ==> r == Err(NoAnnotationsLoaded)
    ensures |l.annotations.rows| > 0 && fracTrain + fracVal + fracTest != 1.0 ==> r == Err(FractionsDoNotSumToOne)
    ensures |l.annotations.rows| > 0 && fracTrain + fracVal + fracTest == 1.0 && !AcceptedTestSize(1.0 - fracTrain) ==>
      r == Err(InvalidTestSize(1.0 - fracTrain))
    ensures r.Ok? ==> AcceptedTestSize(r.value.heldOut) && r.value.heldOut == fracVal + fracTest
    ensures r.Ok? ==> (r.value.relativeTest.None? <==> fracTest == 0.0)
    ensures r.Ok? && fracTest != 0.0 ==> AcceptedTestSize(r.value.relativeTest.value)
    ensures r.Ok? && fracTest != 0.0 ==>
      -1.0 / 2000.0 <= r.value.relativeTest.value - fracTest / (fracVal + fracTest) <= 1.0 / 2000.0
    ensures r.Err? && r.error.InvalidTestSize? && AcceptedTestSize(1.0 - fracTrain) ==>
      fracTest != 0.0 && r.error.testSize == Quantize(fracTest / (fracVal + fracTest))
  {
    if |l.annotations.rows| == 0 then Err(NoAnnotationsLoaded)
    else if fracTrain + fracVal + fracTest != 1.0 then Err(FractionsDoNotSumToOne)
    else if !AcceptedTestSize(1.0 - fracTrain) then Err(InvalidTestSize(1.0 - fracTrain))
    else if fracTest == 0.0 then Ok(Split(1.0 - fracTrain, None))
    else
      var relative := Quantize(fracTest / (fracVal + fracTest));
      if !AcceptedTestSize(relative) then Err(InvalidTestSize(relative))
      else Ok(Split(1.0 - fracTrain, Some(relative)))
  }

  /** A relative share between 0 and 1 survives quantization to a size the
      second split accepts exactly when it lies strictly between 0.0005 and
      0.9995: 0.0005 rounds to the even 0.000 and 0.9995 to 1.000. */
  lemma RelativeShareAccepted(x: real)
    requires 0.0 <= x <= 1.0
    ensures AcceptedTestSize(Quantize(x)) <==> 1.0 / 2000.0 < x < 1999.0 / 2000.0
  {
    var n := (x * 1000.0).Floor;
    var rest := x * 1000.0 - n as real;
    assert 0 <= n <= 1000;
    if x <= 1.0 / 2000.0 {
      assert n == 0 && rest <= 0.5;
    } else if x >= 1999.0 / 2000.0 {
      assert n == 999 || n == 1000;
    } else {
      assert 0 <= n <= 999;
      assert n == 0 ==> rest > 0.5;
      assert n == 999 ==> rest < 0.5;
    }
  }

  /** For non-negative fractions that sum to 1, the splits go through
      exactly when some but not all annotations are held out from training
      and, when there is a test set, its share of the held-out part
      quantizes into (0, 1). */
  lemma CreateDatasetsShares(l: Loader, fracTrain: real, fracVal: real, fracTest: real)
    requires |l.annotations.rows| > 0 && fracTrain >= 0.0 && fracVal >= 0.0 && fracTest >= 0.0
    requires fracTrain + fracVal + fracTest == 1.0
    ensures CreateDatasets(l, fracTrain, fracVal, fracTest).Ok? <==>
      0.0 < fracTrain < 1.0 && (fracTest == 0.0 || 1.0 / 2000.0 < fracTest / (fracVal + fracTest) < 1999.0 / 2000.0)
  {
    if 0.0 < fracTrain < 1.0 && fracTest != 0.0 {
      var x := fracTest / (fracVal + fracTest);
      ShareOfWhole(fracTest, fracVal + fracTest);
      RelativeShareAccepted(x);
      assert CreateDatasets(l, fracTrain, fracVal, fracTest).Ok? <==> AcceptedTestSize(Quantize(x));
    }
  }

  lemma ShareOfWhole(part: real, whole: real)
    requires 0.0 < part <= whole
    ensures 0.0 < part / whole <= 1.0
  {
  }

  /** Training on everything is refused: the first split is asked to hold
      out nothing. */
  lemma CreateDatasetsAllTraining(l: Loader)
    requires |l.annotations.rows| > 0
    ensures CreateDatasets(l, 1.0, 0.0, 0.0) == Err(InvalidTestSize(0.0))
  {
  }

  /** A test set without a validation set is refused: the whole held-out
      part would go to test, a relative share of 1. */
  lemma CreateDatasetsNoValidation(l: Loader, fracTrain: real)
    requires |l.annotations.rows| > 0 && 0.0 < fracTrain < 1.0
    ensures CreateDatasets(l, fracTrain, 0.0, 1.0 - fracTrain) == Err(InvalidTestSize(1.0))
  {
    var held := 1.0 - fracTrain;
    assert 0.0 + held == held;
    DivideBySelf(held);
    assert Quantize(held / held) == 1.0;
  }

  lemma DivideBySelf(y: real)
    requires y > 0.0
    ensures y / y == 1.0
  {
  }
}

=== FILE: catalogue.dfy ===
/** The state of a `SheetDownloader`: the catalogue's features, the four
    one-way derivation flags, the query results and the memoised union of all
    sheet outlines, together with the derivations that fill in each
    feature's polygon, grid bounding box, WFS id number and publication date.

    A Python exception leaves the object as far as the failing call got, so
    every operation returns the state after the call together with the error
    it raised, if any. */
module Catalogue {
  import opened Common
  import opened Geometry
  import opened DownloaderUtils

  /** A JSON-like value, as seen by `str()` and by the key walk of a string
      query. */
  datatype Value =
    | Dict(entries: map<string, Value>)
    | Text(s: string)
    | Int(i: int)
    | List(items: seq<Value>)
    | Shape(g: Geom)
    | Grid(bb: GridBoundingBox)

  /** A publication year, or Python's `[]` when the title names none. */
  datatype PublishedDate = Year(year: nat) | NoDate

  /** One catalogue record.  The first eight fields come from the catalogue:
      `id`; the GeoJSON `geometry` dictionary, together with the shape
      `shape()` makes of it; properties `IMAGE`, `IMAGEURL`, `WFS_TITLE` and
      the remaining properties; and the remaining top-level keys, such as
      `type`.  The last four are derived and absent until the matching
      derivation has run. */
  datatype Feature = Feature(
    wfsId: string,
    geometryEntries: map<string, Value>,
    geometry: Geom,
    image: string,
    imageUrl: string,
    title: string,
    otherProperties: map<string, Value>,
    otherEntries: map<string, Value>,
    polygon: Option<Geom>,
    gridBb: Option<GridBoundingBox>,
    wfsIdNo: Option<int>,
    publishedDate: Option<PublishedDate>)

  datatype Downloader = Downloader(
    features: seq<Feature>,
    tileServers: seq<string>,
    polygons: bool,
    gridBbs: bool,
    wfsIdNos: bool,
    publishedDates: bool,
    foundQueries: seq<nat>,       // positions in `features`: the list holds the feature objects themselves
    mergedPolygon: Option<Geom>)

  /** Library behaviour the downloader calls but the model does not define. */
  datatype Oracles = Oracles(
    geo: GeometryOracle,
    mercator: Mercator,
    compiles: string -> bool,                 // re.search(pattern, ...) does not raise re.error
    search: (string, string) -> bool,         // re.search(pattern, text, re.IGNORECASE) found a match
    render: Value -> string,                  // str(value)
    publishedMatches: string -> seq<string>)  // re.findall(r"Published.*[\D]([\d]+)", title, re.IGNORECASE)

  datatype Step = Step(after: Downloader, raised: Option<Error>)

  datatype UrlArgument = OneUrl(url: string) | UrlList(urls: seq<string>) | NotAUrl

  /** The keys of a feature dictionary the model gives fields of their own. */
  const ModelledKeys: set<string> := {"id", "geometry", "properties", "polygon", "grid_bb", "wfs_id_no"}

  /** The feature as the dictionary `json.load` and the derivations build:
      the catalogue's keys as read, with derived keys once they have been
      set. */
  function AsValue(f: Feature): (r: Value)
    ensures r.Dict?
    ensures "id" in r.entries && r.entries["id"] == Text(f.wfsId)
    ensures "geometry" in r.entries && r.entries["geometry"] == Dict(f.geometryEntries)
    ensures "properties" in r.entries && r.entries["properties"].Dict?
    ensures forall k :: k in f.otherEntries && k !in ModelledKeys ==> k in r.entries && r.entries[k] == f.otherEntries[k]
    ensures forall k :: k in r.entries ==> k in ModelledKeys || k in f.otherEntries
    ensures f.polygon.Some? ==> "polygon" in r.entries && r.entries["polygon"] == Shape(f.polygon.value)
    ensures f.gridBb.Some? ==> "grid_bb" in r.entries && r.entries["grid_bb"] == Grid(f.gridBb.value)
    ensures f.wfsIdNo.Some? ==> "wfs_id_no" in r.entries && r.entries["wfs_id_no"] == Int(f.wfsIdNo.value)
    ensures var props := r.entries["properties"].entries;
      && "IMAGE" in props && props["IMAGE"] == Text(f.image)
      && "IMAGEURL" in props && props["IMAGEURL"] == Text(f.imageUrl)
      && "WFS_TITLE" in props && props["WFS_TITLE"] == Text(f.title)
      && (f.publishedDate.Some? ==> "published_date" in props && props["published_date"] == DateValue(f.publishedDate.value))
  {
    var props := f.otherProperties["IMAGE" := Text(f.image)]["IMAGEURL" := Text(f.imageUrl)]["WFS_TITLE" := Text(f.title)];
    var props' := if f.publishedDate.Some? then props["published_date" := DateValue(f.publishedDate.value)] else props;
    var top := f.otherEntries["id" := Text(f.wfsId)]["geometry" := Dict(f.geometryEntries)]["properties" := Dict(props')];
    var top1 := if f.polygon.Some? then top["polygon" := Shape(f.polygon.value)] else top;
    var top2 := if f.gridBb.Some? then top1["grid_bb" := Grid(f.gridBb.value)] else top1;
    var top3 := if f.wfsIdNo.Some? then top2["wfs_id_no" := Int(f.wfsIdNo.value)] else top2;
    Dict(top3)
  }

  function DateValue(d: PublishedDate): Value {
    match d
    case Year(y) => Int(y)
    case NoDate => List([])
  }

  /** The catalogue part of a feature, with every derived field cleared. */
  function Raw(f: Feature): Feature {
    f.(polygon := None, gridBb := None, wfsIdNo := None, publishedDate := None)
  }

  // ---------------------------------------------------------------------
  // State invariant

  ghost predicate FoundInRange(d: Downloader) {
    forall i :: 0 <= i < |d.foundQueries| ==> d.foundQueries[i] < |d.features|
  }

  /** What the flags promise about the features, plus query results that
      point into the catalogue. */
  ghost predicate Valid(d: Downloader) {
    && FoundInRange(d)
    && (d.polygons ==> forall i :: 0 <= i < |d.features| ==> d.features[i].polygon.Some?)
    && (d.gridBbs ==> d.polygons)
    && (d.gridBbs ==> forall i :: 0 <= i < |d.features| ==> d.features[i].gridBb.Some?)
    && (d.wfsIdNos ==> forall i :: 0 <= i < |d.features| ==> d.features[i].wfsIdNo.Some?)
    && (d.publishedDates ==> forall i :: 0 <= i < |d.features| ==> d.features[i].publishedDate.Some?)
  }

  /** Derivation flags only ever go from false to true. */
  ghost predicate FlagsGrow(d: Downloader, d': Downloader) {
    && (d.polygons ==> d'.polygons)
    && (d.gridBbs ==> d'.gridBbs)
    && (d.wfsIdNos ==> d'.wfsIdNos)
    && (d.publishedDates ==> d'.publishedDates)
  }

  /** The catalogue itself is never changed: same sheets, same order. */
  ghost predicate SameSheets(d: Downloader, d': Downloader) {
    && |d'.features| == |d.features|
    && (forall i :: 0 <= i < |d.features| ==> Raw(d'.features[i]) == Raw(d.features[i]))
    && d'.tileServers == d.tileServers
  }

  /** `SheetDownloader(metadata_path, download_url)`: the catalogue file must
      exist (`None` models a missing file) and the URL must be a string or a
      list. */
  function New(catalogue: Option<seq<Feature>>, url: UrlArgument): (r: Result<Downloader>)
    ensures r.Ok? <==> catalogue.Some? && !url.NotAUrl?
    ensures catalogue.None? ==> r.Err? && r.error.FileNotFound?
    ensures r.Ok? ==> r.value.features == catalogue.value && r.value.foundQueries == []
    ensures r.Ok? ==> !r.value.polygons && !r.value.gridBbs && !r.value.wfsIdNos && !r.value.publishedDates
    ensures r.Ok? ==> r.value.tileServers == (if url.OneUrl? then [url.url] else url.urls)
    ensures r.Ok? && (forall i :: 0 <= i < |catalogue.value| ==> catalogue.value[i] == Raw(catalogue.value[i])) ==> Valid(r.value)
  {
    if catalogue.None? then Err(FileNotFound("metadata"))
    else match url
      case OneUrl(u) => Ok(Downloader(catalogue.value, [u], false, false, false, false, [], None))
      case UrlList(us) => Ok(Downloader(catalogue.value, us, false, false, false, false, [], None))
      case NotAUrl => Err(InvalidArgument("download_url"))
  }

  // ---------------------------------------------------------------------
  // Per-feature derivations

  /** The position of the first feature from `from` on that `step` fails on,
      or |fs| when it succeeds on all of them. */
  function FirstFailure(fs: seq<Feature>, step: Feature -> Result<Feature>, from: nat): (k: nat)
    requires from <= |fs|
    ensures from <= k <= |fs|
    ensures forall i :: from <= i < k ==> step(fs[i]).Ok?
    ensures k < |fs| ==> step(fs[k]).Err?
    decreases |fs| - from
  {
    if from == |fs| || step(fs[from]).Err? then from else FirstFailure(fs, step, from + 1)
  }

  /** The features after one derivation ran over the catalogue, and the
      error it stopped with. */
  datatype Derivation = Derivation(features: seq<Feature>, raised: Option<Error>)

  /** Applies `step` to the features in order and stops at the first one it
      fails on: the features before it are updated, the rest are untouched. */
  function Derive(fs: seq<Feature>, step: Feature -> Result<Feature>): (r: Derivation)
    ensures |r.features| == |fs|
    ensures r.raised.None? <==> forall i :: 0 <= i < |fs| ==> step(fs[i]).Ok?
    ensures forall i :: 0 <= i < |fs| ==> r.features[i] == fs[i] || (step(fs[i]).Ok? && r.features[i] == step(fs[i]).value)
    ensures r.raised.None? ==> forall i :: 0 <= i < |fs| ==> r.features[i] == step(fs[i]).value
    ensures r.raised.Some? ==> exists k :: 0 <= k < |fs| && StopsAt(fs, step, k, r)
    ensures KeepsSheet(step) ==> forall i :: 0 <= i < |fs| ==> Raw(r.features[i]) == Raw(fs[i])
  {
    var k := FirstFailure(fs, step, 0);
    var updated := seq(|fs|, i requires 0 <= i < |fs| => if i < k then step(fs[i]).value else fs[i]);
    if k < |fs| then
      var r := Derivation(updated, Some(step(fs[k]).error));
      assert StopsAt(fs, step, k, r);
      r
    else Derivation(updated, None)
  }

  /** A per-feature step that only fills in derived fields. */
  ghost predicate KeepsSheet(step: Feature -> Result<Feature>) {
    forall f :: step(f).Ok? ==> Raw(step(f).value) == Raw(f)
  }

  /** `step` succeeds on every feature before k and fails on feature k with
      the reported error; features from k on are left as they were. */
  ghost predicate StopsAt(fs: seq<Feature>, step: Feature -> Result<Feature>, k: nat, r: Derivation)
    requires k < |fs| && |r.features| == |fs|
  {
    && step(fs[k]).Err? && r.raised == Some(step(fs[k]).error)
    && (forall i :: 0 <= i < k ==> step(fs[i]).Ok? && r.features[i] == step(fs[i]).value)
    && (forall i :: k <= i < |fs| ==> r.features[i] == fs[i])
  }

  /** `feature["polygon"] = shape(feature["geometry"]).geoms[0]`. */
  function PolygonStep(f: Feature): (r: Result<Feature>)
    ensures r.Ok? <==> f.geometry.Multi? && |f.geometry.parts| > 0
    ensures r.Ok? ==> r.value == f.(polygon := Some(f.geometry.parts[0]))
    ensures r.Err? ==> r.error == NoGeometryParts
  {
    var p :- FirstPart(f.geometry);
    Ok(f.(polygon := Some(p)))
  }

  /** `feature["grid_bb"]` from the bounds of `feature["polygon"]`. */
  function GridBbStep(o: Oracles, zoom: int, f: Feature): (r: Result<Feature>)
    ensures r.Ok? <==> f.polygon.Some? && zoom >= 0
    ensures r.Ok? ==> r.value == f.(gridBb := Some(GetGridBbFromPolygon(o.geo, o.mercator, f.polygon.value, zoom).value))
  {
    if f.polygon.None? then Err(MissingKey("polygon"))
    else
      var bb :- GetGridBbFromPolygon(o.geo, o.mercator, f.polygon.value, zoom);
      Ok(f.(gridBb := Some(bb)))
  }

  /** `feature["wfs_id_no"] = eval(feature["id"].split(".")[-1])`. */
  function WfsIdStep(f: Feature): (r: Result<Feature>)
    ensures r.Ok? <==> IsIntegerLiteral(LastSegment(f.wfsId))
    ensures r.Ok? ==> r.value == f.(wfsIdNo := Some(DigitsValue(LastSegment(f.wfsId))))
    ensures r.Err? ==> r.error.NotAnInteger?
  {
    var n :- EvalInt(LastSegment(f.wfsId));
    Ok(f.(wfsIdNo := Some(n)))
  }

  /** `feature["properties"]["published_date"]`: the first match of the
      title's "Published ... <digits>" pattern, or `[]` when it has none. */
  function DateStep(o: Oracles, f: Feature): (r: Result<Feature>)
    ensures r.Ok? <==> |o.publishedMatches(f.title)| == 0 || IsIntegerLiteral(o.publishedMatches(f.title)[0])
    ensures r.Ok? ==> r.value == f.(publishedDate := Some(PublishedDateOf(o, f.title)))
  {
    var matches := o.publishedMatches(f.title);
    if |matches| > 0 then
      var y :- EvalInt(matches[0]);
      Ok(f.(publishedDate := Some(Year(y))))
    else Ok(f.(publishedDate := Some(NoDate)))
  }

  /** The date stored for a title: the first match when there is one, `[]`
      otherwise. */
  function PublishedDateOf(o: Oracles, title: string): PublishedDate {
    var ms := o.publishedMatches(title);
    if |ms| > 0 && IsIntegerLiteral(ms[0]) then Year(DigitsValue(ms[0])) else NoDate
  }

  // ---------------------------------------------------------------------
  // Text helpers: the last dotted segment and Python's eval of a digit run

  /** The position of the last dot before `end`, or -1 when there is none. */
  function LastDotBefore(s: string, end: nat): (k: int)
    requires end <= |s|
    ensures -1 <= k < end
    ensures k >= 0 ==> s[k] == '.'
    ensures forall i :: k < i < end ==> s[i] != '.'
  {
    if end == 0 then -1
    else if s[end - 1] == '.' then end - 1
    else LastDotBefore(s, end - 1)
  }

  /** `s.split(".")[-1]`: the text after the last dot, or all of s. */
  function LastSegment(s: string): (r: string)
    ensures |r| <= |s| && s[|s| - |r|..] == r
    ensures '.' !in r
    ensures |r| < |s| ==> s[|s| - |r| - 1] == '.'
  {
    s[LastDotBefore(s, |s|) + 1..]
  }

  predicate IsDigit(c: char) { '0' <= c <= '9' }

  predicate AllDigits(s: string) { forall i :: 0 <= i < |s| ==> IsDigit(s[i]) }

  /** A text Python's `eval` reads as a non-negative integer literal: digits
      only, and no leading zero unless every digit is zero. */
  predicate IsIntegerLiteral(s: string) {
    |s| > 0 && AllDigits(s) && (s[0] != '0' || forall i :: 0 <= i < |s| ==> s[i] == '0')
  }

  function DigitsValue(s: string): nat
    requires AllDigits(s)
  {
    if |s| == 0 then 0
    else 10 * DigitsValue(s[..|s| - 1]) + (s[|s| - 1] as int - '0' as int)
  }

  function EvalInt(s: string): (r: Result<nat>)
    ensures r.Ok? <==> IsIntegerLiteral(s)
    ensures r.Ok? ==> r.value == DigitsValue(s)
  {
    if IsIntegerLiteral(s) then Ok(DigitsValue(s)) else Err(NotAnInteger(s))
  }

  /** The decimal spelling of n. */
  function ShowNat(n: nat): (s: string)
    ensures |s| > 0 && AllDigits(s)
  {
    if n < 10 then [('0' as int + n) as char]
    else ShowNat(n / 10) + [('0' as int + n % 10) as char]
  }

  lemma {:induction false} ShowNatNoLeadingZero(n: nat)
    ensures ShowNat(n)[0] == '0' <==> n == 0
  {
    if n >= 10 {
      ShowNatNoLeadingZero(n / 10);
    }
  }

  lemma {:induction false} DigitsValueShowNat(n: nat)
    ensures DigitsValue(ShowNat(n)) == n
  {
    if n >= 10 {
      var s := ShowNat(n);
      assert s[..|s| - 1] == ShowNat(n / 10);
      DigitsValueShowNat(n / 10);
    }
  }

  /** `eval` reads back every spelled-out number: the partner of `ShowNat`. */
  lemma EvalShowNat(n: nat)
    ensures EvalInt(ShowNat(n)) == Ok(n)
  {
    ShowNatNoLeadingZero(n);
    DigitsValueShowNat(n);
    if n == 0 {
      assert ShowNat(0) == "0";
    }
  }

  /** `eval` rejects a digit run with a leading zero, as Python 3 does
      for "0123", but reads a run of zeros. */
  lemma LeadingZeroRejected()
    ensures EvalInt("0123").Err? && EvalInt("00") == Ok(0)
  {
    assert "00"[..1] == "0";
    assert DigitsValue("0") == 0;
  }

  // ---------------------------------------------------------------------
  // Derivations on the whole catalogue

  /** `get_polygons`: the flag is set only when every feature yielded one. */
  function GetPolygons(d: Downloader): (r: Step)
    ensures SameSheets(d, r.after) && FlagsGrow(d, r.after)
    ensures r.after.foundQueries == d.foundQueries && r.after.mergedPolygon == d.mergedPolygon
    ensures r.raised.None? <==> forall i :: 0 <= i < |d.features| ==> PolygonStep(d.features[i]).Ok?
    ensures r.raised.None? ==> r.after.polygons && forall i :: 0 <= i < |d.features| ==>
      r.after.features[i] == d.features[i].(polygon := Some(d.features[i].geometry.parts[0]))
    ensures r.raised.Some? ==> r.after.polygons == d.polygons && r.raised == Some(NoGeometryParts)
  {
    assert KeepsSheet(PolygonStep);
    var r := Derive(d.features, PolygonStep);
    Step(d.(features := r.features, polygons := d.polygons || r.raised.None?), r.raised)
  }

  /** Two calls in a row keep the sheets and only raise flags. */
  lemma Chain(d: Downloader, d': Downloader, d'': Downloader)
    requires SameSheets(d, d') && FlagsGrow(d, d')
    requires SameSheets(d', d'') && FlagsGrow(d', d'')
    ensures SameSheets(d, d'') && FlagsGrow(d, d'')
  {
  }

  /** `get_grid_bb(zoom_level)`: derives the polygons first when they are
      missing, then each feature's grid bounding box at the given zoom. */
  function GetGridBb(d: Downloader, o: Oracles, zoom: int): (r: Step)
    ensures SameSheets(d, r.after) && FlagsGrow(d, r.after)
    ensures r.after.foundQueries == d.foundQueries && r.after.mergedPolygon == d.mergedPolygon
    ensures r.raised.None? ==> r.after.polygons && r.after.gridBbs
    ensures r.raised.None? && |d.features| > 0 ==> zoom >= 0
    ensures r.raised.None? ==> forall i :: 0 <= i < |d.features| ==>
      && r.after.features[i].polygon.Some?
      && GetGridBbFromPolygon(o.geo, o.mercator, r.after.features[i].polygon.value, zoom).Ok?
      && r.after.features[i].gridBb == Some(GetGridBbFromPolygon(o.geo, o.mercator, r.after.features[i].polygon.value, zoom).value)
    ensures d.polygons ==> forall i :: 0 <= i < |d.features| ==> r.after.features[i].polygon == d.features[i].polygon
  {
    if d.polygons then DeriveGridBbs(d, o, zoom)
    else
      var s := GetPolygons(d);
      if s.raised.Some? then s
      else
        var t := DeriveGridBbs(s.after, o, zoom);
        Chain(d, s.after, t.after);
        t
  }

  /** The loop of `get_grid_bb` over features whose polygons are known. */
  function DeriveGridBbs(d: Downloader, o: Oracles, zoom: int): (r: Step)
    requires d.polygons
    ensures SameSheets(d, r.after) && FlagsGrow(d, r.after)
    ensures r.after.foundQueries == d.foundQueries && r.after.mergedPolygon == d.mergedPolygon
    ensures r.after.polygons
    ensures forall i :: 0 <= i < |d.features| ==> r.after.features[i].polygon == d.features[i].polygon
    ensures r.raised.None? <==> forall i :: 0 <= i < |d.features| ==> GridBbStep(o, zoom, d.features[i]).Ok?
    ensures r.raised.None? ==> r.after.gridBbs && forall i :: 0 <= i < |d.features| ==>
      r.after.features[i].gridBb == Some(GetGridBbFromPolygon(o.geo, o.mercator, d.features[i].polygon.value, zoom).value)
  {
    var step := f => GridBbStep(o, zoom, f);
    assert KeepsSheet(step);
    var r := Derive(d.features, step);
    Step(d.(features := r.features, gridBbs := d.gridBbs || r.raised.None?), r.raised)
  }

  /** `extract_wfs_id_nos`. */
  function ExtractWfsIdNos(d: Downloader): (r: Step)
    ensures SameSheets(d, r.after) && FlagsGrow(d, r.after)
    ensures r.after.foundQueries == d.foundQueries && r.after.mergedPolygon == d.mergedPolygon
    ensures r.raised.None? <==> forall i :: 0 <= i < |d.features| ==> IsIntegerLiteral(LastSegment(d.features[i].wfsId))
    ensures r.raised.Some? ==> r.raised.value.NotAnInteger?
    ensures r.raised.None? ==> r.after.wfsIdNos && forall i :: 0 <= i < |d.features| ==>
      r.after.features[i] == d.features[i].(wfsIdNo := Some(DigitsValue(LastSegment(d.features[i].wfsId))))
  {
    assert KeepsSheet(WfsIdStep);
    var r := Derive(d.features, WfsIdStep);
    Step(d.(features := r.features, wfsIdNos := d.wfsIdNos || r.raised.None?), r.raised)
  }

  /** `extract_published_dates`: a title without a match stores `[]` and
      never fails; only a first match that is not an integer literal does. */
  function ExtractPublishedDates(d: Downloader, o: Oracles): (r: Step)
    ensures SameSheets(d, r.after) && FlagsGrow(d, r.after)
    ensures r.after.foundQueries == d.foundQueries && r.after.mergedPolygon == d.mergedPolygon
    ensures (forall i :: 0 <= i < |d.features| ==> |o.publishedMatches(d.features[i].title)| == 0) ==> r.raised.None?
    ensures r.raised.None? <==> forall i :: 0 <= i < |d.features| ==> DateStep(o, d.features[i]).Ok?
    ensures r.raised.None? ==> r.after.publishedDates && forall i :: 0 <= i < |d.features| ==>
      r.after.features[i] == d.features[i].(publishedDate := Some(PublishedDateOf(o, d.features[i].title)))
  {
    var step := f => DateStep(o, f);
    assert KeepsSheet(step);
    var r := Derive(d.features, step);
    Step(d.(features := r.features, publishedDates := d.publishedDates || r.raised.None?), r.raised)
  }

  /** `get_merged_polygon`: the union of every sheet's polygon, derived
      polygons first when missing. */
  function GetMergedPolygon(d: Downloader, o: Oracles): (r: Step)
    ensures SameSheets(d, r.after) && FlagsGrow(d, r.after)
    ensures r.after.foundQueries == d.foundQueries
    ensures r.raised.Some? ==> r.after.mergedPolygon == d.mergedPolygon
    ensures r.raised.None? ==> r.after.polygons
    ensures d.polygons ==> (r.raised.None? <==> AllPolygons(d.features).Ok?)
    ensures !d.polygons ==> (r.raised.None? <==> forall i :: 0 <= i < |d.features| ==> PolygonStep(d.features[i]).Ok?)
    ensures r.raised.None? ==> AllPolygons(r.after.features).Ok?
    ensures r.raised.None? ==> r.after.mergedPolygon == Some(o.geo.unionOf(AllPolygons(r.after.features).value))
    ensures d.polygons ==> r.after.features == d.features
  {
    var s := if d.polygons then Step(d, None) else GetPolygons(d);
    if s.raised.Some? then s
    else match AllPolygons(s.after.features)
      case Err(e) => Step(s.after, Some(e))
      case Ok(ps) => Step(s.after.(mergedPolygon := Some(o.geo.unionOf(ps))), None)
  }

  // ---------------------------------------------------------------------
  // The state invariant is kept by every derivation

  /** `get_polygons` keeps what the flags promise, whether or not it raises:
      it only ever fills in polygons. */
  lemma GetPolygonsKeepsValid(d: Downloader)
    requires Valid(d)
    ensures Valid(GetPolygons(d).after)
  {
    var r := Derive(d.features, PolygonStep);
    var d' := GetPolygons(d).after;
    assert d'.features == r.features;
    forall i | 0 <= i < |d.features|
      ensures d'.features[i].gridBb == d.features[i].gridBb
      ensures d'.features[i].wfsIdNo == d.features[i].wfsIdNo
      ensures d'.features[i].publishedDate == d.features[i].publishedDate
      ensures d.features[i].polygon.Some? ==> d'.features[i].polygon.Some?
    {
      if d'.features[i] != d.features[i] {
        assert d'.features[i] == PolygonStep(d.features[i]).value;
      }
    }
  }

  /** The grid-box loop only ever fills in grid boxes. */
  lemma DeriveGridBbsKeepsValid(d: Downloader, o: Oracles, zoom: int)
    requires Valid(d) && d.polygons
    ensures Valid(DeriveGridBbs(d, o, zoom).after)
  {
    var step := f => GridBbStep(o, zoom, f);
    var r := Derive(d.features, step);
    var d' := DeriveGridBbs(d, o, zoom).after;
    assert d'.features == r.features;
    forall i | 0 <= i < |d.features|
      ensures d'.features[i].wfsIdNo == d.features[i].wfsIdNo
      ensures d'.features[i].publishedDate == d.features[i].publishedDate
      ensures d.features[i].gridBb.Some? ==> d'.features[i].gridBb.Some?
    {
      if d'.features[i] != d.features[i] {
        assert d'.features[i] == GridBbStep(o, zoom, d.features[i]).value;
      }
    }
  }

  lemma GetGridBbKeepsValid(d: Downloader, o: Oracles, zoom: int)
    requires Valid(d)
    ensures Valid(GetGridBb(d, o, zoom).after)
  {
    if d.polygons {
      DeriveGridBbsKeepsValid(d, o, zoom);
    } else {
      GetPolygonsKeepsValid(d);
      var s := GetPolygons(d);
      if s.raised.None? {
        DeriveGridBbsKeepsValid(s.after, o, zoom);
      }
    }
  }

  /** `extract_wfs_id_nos` only ever fills in id numbers. */
  lemma ExtractWfsIdNosKeepsValid(d: Downloader)
    requires Valid(d)
    ensures Valid(ExtractWfsIdNos(d).after)
  {
    var r := Derive(d.features, WfsIdStep);
    var d' := ExtractWfsIdNos(d).after;
    assert d'.features == r.features;
    forall i | 0 <= i < |d.features|
      ensures d'.features[i].polygon == d.features[i].polygon
      ensures d'.features[i].gridBb == d.features[i].gridBb
      ensures d'.features[i].publishedDate == d.features[i].publishedDate
      ensures d.features[i].wfsIdNo.Some? ==> d'.features[i].wfsIdNo.Some?
    {
      if d'.features[i] != d.features[i] {
        assert d'.features[i] == WfsIdStep(d.features[i]).value;
      }
    }
  }

  /** `extract_published_dates` only ever fills in dates. */
  lemma ExtractPublishedDatesKeepsValid(d: Downloader, o: Oracles)
    requires Valid(d)
    ensures Valid(ExtractPublishedDates(d, o).after)
  {
    var step := f => DateStep(o, f);
    var r := Derive(d.features, step);
    var d' := ExtractPublishedDates(d, o).after;
    assert d'.features == r.features;
    forall i | 0 <= i < |d.features|
      ensures d'.features[i].polygon == d.features[i].polygon
      ensures d'.features[i].gridBb == d.features[i].gridBb
      ensures d'.features[i].wfsIdNo == d.features[i].wfsIdNo
      ensures d.features[i].publishedDate.Some? ==> d'.features[i].publishedDate.Some?
    {
      if d'.features[i] != d.features[i] {
        assert d'.features[i] == DateStep(o, d.features[i]).value;
      }
    }
  }

  lemma GetMergedPolygonKeepsValid(d: Downloader, o: Oracles)
    requires Valid(d)
    ensures Valid(GetMergedPolygon(d, o).after)
  {
    if !d.polygons {
      GetPolygonsKeepsValid(d);
    }
  }

  function AllPolygons(fs: seq<Feature>): (r: Result<seq<Geom>>)
    ensures r.Ok? <==> forall i :: 0 <= i < |fs| ==> fs[i].polygon.Some?
    ensures r.Ok? ==> |r.value| == |fs| && forall i :: 0 <= i < |fs| ==> r.value[i] == fs[i].polygon.value
  {
    if forall i :: 0 <= i < |fs| ==> fs[i].polygon.Some? then
      Ok(seq(|fs|, i requires 0 <= i < |fs| => fs[i].polygon.value))
    else Err(MissingKey("polygon"))
  }
}

=== FILE: common.dfy ===
/** Shared result types and the error vocabulary of the sheet downloader and
    the annotations loader.  Python exceptions become `Error` values. */
module Common {

  datatype Option<+T> = None | Some(value: T)

  datatype Result<+T> = Ok(value: T) | Err(error: Error) {
    predicate IsFailure() { Err? }

    function PropagateFailure<U>(): Result<U>
      requires Err?
    {
      Err(error)
    }

    function Extract(): T
      requires Ok?
    {
      value
    }
  }

  datatype Error =
    // AssertionError "Zoom level must be positive"
    | NegativeZoom
    // ValueError raised while validating an argument's type
    | InvalidArgument(argument: string)
    // NotImplementedError for a polygon query mode other than within/intersects
    | UnknownMode(mode: string)
    // KeyError on a derived field that was never computed
    | MissingKey(key: string)
    // AttributeError/IndexError from `shape(geometry).geoms[0]`
    | NoGeometryParts
    // `eval` of a text that is not a Python integer literal
    | NotAnInteger(text: string)
    // AttributeError from `.get` on something that is not a dictionary
    | NotADictionary
    // shapely's `Point` refusing a tuple that is not a coordinate pair
    | InvalidPoint
    // `re.error` from `re.search` on a pattern that does not compile
    | InvalidPattern(pattern: string)
    // ValueError "Please first run get_grid_bb()"
    | GridBoundingBoxesMissing
    // ValueError "No map sheets with given WFS ID numbers found."
    | NoMatchingWfsIds
    // ValueError "No query results found/saved."
    | NoQueryResults
    // ValueError "... is out of map metadata bounds."
    | OutOfBounds
    // ValueError for a catalogue or annotations file that is not there
    | FileNotFound(path: string)
    // KeyError on a dataframe column that is not present
    | MissingColumn(column: string)
    // ValueError "No annotations remaining."
    | NoAnnotationsRemaining
    // ValueError "<n> files cannot be found."
    | BrokenPaths(count: nat)
    // ValueError "No annotations loaded."
    | NoAnnotationsLoaded
    // ValueError "... do not add up to 1."
    | FractionsDoNotSumToOne
    // ValueError from `list.index` on a label that is not listed
    | LabelNotFound(missing: string)
    // ValueError from `train_test_split` on a float `test_size` outside (0, 1)
    | InvalidTestSize(testSize: real)
}

=== FILE: download_requests.dfy ===
/** The `download_all_map_sheets` and `download_map_sheets_by_*` requests:
    each validates its arguments, checks that grid bounding boxes were
    derived, selects the sheets to fetch by filtering the catalogue, and
    hands them to the download loop of `Downloads`.  A request refused
    before the loop merges nothing and leaves the metadata file alone. */
module DownloadRequests {
  import opened Common
  import opened Geometry
  import opened DownloaderUtils
  import opened Catalogue
  import opened Queries
  import opened Downloads

  /** A request that raised before downloading anything. */
  function Refused(d: Downloader, file: Option<seq<MetadataRow>>, e: Error): Download {
    Download(d, [], [], [], [], file, Some(e))
  }

  /** Every sheet of the catalogue, in catalogue order. */
  function AllSheets(n: nat): (r: seq<nat>)
    ensures |r| == n && InRange(r, n)
    ensures forall i :: 0 <= i < n ==> r[i] == i
  {
    seq(n, i requires 0 <= i < n => i)
  }

  // ---------------------------------------------------------------------
  // Selecting sheets

  /** The filter `for feature in self.features: if test: features.append`:
      the positions of the matching sheets in catalogue order, or the error
      of the first test that raises. */
  function Select(fs: seq<Feature>, hit: Feature -> Result<bool>): (r: ScanResult)
    ensures InRange(r.found, |fs|)
    ensures r.raised.None? <==> forall i :: 0 <= i < |fs| ==> hit(fs[i]).Ok?
    ensures r.raised.Some? ==> exists i :: 0 <= i < |fs| && hit(fs[i]) == Err(r.raised.value)
    ensures r.raised.None? ==> r.found == Matches(fs, hit, 0)
  {
    ScanExtends(fs, [], 0, hit, Never);
    ScanRaises(fs, [], 0, hit, Never);
    if Scan(fs, [], 0, hit, Never).raised.None? then
      ScanNeverAppendsMatches(fs, [], 0, hit);
      Scan(fs, [], 0, hit, Never)
    else Scan(fs, [], 0, hit, Never)
  }

  /** `Matches` holds the position of a sheet exactly when the sheet
      matches, once each and in increasing order. */
  lemma {:induction false} MatchesExactly(fs: seq<Feature>, hit: Feature -> Result<bool>, k: nat)
    requires k <= |fs|
    ensures forall i :: k <= i < |fs| ==> (i in Matches(fs, hit, k) <==> IsMatch(hit, fs[i]))
    ensures forall j :: 0 <= j < |Matches(fs, hit, k)| ==> k <= Matches(fs, hit, k)[j] < |fs|
    ensures forall a, b :: 0 <= a < b < |Matches(fs, hit, k)| ==> Matches(fs, hit, k)[a] < Matches(fs, hit, k)[b]
    decreases |fs| - k
  {
    if k < |fs| {
      MatchesExactly(fs, hit, k + 1);
      var rest := Matches(fs, hit, k + 1);
      var here: seq<nat> := if IsMatch(hit, fs[k]) then [k] else [];
      assert Matches(fs, hit, k) == here + rest;
      assert k !in rest;
    }
  }

  /** `if self.merged_polygon is None: self.get_merged_polygon()`, then the
      request is refused when the shape lies wholly outside the union of
      all sheets. */
  function Bounded(d: Downloader, o: Oracles, shape: Geom): (r: Step)
    ensures SameSheets(d, r.after) && FlagsGrow(d, r.after)
    ensures r.after.foundQueries == d.foundQueries
    ensures d.mergedPolygon.Some? ==> r.after == d
    ensures r.raised.None? ==> r.after.mergedPolygon.Some? && !o.geo.disjoint(r.after.mergedPolygon.value, shape)
    ensures r.raised == Some(OutOfBounds) ==> r.after.mergedPolygon.Some? && o.geo.disjoint(r.after.mergedPolygon.value, shape)
  {
    var s := if d.mergedPolygon.Some? then Step(d, None) else GetMergedPolygon(d, o);
    if s.raised.Some? then s
    else if o.geo.disjoint(s.after.mergedPolygon.value, shape) then Step(s.after, Some(OutOfBounds))
    else s
  }

  /** The download of the selected sheets, unless selecting raised. */
  function Fetch(d: Downloader, o: Oracles, io: Io, pathSave: string, sel: ScanResult, overwrite: bool, file: Option<seq<MetadataRow>>): (r: Download)
    requires InRange(sel.found, |d.features|)
    ensures SameSheets(d, r.after) && FlagsGrow(d, r.after)
    ensures r.after.foundQueries == d.foundQueries && r.after.mergedPolygon == d.mergedPolygon
    ensures sel.raised.Some? ==> r == Refused(d, file, sel.raised.value)
    ensures sel.raised.None? ==> r == DownloadMapSheets(d, o, io, pathSave, sel.found, overwrite, file)
  {
    if sel.raised.Some? then Refused(d, file, sel.raised.value)
    else DownloadMapSheets(d, o, io, pathSave, sel.found, overwrite, file)
  }

  // ---------------------------------------------------------------------
  // The requests

  /** `download_all_map_sheets` as written: the `overwrite` argument is
      accepted but not passed on, so existing maps are always skipped. */
  function DownloadAll(d: Downloader, o: Oracles, io: Io, pathSave: string, overwrite: bool, file: Option<seq<MetadataRow>>): (r: Download)
    ensures !d.gridBbs <==> r == Refused(d, file, GridBoundingBoxesMissing)
    ensures d.gridBbs ==> r.sheets == AllSheets(|d.features|)
    ensures SameSheets(d, r.after) && FlagsGrow(d, r.after)
  {
    if !d.gridBbs then Refused(d, file, GridBoundingBoxesMissing)
    else DownloadMapSheets(d, o, io, pathSave, AllSheets(|d.features|), false, file)
  }

  /** `download_all_map_sheets` with `overwrite` passed on, as every other
      request does. */
  function DownloadAllCorrected(d: Downloader, o: Oracles, io: Io, pathSave: string, overwrite: bool, file: Option<seq<MetadataRow>>): (r: Download)
    ensures !d.gridBbs <==> r == Refused(d, file, GridBoundingBoxesMissing)
    ensures d.gridBbs ==> r.sheets == AllSheets(|d.features|)
    ensures SameSheets(d, r.after) && FlagsGrow(d, r.after)
  {
    if !d.gridBbs then Refused(d, file, GridBoundingBoxesMissing)
    else DownloadMapSheets(d, o, io, pathSave, AllSheets(|d.features|), overwrite, file)
  }

  /** `download_map_sheets_by_wfs_ids`: the id numbers are extracted first
      when needed; then the argument, the grid bounding boxes and the
      presence of at least one requested sheet are checked. */
  function DownloadByWfsIds(d: Downloader, o: Oracles, io: Io, pathSave: string, wfsIds: IdsArgument, overwrite: bool, file: Option<seq<MetadataRow>>): (r: Download)
    ensures SameSheets(d, r.after) && FlagsGrow(d, r.after)
    ensures var s := Prepare(d, NeedsWfsIdNos);
      && (s.raised.Some? ==> r == Refused(s.after, file, s.raised.value))
      && (s.raised.None? && wfsIds.NotIds? ==> r == Refused(s.after, file, InvalidArgument("wfs_ids")))
      && (s.raised.None? && !wfsIds.NotIds? && !s.after.gridBbs ==> r == Refused(s.after, file, GridBoundingBoxesMissing))
    ensures r.raised.None? ==>
      r.sheets == Matches(Prepare(d, NeedsWfsIdNos).after.features, HitOf(o, WfsIds(RequestedIds(wfsIds))), 0) && r.sheets != []
  {
    var s := Prepare(d, NeedsWfsIdNos);
    if s.raised.Some? then Refused(s.after, file, s.raised.value)
    else if wfsIds.NotIds? then Refused(s.after, file, InvalidArgument("wfs_ids"))
    else if !s.after.gridBbs then Refused(s.after, file, GridBoundingBoxesMissing)
    else
      var sel := Select(s.after.features, HitOf(o, WfsIds(RequestedIds(wfsIds))));
      if sel.raised.None? && sel.found == [] then Refused(s.after, file, NoMatchingWfsIds)
      else
        var r := Fetch(s.after, o, io, pathSave, sel, overwrite, file);
        Chain(d, s.after, r.after);
        r
  }

  /** `download_map_sheets_by_polygon`: sheets within, or intersecting, a
      polygon that touches the area the catalogue covers. */
  function DownloadByPolygon(d: Downloader, o: Oracles, io: Io, pathSave: string, polygon: Geom, mode: string, overwrite: bool, file: Option<seq<MetadataRow>>): (r: Download)
    ensures SameSheets(d, r.after) && FlagsGrow(d, r.after)
    ensures !IsPolygon(polygon) ==> r == Refused(d, file, InvalidArgument("polygon"))
    ensures IsPolygon(polygon) && !IsPolygonMode(mode) ==> r == Refused(d, file, UnknownMode(mode))
    ensures IsPolygon(polygon) && IsPolygonMode(mode) && !d.gridBbs ==> r == Refused(d, file, GridBoundingBoxesMissing)
    ensures r.raised.None? ==> r.sheets == Matches(Bounded(d, o, polygon).after.features, HitOf(o, PolygonCriterion(polygon, mode)), 0)
    ensures IsPolygon(polygon) && IsPolygonMode(mode) && d.gridBbs && Bounded(d, o, polygon).raised.Some? ==>
      r == Refused(Bounded(d, o, polygon).after, file, Bounded(d, o, polygon).raised.value)
    ensures r.raised.None? ==> r.after.mergedPolygon.Some? && !o.geo.disjoint(r.after.mergedPolygon.value, polygon)
  {
    if !IsPolygon(polygon) then Refused(d, file, InvalidArgument("polygon"))
    else if !IsPolygonMode(mode) then Refused(d, file, UnknownMode(mode))
    else if !d.gridBbs then Refused(d, file, GridBoundingBoxesMissing)
    else
      var b := Bounded(d, o, polygon);
      if b.raised.Some? then Refused(b.after, file, b.raised.value)
      else
        var r := Fetch(b.after, o, io, pathSave, Select(b.after.features, HitOf(o, PolygonCriterion(polygon, mode))), overwrite, file);
        Chain(d, b.after, r.after);
        r
  }

  /** `download_map_sheets_by_coordinates`: sheets containing a point. */
  function DownloadByCoordinates(d: Downloader, o: Oracles, io: Io, pathSave: string, coords: CoordsArgument, overwrite: bool, file: Option<seq<MetadataRow>>): (r: Download)
    ensures SameSheets(d, r.after) && FlagsGrow(d, r.after)
    ensures coords.NotATuple? ==> r == Refused(d, file, InvalidArgument("coords"))
    ensures coords.BadTuple? ==> r == Refused(d, file, InvalidPoint)
    ensures coords.Pair? && !d.gridBbs ==> r == Refused(d, file, GridBoundingBoxesMissing)
    ensures r.raised.None? ==> coords.Pair?
    ensures r.raised.None? && coords.Pair? ==>
      var at := Point(XY(coords.x, coords.y));
      r.sheets == Matches(Bounded(d, o, at).after.features, HitOf(o, ContainsPoint(at)), 0)
    ensures coords.Pair? && d.gridBbs ==>
      var b := Bounded(d, o, Point(XY(coords.x, coords.y)));
      b.raised.Some? ==> r == Refused(b.after, file, b.raised.value)
    ensures r.raised.None? && coords.Pair? ==>
      r.after.mergedPolygon.Some? && !o.geo.disjoint(r.after.mergedPolygon.value, Point(XY(coords.x, coords.y)))
  {
    match coords
    case NotATuple => Refused(d, file, InvalidArgument("coords"))
    case BadTuple => Refused(d, file, InvalidPoint)
    case Pair(x, y) =>
      if !d.gridBbs then Refused(d, file, GridBoundingBoxesMissing)
      else
        var b := Bounded(d, o, Point(XY(x, y)));
        if b.raised.Some? then Refused(b.after, file, b.raised.value)
        else
          var r := Fetch(b.after, o, io, pathSave, Select(b.after.features, HitOf(o, ContainsPoint(Point(XY(x, y))))), overwrite, file);
          Chain(d, b.after, r.after);
          r
  }

  /** `download_map_sheets_by_line`: sheets a line string crosses. */
  function DownloadByLine(d: Downloader, o: Oracles, io: Io, pathSave: string, line: Geom, overwrite: bool, file: Option<seq<MetadataRow>>): (r: Download)
    ensures SameSheets(d, r.after) && FlagsGrow(d, r.after)
    ensures !line.LineString? ==> r == Refused(d, file, InvalidArgument("line"))
    ensures line.LineString? && !d.gridBbs ==> r == Refused(d, file, GridBoundingBoxesMissing)
    ensures r.raised.None? ==> r.sheets == Matches(Bounded(d, o, line).after.features, HitOf(o, CrossesLine(line)), 0)
    ensures line.LineString? && d.gridBbs && Bounded(d, o, line).raised.Some? ==>
      r == Refused(Bounded(d, o, line).after, file, Bounded(d, o, line).raised.value)
    ensures r.raised.None? ==> r.after.mergedPolygon.Some? && !o.geo.disjoint(r.after.mergedPolygon.value, line)
  {
    if !line.LineString? then Refused(d, file, InvalidArgument("line"))
    else if !d.gridBbs then Refused(d, file, GridBoundingBoxesMissing)
    else
      var b := Bounded(d, o, line);
      if b.raised.Some? then Refused(b.after, file, b.raised.value)
      else
        var r := Fetch(b.after, o, io, pathSave, Select(b.after.features, HitOf(o, CrossesLine(line))), overwrite, file);
        Chain(d, b.after, r.after);
        r
  }

  /** `download_map_sheets_by_string`: sheets whose field under `keys`
      matches a regular expression; no bounds check and no derivation. */
  function DownloadByString(d: Downloader, o: Oracles, io: Io, pathSave: string, pattern: StringArgument, keys: KeysArgument, overwrite: bool, file: Option<seq<MetadataRow>>): (r: Download)
    ensures SameSheets(d, r.after) && FlagsGrow(d, r.after)
    ensures pattern.NotAString? ==> r == Refused(d, file, InvalidArgument("string"))
    ensures pattern.Str? && keys.NotKeys? ==> r == Refused(d, file, InvalidArgument("keys"))
    ensures pattern.Str? && !keys.NotKeys? && !d.gridBbs ==> r == Refused(d, file, GridBoundingBoxesMissing)
    ensures r.raised.None? ==> pattern.Str?
    ensures r.raised.None? && pattern.Str? ==> r.sheets == Matches(d.features, HitOf(o, MatchesString(pattern.s, KeyPath(keys))), 0)
  {
    if pattern.NotAString? then Refused(d, file, InvalidArgument("string"))
    else if keys.NotKeys? then Refused(d, file, InvalidArgument("keys"))
    else if !d.gridBbs then Refused(d, file, GridBoundingBoxesMissing)
    else Fetch(d, o, io, pathSave, Select(d.features, HitOf(o, MatchesString(pattern.s, KeyPath(keys)))), overwrite, file)
  }

  /** `download_map_sheets_by_queries`: the sheets found by earlier queries,
      in the order they were found. */
  function DownloadByQueries(d: Downloader, o: Oracles, io: Io, pathSave: string, overwrite: bool, file: Option<seq<MetadataRow>>): (r: Download)
    requires FoundInRange(d)
    ensures SameSheets(d, r.after) && FlagsGrow(d, r.after)
    ensures !d.gridBbs ==> r == Refused(d, file, GridBoundingBoxesMissing)
    ensures d.gridBbs && d.foundQueries == [] ==> r == Refused(d, file, NoQueryResults)
    ensures d.gridBbs && d.foundQueries != [] ==> r.sheets == d.foundQueries
  {
    if !d.gridBbs then Refused(d, file, GridBoundingBoxesMissing)
    else if |d.foundQueries| == 0 then Refused(d, file, NoQueryResults)
    else DownloadMapSheets(d, o, io, pathSave, d.foundQueries, overwrite, file)
  }

  // ---------------------------------------------------------------------
  // Properties of the requests

  /** A request selects a sheet exactly when the sheet passes its test. */
  lemma SelectedExactly(fs: seq<Feature>, hit: Feature -> Result<bool>, sheets: seq<nat>)
    requires sheets == Matches(fs, hit, 0)
    ensures forall i :: 0 <= i < |fs| ==> (i in sheets <==> IsMatch(hit, fs[i]))
    ensures forall a, b :: 0 <= a < b < |sheets| ==> sheets[a] < sheets[b]
  {
    MatchesExactly(fs, hit, 0);
  }

  /** A request by WFS ids downloads exactly the sheets whose id number was
      asked for. */
  lemma DownloadByWfsIdsSelects(d: Downloader, o: Oracles, io: Io, pathSave: string, wfsIds: IdsArgument, overwrite: bool, file: Option<seq<MetadataRow>>)
    ensures var r := DownloadByWfsIds(d, o, io, pathSave, wfsIds, overwrite, file);
      var fs := Prepare(d, NeedsWfsIdNos).after.features;
      r.raised.None? ==> forall i :: 0 <= i < |fs| ==>
        (i in r.sheets <==> fs[i].wfsIdNo.Some? && fs[i].wfsIdNo.value in RequestedIds(wfsIds))
  {
    var r := DownloadByWfsIds(d, o, io, pathSave, wfsIds, overwrite, file);
    var fs := Prepare(d, NeedsWfsIdNos).after.features;
    if r.raised.None? {
      SelectedExactly(fs, HitOf(o, WfsIds(RequestedIds(wfsIds))), r.sheets);
    }
  }

  /** `set(wfs_id_list).isdisjoint(set(requested_maps))`: when every sheet
      has an id number and none was asked for, the request is refused. */
  lemma DownloadByWfsIdsDisjoint(d: Downloader, o: Oracles, io: Io, pathSave: string, wfsIds: IdsArgument, overwrite: bool, file: Option<seq<MetadataRow>>)
    requires var s := Prepare(d, NeedsWfsIdNos);
      && s.raised.None? && !wfsIds.NotIds? && s.after.gridBbs
      && forall i :: 0 <= i < |s.after.features| ==>
           s.after.features[i].wfsIdNo.Some? && s.after.features[i].wfsIdNo.value !in RequestedIds(wfsIds)
    ensures DownloadByWfsIds(d, o, io, pathSave, wfsIds, overwrite, file)
      == Refused(Prepare(d, NeedsWfsIdNos).after, file, NoMatchingWfsIds)
  {
    var fs := Prepare(d, NeedsWfsIdNos).after.features;
    var hit := HitOf(o, WfsIds(RequestedIds(wfsIds)));
    forall i | 0 <= i < |fs| ensures hit(fs[i]) == Ok(false) {
    }
    NothingMatches(fs, hit, 0);
  }

  /** When every test says no, nothing is selected. */
  lemma {:induction false} NothingMatches(fs: seq<Feature>, hit: Feature -> Result<bool>, k: nat)
    requires k <= |fs|
    requires forall i :: k <= i < |fs| ==> hit(fs[i]) == Ok(false)
    ensures Matches(fs, hit, k) == []
    ensures Scan(fs, [], k, hit, Never) == ScanResult([], None)
    decreases |fs| - k
  {
    if k < |fs| {
      NothingMatches(fs, hit, k + 1);
      assert Next(fs, [], k, hit, Never) == [];
    }
  }

  /** A request by polygon downloads exactly the sheets whose polygon lies
      within, or intersects, the given one. */
  lemma DownloadByPolygonSelects(d: Downloader, o: Oracles, io: Io, pathSave: string, polygon: Geom, mode: string, overwrite: bool, file: Option<seq<MetadataRow>>)
    ensures var r := DownloadByPolygon(d, o, io, pathSave, polygon, mode, overwrite, file);
      var fs := Bounded(d, o, polygon).after.features;
      r.raised.None? ==> forall i :: 0 <= i < |fs| ==>
        (i in r.sheets <==>
          (fs[i].polygon.Some? &&
           if mode == "within" then o.geo.within(fs[i].polygon.value, polygon) else o.geo.intersects(fs[i].polygon.value, polygon)))
  {
    var r := DownloadByPolygon(d, o, io, pathSave, polygon, mode, overwrite, file);
    if r.raised.None? {
      SelectedExactly(Bounded(d, o, polygon).after.features, HitOf(o, PolygonCriterion(polygon, mode)), r.sheets);
    }
  }

  /** `download_all_map_sheets` as written: asking it to overwrite changes
      nothing, and a map already on disk is never merged again. */
  lemma DownloadAllIgnoresOverwrite(d: Downloader, o: Oracles, io: Io, pathSave: string, file: Option<seq<MetadataRow>>)
    ensures DownloadAll(d, o, io, pathSave, true, file) == DownloadAll(d, o, io, pathSave, false, file)
    ensures Fresh(io, DownloadAll(d, o, io, pathSave, true, file).written)
  {
    if d.gridBbs {
      DownloadNeverRewrites(d, o, io, pathSave, AllSheets(|d.features|), file);
    }
  }

  /** `download_all_map_sheets` with `overwrite` passed on: asked to
      overwrite, a run that raises nothing merges every sheet whose tiles
      merge, whether or not its map was on disk. */
  lemma DownloadAllCorrectedOverwrites(d: Downloader, o: Oracles, io: Io, pathSave: string, file: Option<seq<MetadataRow>>)
    requires d.gridBbs
    ensures var r := DownloadAllCorrected(d, o, io, pathSave, true, file);
      r.raised.None? ==> r.downloaded == Mergeable(d, io, pathSave, AllSheets(|d.features|), 0)
  {
    DownloadOverwrites(d, o, io, pathSave, AllSheets(|d.features|), file);
  }

  /** On a downloader ready to download, fetching every sheet raises
      nothing. */
  lemma DownloadAllSucceeds(d: Downloader, o: Oracles, io: Io, pathSave: string, overwrite: bool, file: Option<seq<MetadataRow>>)
    requires ReadyToDownload(d, o)
    ensures DownloadAllCorrected(d, o, io, pathSave, overwrite, file).raised.None?
    ensures DownloadAll(d, o, io, pathSave, overwrite, file).raised.None?
  {
    DownloadSucceeds(d, o, io, pathSave, AllSheets(|d.features|), overwrite, file);
    DownloadSucceeds(d, o, io, pathSave, AllSheets(|d.features|), false, file);
  }

  /** On a downloader ready to download, fetching the query results raises
      nothing exactly when there are some. */
  lemma DownloadByQueriesSucceeds(d: Downloader, o: Oracles, io: Io, pathSave: string, overwrite: bool, file: Option<seq<MetadataRow>>)
    requires ReadyToDownload(d, o)
    ensures DownloadByQueries(d, o, io, pathSave, overwrite, file).raised.None? <==> d.foundQueries != []
  {
    if d.foundQueries != [] {
      DownloadSucceeds(d, o, io, pathSave, d.foundQueries, overwrite, file);
    }
  }
}

=== FILE: downloader_utils.dfy ===
/** Slippy-map tile addressing (the OpenStreetMap "Slippy map tilenames"
    scheme) and the small shape builders around it.

    The longitude axis is exact rational arithmetic and is modelled with
    `real`.  The latitude axis goes through asinh/tan/atan/sinh and is
    supplied by a `Mercator` record: `row(lat)` is the fractional tile row
    `(1 - asinh(tan(radians(lat))) / pi) / 2` and `latOf(t)` is
    `degrees(atan(sinh(pi * (1 - 2 t))))`. */
module DownloaderUtils {
  import opened Common
  import opened Geometry

  datatype Coordinate = Coordinate(lat: real, lon: real)
  datatype GridIndex = GridIndex(x: int, y: int, z: int)
  datatype GridBoundingBox = GridBoundingBox(lowerCorner: GridIndex, upperCorner: GridIndex)

  datatype Mercator = Mercator(row: real -> real, latOf: real -> real)

  /** The projection is decreasing: going north never moves to a larger row. */
  ghost predicate Antitone(m: Mercator) {
    forall a, b :: a <= b ==> m.row(b) <= m.row(a)
  }

  function Pow2(z: nat): (n: nat)
    ensures n >= 1
  {
    if z == 0 then 1 else 2 * Pow2(z - 1)
  }

  /** Python's `int()` on a float: rounds toward zero. */
  function Trunc(r: real): int {
    if r >= 0.0 then r.Floor else -((-r).Floor)
  }

  /** Fractional column of a longitude at zoom z. */
  function LonFraction(lon: real, z: nat): real {
    (lon + 180.0) / 360.0 * (Pow2(z) as real)
  }

  /** Tile column of a longitude: `int((lon + 180) / 360 * n)`. */
  function TileX(lon: real, z: nat): int {
    Trunc(LonFraction(lon, z))
  }

  /** Tile row of a latitude: `int(row(lat) * n)`. */
  function TileY(m: Mercator, lat: real, z: nat): int {
    Trunc(m.row(lat) * (Pow2(z) as real))
  }

  /** West edge of tile column x: `x / n * 360 - 180`. */
  function TileLon(x: int, z: nat): real {
    (x as real) / (Pow2(z) as real) * 360.0 - 180.0
  }

  /** North edge of tile row y. */
  function TileLat(m: Mercator, y: int, z: nat): real {
    m.latOf((y as real) / (Pow2(z) as real))
  }

  /** `_get_index_from_coordinate(lon, lat, z)`, returning (x, y). */
  function IndexFromLonLat(m: Mercator, lon: real, lat: real, z: int): (r: Result<(int, int)>)
    ensures r.Err? <==> z < 0
    ensures r.Err? ==> r.error == NegativeZoom
  {
    if z < 0 then Err(NegativeZoom)
    else Ok((TileX(lon, z), TileY(m, lat, z)))
  }

  /** `_get_coordinate_from_index(x, y, z)`, returning (lon, lat). */
  function LonLatFromIndex(m: Mercator, x: int, y: int, z: int): (r: Result<(real, real)>)
    ensures r.Err? <==> z < 0
    ensures r.Err? ==> r.error == NegativeZoom
  {
    if z < 0 then Err(NegativeZoom)
    else Ok((TileLon(x, z), TileLat(m, y, z)))
  }

  /** `get_index_from_coordinate`: the tile holding a coordinate. */
  function GetIndexFromCoordinate(m: Mercator, c: Coordinate, zoom: int): (r: Result<GridIndex>)
    ensures r.Err? <==> zoom < 0
    ensures r.Ok? ==> r.value.z == zoom
    ensures r.Ok? ==> TileLon(r.value.x, zoom) <= c.lon || c.lon < -180.0
    ensures r.Ok? && -180.0 <= c.lon ==> c.lon < TileLon(r.value.x + 1, zoom)
  {
    var xy :- IndexFromLonLat(m, c.lon, c.lat, zoom);
    TileLonBracket(c.lon, zoom);
    Ok(GridIndex(xy.0, xy.1, zoom))
  }

  /** `get_coordinate_from_index`: the upper-left corner of a tile. */
  function GetCoordinateFromIndex(m: Mercator, g: GridIndex): (r: Result<Coordinate>)
    ensures r.Err? <==> g.z < 0
    ensures r.Ok? ==> r.value == Coordinate(TileLat(m, g.y, g.z), TileLon(g.x, g.z))
    ensures r.Ok? ==> TileX(r.value.lon, g.z) == g.x
  {
    var ll :- LonLatFromIndex(m, g.x, g.y, g.z);
    TileXOfTileLon(g.x, g.z);
    Ok(Coordinate(ll.1, ll.0))
  }

  /** `create_polygon_from_latlons`: the box spanning the given bounds. */
  function CreatePolygonFromLatlons(minLat: real, minLon: real, maxLat: real, maxLon: real): (p: Geom)
    ensures IsPolygon(p)
    ensures forall o :: minLon <= maxLon && minLat <= maxLat ==>
      BoundsOf(o, p) == Bounds(minLon, minLat, maxLon, maxLat)
  {
    Box(minLon, minLat, maxLon, maxLat)
  }

  /** `create_line_from_latlons`: a two-point line whose points are in
      (lon, lat) order. */
  function CreateLineFromLatlons(p1: (real, real), p2: (real, real)): (l: Geom)
    ensures l.LineString? && |l.points| == 2
    ensures LatLonOf(l.points[0]) == p1 && LatLonOf(l.points[1]) == p2
  {
    LineString([XY(p1.1, p1.0), XY(p2.1, p2.0)])
  }

  /** Reads a (lon, lat) point back as a (lat, lon) pair. */
  function LatLonOf(p: XY): (real, real) {
    (p.y, p.x)
  }

  /** `get_grid_bb_from_polygon`: the lower corner is the tile of
      (min_lat, max_lon), the upper corner the tile of (max_lat, min_lon). */
  function GetGridBbFromPolygon(o: GeometryOracle, m: Mercator, polygon: Geom, zoom: int): (r: Result<GridBoundingBox>)
    ensures r.Err? <==> zoom < 0
    ensures r.Ok? ==> r.value.lowerCorner.z == zoom && r.value.upperCorner.z == zoom
    ensures r.Ok? ==> var b := BoundsOf(o, polygon);
      && (-180.0 <= b.maxX ==> TileLon(r.value.lowerCorner.x, zoom) <= b.maxX < TileLon(r.value.lowerCorner.x + 1, zoom))
      && (-180.0 <= b.minX ==> TileLon(r.value.upperCorner.x, zoom) <= b.minX < TileLon(r.value.upperCorner.x + 1, zoom))
      && r.value.lowerCorner.y == TileY(m, b.minY, zoom)
      && r.value.upperCorner.y == TileY(m, b.maxY, zoom)
  {
    if zoom < 0 then Err(NegativeZoom)
    else
      var b := BoundsOf(o, polygon);
      var start := GetIndexFromCoordinate(m, Coordinate(b.minY, b.maxX), zoom);
      var end := GetIndexFromCoordinate(m, Coordinate(b.maxY, b.minX), zoom);
      Ok(GridBoundingBox(start.value, end.value))
  }

  /** `get_polygon_from_grid_bb`: the lower corner's (lat, lon) become the
      minimum arguments and the upper corner's the maximum arguments. */
  function GetPolygonFromGridBb(m: Mercator, bb: GridBoundingBox): (r: Result<Geom>)
    ensures r.Err? <==> bb.lowerCorner.z < 0 || bb.upperCorner.z < 0
    ensures r.Ok? ==> r.value.Box?
    ensures r.Ok? ==> TileX(r.value.x1, bb.lowerCorner.z) == bb.lowerCorner.x
    ensures r.Ok? ==> TileX(r.value.x2, bb.upperCorner.z) == bb.upperCorner.x
  {
    var lower :- GetCoordinateFromIndex(m, bb.lowerCorner);
    var upper :- GetCoordinateFromIndex(m, bb.upperCorner);
    Ok(CreatePolygonFromLatlons(lower.lat, lower.lon, upper.lat, upper.lon))
  }

  // ---------------------------------------------------------------------
  // Properties of the longitude axis

  lemma TruncOfInt(k: int)
    ensures Trunc(k as real) == k
  {
  }

  lemma TruncMonotone(a: real, b: real)
    requires a <= b
    ensures Trunc(a) <= Trunc(b)
  {
    if a < 0.0 && b < 0.0 {
      assert (-b).Floor <= (-a).Floor;
    }
  }

  /** Every tile's own west edge maps back to that tile, for every integer x. */
  lemma TileXOfTileLon(x: int, z: nat)
    ensures TileX(TileLon(x, z), z) == x
  {
    var n := Pow2(z) as real;
    var lon := TileLon(x, z);
    assert lon + 180.0 == (x as real) / n * 360.0;
    calc {
      LonFraction(lon, z);
      ((x as real) / n * 360.0) / 360.0 * n;
      (x as real) / n * n;
      x as real;
    }
    TruncOfInt(x);
  }

  /** The column index is monotone in longitude. */
  lemma TileXMonotone(lon1: real, lon2: real, z: nat)
    requires lon1 <= lon2
    ensures TileX(lon1, z) <= TileX(lon2, z)
  {
    var n := Pow2(z) as real;
    assert (lon1 + 180.0) / 360.0 <= (lon2 + 180.0) / 360.0;
    assert (lon1 + 180.0) / 360.0 * n <= (lon2 + 180.0) / 360.0 * n;
    TruncMonotone(LonFraction(lon1, z), LonFraction(lon2, z));
  }

  /** From the antimeridian eastwards the column of a longitude is its floor
      column, so the tile's west edge is at or before it and the next tile's
      west edge is after it. */
  lemma TileLonBracket(lon: real, z: nat)
    ensures -180.0 <= lon ==> TileLon(TileX(lon, z), z) <= lon < TileLon(TileX(lon, z) + 1, z)
  {
    if -180.0 <= lon {
      var n := Pow2(z) as real;
      var t := LonFraction(lon, z);
      assert t >= 0.0;
      var x := TileX(lon, z);
      assert x == t.Floor;
      assert x as real <= t < x as real + 1.0;
      TileLonOrder(x, lon, z);
      TileLonOrder(x + 1, lon, z);
    }
  }

  /** Comparing a tile edge with a longitude is comparing the column with
      the fractional column. */
  lemma TileLonOrder(x: int, lon: real, z: nat)
    ensures TileLon(x, z) <= lon <==> (x as real) <= LonFraction(lon, z)
    ensures TileLon(x, z) < lon <==> (x as real) < LonFraction(lon, z)
  {
    var n := Pow2(z) as real;
    assert TileLon(x, z) + 180.0 == (x as real) / n * 360.0;
    assert LonFraction(lon, z) == (lon + 180.0) / 360.0 * n;
    assert (x as real) == (x as real) / n * 360.0 / 360.0 * n;
  }

  /** On the longitude range [-180, 180) the column lies in [0, 2^z), and
      longitude 180 gives the column 2^z just past the last one. */
  lemma TileXRange(lon: real, z: nat)
    ensures -180.0 <= lon < 180.0 ==> 0 <= TileX(lon, z) < Pow2(z)
    ensures lon == 180.0 ==> TileX(lon, z) == Pow2(z)
  {
    var n := Pow2(z) as real;
    var q := (lon + 180.0) / 360.0;
    assert LonFraction(lon, z) == q * n;
    if -180.0 <= lon < 180.0 {
      ScaleBelow(q, n);
      assert 0.0 <= LonFraction(lon, z) < n;
      assert (LonFraction(lon, z)).Floor < Pow2(z);
    }
    if lon == 180.0 {
      assert q == 1.0;
      TruncOfInt(Pow2(z));
    }
  }

  lemma ScaleMonotone(a: real, b: real, n: real)
    requires a <= b && n >= 0.0
    ensures a * n <= b * n
  {
  }

  lemma ScaleBelow(q: real, n: real)
    requires 0.0 <= q < 1.0 && n > 0.0
    ensures 0.0 <= q * n < n
  {
  }

  /** West of the antimeridian `int()` rounds toward zero instead of down:
      longitude -270 lands in column 0 at zoom 0, whose west edge -180 is
      east of it. */
  lemma TruncationWestOfAntimeridian()
    ensures TileX(-270.0, 0) == 0 && TileLon(0, 0) > -270.0
  {
  }

  /** Rows run southward: with a decreasing projection a more northern
      latitude never has a larger row. */
  lemma TileYAntitone(m: Mercator, lat1: real, lat2: real, z: nat)
    requires Antitone(m)
    requires lat1 <= lat2
    ensures TileY(m, lat2, z) <= TileY(m, lat1, z)
  {
    var n := Pow2(z) as real;
    var row2, row1 := m.row(lat2), m.row(lat1);
    assert row2 <= row1;
    ScaleMonotone(row2, row1, n);
    TruncMonotone(row2 * n, row1 * n);
  }

  /** The corner construction of `get_grid_bb_from_polygon`: the lower corner
      is the south-east tile and the upper corner the north-west tile, so
      the lower corner's column and row are never smaller than the upper
      corner's. */
  lemma GridBbCornerOrder(o: GeometryOracle, m: Mercator, polygon: Geom, zoom: int)
    requires Antitone(m)
    requires Ordered(BoundsOf(o, polygon))
    ensures var r := GetGridBbFromPolygon(o, m, polygon, zoom);
      r.Ok? ==>
        r.value.upperCorner.x <= r.value.lowerCorner.x && r.value.upperCorner.y <= r.value.lowerCorner.y
  {
    if zoom >= 0 {
      var b := BoundsOf(o, polygon);
      TileXMonotone(b.minX, b.maxX, zoom);
      TileYAntitone(m, b.minY, b.maxY, zoom);
    }
  }
}

=== FILE: downloads.dfy ===
/** Downloading whole map sheets: the loop of `_download_map_sheets` that
    skips sheets already on disk, merges the tiles of the others and
    collects one metadata row per sheet it saved, and the single append to
    the metadata file at the end.

    The file system and the tile download are supplied by an `Io` record:
    `saved(path)` says whether a file was on disk before the run started and
    `merge(path, gridBb)` whether downloading and merging a sheet's tiles
    into `path` succeeded.  A sheet merged earlier in the same run is on
    disk afterwards, so it counts as saved from then on. */
module Downloads {
  import opened Common
  import opened Geometry
  import opened DownloaderUtils
  import opened Catalogue

  datatype Io = Io(saved: string -> bool, merge: (string, GridBoundingBox) -> bool)

  /** One line of the metadata file: name, url, coordinates, published date
      and grid bounding box. */
  datatype MetadataRow = MetadataRow(
    name: string,
    url: string,
    coordinates: Bounds,
    publishedDate: PublishedDate,
    gridBb: GridBoundingBox)

  /** The loop's state: the downloader, the map files merged so far, their
      positions in the list of sheets, and the metadata rows collected. */
  datatype Progress = Progress(d: Downloader, written: seq<string>, downloaded: seq<nat>, rows: seq<MetadataRow>)

  datatype Outcome = Outcome(p: Progress, raised: Option<Error>)

  /** The result of a download request: the state afterwards, the sheets it
      was asked for (positions in the catalogue), the files merged, their
      positions in `sheets`, the rows collected, the metadata file
      afterwards (`None` when there is none) and the error raised, if any. */
  datatype Download = Download(
    after: Downloader,
    sheets: seq<nat>,
    written: seq<string>,
    downloaded: seq<nat>,
    rows: seq<MetadataRow>,
    metadata: Option<seq<MetadataRow>>,
    raised: Option<Error>)

  function MapName(image: string): string {
    "map_" + image
  }

  /** Where a sheet is saved: the merger writes into `<path_save>/`. */
  function SheetPath(pathSave: string, image: string): string {
    pathSave + "/" + MapName(image) + ".png"
  }

  predicate InRange(sheets: seq<nat>, n: nat) {
    forall j :: 0 <= j < |sheets| ==> sheets[j] < n
  }

  /** The rows already in the metadata file. */
  function Existing(file: Option<seq<MetadataRow>>): seq<MetadataRow> {
    if file.Some? then file.value else []
  }

  // ---------------------------------------------------------------------
  // The coordinates recorded for a sheet

  /** `_save_metadata` as written: (xmin, ymin) is the upper-left corner of
      the lower-corner tile and (xmax, ymax) the upper-left corner of the
      upper-corner tile. */
  function RecordedBounds(m: Mercator, bb: GridBoundingBox): (r: Result<Bounds>)
    ensures r.Err? <==> bb.lowerCorner.z < 0 || bb.upperCorner.z < 0
    ensures r.Ok? ==> TileX(r.value.minX, bb.lowerCorner.z) == bb.lowerCorner.x
    ensures r.Ok? ==> TileX(r.value.maxX, bb.upperCorner.z) == bb.upperCorner.x
  {
    var lower :- GetCoordinateFromIndex(m, bb.lowerCorner);
    var upper :- GetCoordinateFromIndex(m, bb.upperCorner);
    Ok(Bounds(lower.lon, lower.lat, upper.lon, upper.lat))
  }

  /** The bounds of the tiles actually downloaded: from the west edge of the
      upper corner's column to the east edge of the lower corner's column,
      and from the south edge of the lower corner's row to the north edge of
      the upper corner's row. */
  function CoveredBounds(m: Mercator, bb: GridBoundingBox): (r: Result<Bounds>)
    ensures r.Err? <==> bb.lowerCorner.z < 0 || bb.upperCorner.z < 0
    ensures r.Ok? ==> TileX(r.value.minX, bb.upperCorner.z) == bb.upperCorner.x
    ensures r.Ok? ==> TileX(r.value.maxX, bb.lowerCorner.z) == bb.lowerCorner.x + 1
  {
    var nw :- LonLatFromIndex(m, bb.upperCorner.x, bb.upperCorner.y, bb.upperCorner.z);
    var se :- LonLatFromIndex(m, bb.lowerCorner.x + 1, bb.lowerCorner.y + 1, bb.lowerCorner.z);
    TileXOfTileLon(bb.upperCorner.x, bb.upperCorner.z);
    TileXOfTileLon(bb.lowerCorner.x + 1, bb.lowerCorner.z);
    Ok(Bounds(nw.0, se.1, se.0, nw.1))
  }

  /** The inverse projection is decreasing too: a larger row lies further
      south. */
  ghost predicate InverseAntitone(m: Mercator) {
    forall a, b :: a <= b ==> m.latOf(b) <= m.latOf(a)
  }

  lemma TileLonMonotone(x1: int, x2: int, z: nat)
    requires x1 <= x2
    ensures TileLon(x1, z) <= TileLon(x2, z)
  {
    var n := Pow2(z) as real;
    assert (x1 as real) / n <= (x2 as real) / n;
  }

  /** For a sheet whose grid bounding box comes from its outline, the
      recorded west bound is never west of the recorded east bound. */
  lemma RecordedBoundsReversed(o: GeometryOracle, m: Mercator, polygon: Geom, zoom: int)
    requires Antitone(m)
    requires Ordered(BoundsOf(o, polygon))
    ensures var bb := GetGridBbFromPolygon(o, m, polygon, zoom);
      bb.Ok? ==> RecordedBounds(m, bb.value).Ok? && RecordedBounds(m, bb.value).value.maxX <= RecordedBounds(m, bb.value).value.minX
  {
    GridBbCornerOrder(o, m, polygon, zoom);
    if zoom >= 0 {
      var bb := GetGridBbFromPolygon(o, m, polygon, zoom).value;
      TileLonMonotone(bb.upperCorner.x, bb.lowerCorner.x, zoom);
    }
  }

  /** A sheet spanning longitudes -10 to 10 at zoom 1 covers tile columns 0
      and 1, that is longitudes -180 to 180; the recorded coordinates say
      xmin = 0 and xmax = -180. */
  lemma RecordedBoundsCounterexample(o: GeometryOracle, m: Mercator)
    ensures var bb := GetGridBbFromPolygon(o, m, Box(-10.0, 10.0, 10.0, 20.0), 1);
      && bb.Ok?
      && RecordedBounds(m, bb.value).Ok?
      && RecordedBounds(m, bb.value).value.minX == 0.0
      && RecordedBounds(m, bb.value).value.maxX == -180.0
  {
    var bb := GetGridBbFromPolygon(o, m, Box(-10.0, 10.0, 10.0, 20.0), 1);
    assert Pow2(1) == 2;
    assert LonFraction(10.0, 1) == 190.0 / 180.0;
    assert LonFraction(-10.0, 1) == 170.0 / 180.0;
    assert TileX(10.0, 1) == 1;
    assert TileX(-10.0, 1) == 0;
  }

  /** The corrected bounds contain the sheet's longitudes, and with a
      decreasing inverse projection they are ordered in latitude. */
  lemma CoveredBoundsContain(o: GeometryOracle, m: Mercator, polygon: Geom, zoom: int)
    requires Antitone(m)
    requires Ordered(BoundsOf(o, polygon))
    requires zoom >= 0 && -180.0 <= BoundsOf(o, polygon).minX
    ensures var bb := GetGridBbFromPolygon(o, m, polygon, zoom).value;
      var c := CoveredBounds(m, bb);
      && c.Ok?
      && c.value.minX <= BoundsOf(o, polygon).minX
      && BoundsOf(o, polygon).maxX < c.value.maxX
      && (InverseAntitone(m) ==> c.value.minY <= c.value.maxY)
  {
    var b := BoundsOf(o, polygon);
    var bb := GetGridBbFromPolygon(o, m, polygon, zoom).value;
    GridBbCornerOrder(o, m, polygon, zoom);
    CoveredLongitudes(m, bb, b.minX, b.maxX);
    if InverseAntitone(m) {
      CoveredLatitudes(m, bb);
    }
  }

  lemma CoveredLongitudes(m: Mercator, bb: GridBoundingBox, west: real, east: real)
    requires bb.upperCorner.z >= 0 && bb.lowerCorner.z >= 0
    requires -180.0 <= west <= east
    requires bb.upperCorner.x == TileX(west, bb.upperCorner.z)
    requires bb.lowerCorner.x == TileX(east, bb.lowerCorner.z)
    ensures CoveredBounds(m, bb).Ok?
    ensures CoveredBounds(m, bb).value.minX <= west && east < CoveredBounds(m, bb).value.maxX
  {
    TileLonBracket(west, bb.upperCorner.z);
    TileLonBracket(east, bb.lowerCorner.z);
    var c := CoveredBounds(m, bb).value;
    assert c.minX == TileLon(bb.upperCorner.x, bb.upperCorner.z);
    assert c.maxX == TileLon(bb.lowerCorner.x + 1, bb.lowerCorner.z);
  }

  lemma CoveredLatitudes(m: Mercator, bb: GridBoundingBox)
    requires InverseAntitone(m)
    requires bb.upperCorner.z == bb.lowerCorner.z >= 0
    requires bb.upperCorner.y <= bb.lowerCorner.y
    ensures CoveredBounds(m, bb).Ok?
    ensures CoveredBounds(m, bb).value.minY <= CoveredBounds(m, bb).value.maxY
  {
    var n := Pow2(bb.upperCorner.z) as real;
    var north, south := (bb.upperCorner.y as real) / n, ((bb.lowerCorner.y + 1) as real) / n;
    assert north <= south;
    var c := CoveredBounds(m, bb).value;
    assert c.minY == m.latOf(south) && c.maxY == m.latOf(north);
  }

  // ---------------------------------------------------------------------
  // One sheet

  /** The metadata row of a downloaded sheet, read after its publication
      date has been derived.  Its coordinates are the bounds as
      `_save_metadata` records them, east and west edges reversed. */
  function MetadataRowOf(m: Mercator, f: Feature): (r: Result<MetadataRow>)
    ensures r.Err? <==> f.publishedDate.None? || f.gridBb.None? || f.gridBb.value.lowerCorner.z < 0 || f.gridBb.value.upperCorner.z < 0
    ensures r.Ok? ==> r.value.name == MapName(f.image) + ".png" && r.value.url == f.imageUrl
    ensures r.Ok? ==> Some(r.value.publishedDate) == f.publishedDate && Some(r.value.gridBb) == f.gridBb
    ensures r.Ok? ==> Ok(r.value.coordinates) == RecordedBounds(m, f.gridBb.value)
  {
    if f.publishedDate.None? then Err(MissingKey("published_date"))
    else if f.gridBb.None? then Err(MissingKey("grid_bb"))
    else
      var c :- RecordedBounds(m, f.gridBb.value);
      Ok(MetadataRow(MapName(f.image) + ".png", f.imageUrl, c, f.publishedDate.value, f.gridBb.value))
  }

  /** The row a download records for a sheet whose grid box comes from its
      outline has its west bound at or east of its east bound. */
  lemma MetadataRowReversed(o: GeometryOracle, m: Mercator, f: Feature, zoom: int)
    requires Antitone(m) && zoom >= 0 && f.publishedDate.Some?
    requires f.polygon.Some? && Ordered(BoundsOf(o, f.polygon.value))
    requires f.gridBb == Some(GetGridBbFromPolygon(o, m, f.polygon.value, zoom).value)
    ensures MetadataRowOf(m, f).Ok?
    ensures MetadataRowOf(m, f).value.coordinates.maxX <= MetadataRowOf(m, f).value.coordinates.minX
  {
    RecordedBoundsReversed(o, m, f.polygon.value, zoom);
  }

  /** `_check_map_sheet_exists` guarding the download: only when not
      overwriting, and a file merged earlier in this run exists too. */
  predicate Skips(io: Io, overwrite: bool, written: seq<string>, path: string) {
    !overwrite && (io.saved(path) || path in written)
  }

  /** `_save_metadata` for the sheet at catalogue position k, just merged:
      publication dates are derived first if they have not been, then the
      row is read from the sheet. */
  function SaveMetadata(o: Oracles, p: Progress, k: nat): (v: Outcome)
    requires k < |p.d.features|
    ensures SameSheets(p.d, v.p.d) && FlagsGrow(p.d, v.p.d)
    ensures v.p.d.foundQueries == p.d.foundQueries && v.p.d.mergedPolygon == p.d.mergedPolygon
    ensures v.p.written == p.written && v.p.downloaded == p.downloaded
    ensures v.raised.None? ==> v.p.d.publishedDates
    ensures v.raised.None? ==> |v.p.rows| == |p.rows| + 1 && v.p.rows[..|p.rows|] == p.rows
    ensures v.raised.None? ==> MetadataRowOf(o.mercator, v.p.d.features[k]) == Ok(v.p.rows[|p.rows|])
    ensures v.raised.Some? ==> v.p.rows == p.rows
  {
    var s := if p.d.publishedDates then Step(p.d, None) else ExtractPublishedDates(p.d, o);
    if s.raised.Some? then Outcome(p.(d := s.after), s.raised)
    else match MetadataRowOf(o.mercator, s.after.features[k])
      case Err(e) => Outcome(p.(d := s.after), Some(e))
      case Ok(row) => Outcome(p.(d := s.after, rows := p.rows + [row]), None)
  }

  /** The metadata step as a value the loop is given; positions outside the
      catalogue, which the loop never passes, are left alone. */
  function Saver(o: Oracles): (Progress, nat) -> Outcome {
    (p: Progress, k: nat) => if k < |p.d.features| then SaveMetadata(o, p, k) else Outcome(p, None)
  }

  /** One turn of the loop for the sheet at position i of `sheets`, with
      `save` recording the metadata of a sheet just merged. */
  function VisitSheet(io: Io, pathSave: string, overwrite: bool, sheets: seq<nat>, save: (Progress, nat) -> Outcome, i: nat, p: Progress): (v: Outcome)
    requires i < |sheets| && sheets[i] < |p.d.features|
    ensures var f := p.d.features[sheets[i]];
      var path := SheetPath(pathSave, f.image);
      && (Skips(io, overwrite, p.written, path) ==> v == Outcome(p, None))
      && (!Skips(io, overwrite, p.written, path) && f.gridBb.None? ==> v == Outcome(p, Some(MissingKey("grid_bb"))))
      && (!Skips(io, overwrite, p.written, path) && f.gridBb.Some? && !io.merge(path, f.gridBb.value) ==> v == Outcome(p, None))
      && (!Skips(io, overwrite, p.written, path) && f.gridBb.Some? && io.merge(path, f.gridBb.value) ==>
            v == save(p.(written := p.written + [path], downloaded := p.downloaded + [i]), sheets[i]))
  {
    var f := p.d.features[sheets[i]];
    var path := SheetPath(pathSave, f.image);
    if Skips(io, overwrite, p.written, path) then Outcome(p, None)
    else if f.gridBb.None? then Outcome(p, Some(MissingKey("grid_bb")))
    else if !io.merge(path, f.gridBb.value) then Outcome(p, None)
    else save(p.(written := p.written + [path], downloaded := p.downloaded + [i]), sheets[i])
  }

  /** A run of a loop from position i up to n, one turn per position; the
      first error ends it. */
  function Loop(turn: (nat, Progress) -> Outcome, n: nat, i: nat, p: Progress): Outcome
    requires i <= n
    decreases n - i
  {
    if i == n then Outcome(p, None)
    else
      var v := turn(i, p);
      if v.raised.Some? then v else Loop(turn, n, i + 1, v.p)
  }

  /** The turn of `_download_map_sheets` at each position of `sheets`;
      positions outside the catalogue, which no caller passes, are left
      alone. */
  function Turn(io: Io, pathSave: string, overwrite: bool, sheets: seq<nat>, save: (Progress, nat) -> Outcome): (nat, Progress) -> Outcome {
    (i: nat, p: Progress) =>
      if i < |sheets| && sheets[i] < |p.d.features| then VisitSheet(io, pathSave, overwrite, sheets, save, i, p)
      else Outcome(p, None)
  }

  /** `_download_map_sheets`: the loop, then one append of the collected
      rows to the metadata file, which creates the file (with its header)
      when it is not there, even with no rows.  An error leaves the metadata
      file untouched, though the maps merged before it stay on disk. */
  function DownloadMapSheets(d: Downloader, o: Oracles, io: Io, pathSave: string, sheets: seq<nat>, overwrite: bool, file: Option<seq<MetadataRow>>): (r: Download)
    requires InRange(sheets, |d.features|)
    ensures SameSheets(d, r.after) && FlagsGrow(d, r.after)
    ensures r.after.foundQueries == d.foundQueries && r.after.mergedPolygon == d.mergedPolygon
    ensures r.sheets == sheets
    ensures r.raised.Some? ==> r.metadata == file
    ensures r.raised.None? ==> r.metadata == Some(Existing(file) + r.rows)
  {
    var v := Loop(Turn(io, pathSave, overwrite, sheets, Saver(o)), |sheets|, 0, Progress(d, [], [], []));
    SaverLaws(o);
    LoopKeepsSheets(d, io, pathSave, overwrite, sheets, Saver(o));
    Download(v.p.d, sheets, v.p.written, v.p.downloaded, v.p.rows,
             if v.raised.Some? then file else Some(Existing(file) + v.p.rows), v.raised)
  }

  /** One unfolding of the loop. */
  lemma LoopStep(turn: (nat, Progress) -> Outcome, n: nat, i: nat, p: Progress)
    requires i < n
    ensures turn(i, p).raised.Some? ==> Loop(turn, n, i, p) == turn(i, p)
    ensures turn(i, p).raised.None? ==> Loop(turn, n, i, p) == Loop(turn, n, i + 1, turn(i, p).p)
  {
  }

  /** The three ways a turn can go: it passes the sheet by, it raises on a
      missing grid bounding box, or it hands the merged map to `save`. */
  lemma TurnCases(io: Io, pathSave: string, overwrite: bool, sheets: seq<nat>, save: (Progress, nat) -> Outcome, i: nat, p: Progress)
    requires i < |sheets| && sheets[i] < |p.d.features|
    ensures var f := p.d.features[sheets[i]];
      var path := SheetPath(pathSave, f.image);
      var v := Turn(io, pathSave, overwrite, sheets, save)(i, p);
      && (Skips(io, overwrite, p.written, path) ==> v == Outcome(p, None))
      && (!Skips(io, overwrite, p.written, path) && f.gridBb.None? ==> v == Outcome(p, Some(MissingKey("grid_bb"))))
      && (!Skips(io, overwrite, p.written, path) && f.gridBb.Some? && !io.merge(path, f.gridBb.value) ==> v == Outcome(p, None))
      && (!Skips(io, overwrite, p.written, path) && f.gridBb.Some? && io.merge(path, f.gridBb.value) ==>
            v == save(p.(written := p.written + [path], downloaded := p.downloaded + [i]), sheets[i]))
  {
  }

  /** `Saver` is `SaveMetadata` on every sheet of the downloader. */
  lemma SaverIs(o: Oracles, p: Progress, k: nat)
    requires k < |p.d.features|
    ensures Saver(o)(p, k) == SaveMetadata(o, p, k)
  {
  }

  /** One pass of the loop body of `_download_map_sheets`: skip an existing
      map, merge the tiles and save the metadata of a merged map. */
  method VisitSheetStep(o: Oracles, io: Io, pathSave: string, overwrite: bool, sheets: seq<nat>, i: nat, p: Progress)
    returns (v: Outcome)
    requires i < |sheets| && sheets[i] < |p.d.features|
    ensures v == Turn(io, pathSave, overwrite, sheets, Saver(o))(i, p)
  {
    var f := p.d.features[sheets[i]];
    var path := SheetPath(pathSave, f.image);
    TurnCases(io, pathSave, overwrite, sheets, Saver(o), i, p);
    v := Outcome(p, None);
    if !Skips(io, overwrite, p.written, path) {
      if f.gridBb.None? {
        v := Outcome(p, Some(MissingKey("grid_bb")));
      } else if io.merge(path, f.gridBb.value) {
        var q := p.(written := p.written + [path], downloaded := p.downloaded + [i]);
        SaverIs(o, q, sheets[i]);
        v := SaveMetadata(o, q, sheets[i]);
      }
    }
  }

  /** The loop of `_download_map_sheets` as the source writes it; it computes
      exactly `DownloadMapSheets`. */
  method DownloadMapSheetsLoop(d: Downloader, o: Oracles, io: Io, pathSave: string, sheets: seq<nat>, overwrite: bool, file: Option<seq<MetadataRow>>)
    returns (r: Download)
    requires InRange(sheets, |d.features|)
    ensures r == DownloadMapSheets(d, o, io, pathSave, sheets, overwrite, file)
    ensures r.raised.None? ==> r.metadata == Some(Existing(file) + r.rows)
    ensures r.raised.Some? ==> r.metadata == file
  {
    ghost var turn := Turn(io, pathSave, overwrite, sheets, Saver(o));
    ghost var whole := Loop(turn, |sheets|, 0, Progress(d, [], [], []));
    var p := Progress(d, [], [], []);
    var i := 0;
    SaverLaws(o);
    while i < |sheets|
      invariant 0 <= i <= |sheets|
      invariant |p.d.features| == |d.features|
      invariant whole == Loop(turn, |sheets|, i, p)
      decreases |sheets| - i
    {
      var v := VisitSheetStep(o, io, pathSave, overwrite, sheets, i, p);
      LoopStep(turn, |sheets|, i, p);
      if v.raised.Some? {
        return Download(v.p.d, sheets, v.p.written, v.p.downloaded, v.p.rows, file, v.raised);
      }
      TurnUnmoved(io, pathSave, overwrite, sheets, Saver(o), i, p);
      assert |v.p.d.features| == |p.d.features|;
      p := v.p;
      i := i + 1;
    }
    r := Download(p.d, sheets, p.written, p.downloaded, p.rows, Some(Existing(file) + p.rows), None);
  }

  // ---------------------------------------------------------------------
  // Induction over the loop

  /** A property every turn keeps holds after the loop, error or not. */
  lemma {:induction false} LoopKeeps(turn: (nat, Progress) -> Outcome, n: nat, i: nat, p: Progress, inv: Progress -> bool)
    requires i <= n && inv(p)
    requires forall j: nat, q :: inv(q) ==> inv(turn(j, q).p)
    ensures inv(Loop(turn, n, i, p).p)
    decreases n - i
  {
    if i < n {
      var v := turn(i, p);
      if v.raised.None? {
        LoopKeeps(turn, n, i + 1, v.p, inv);
      }
    }
  }

  /** If no turn that the invariant allows raises, the loop does not. */
  lemma {:induction false} LoopSucceeds(turn: (nat, Progress) -> Outcome, n: nat, i: nat, p: Progress, inv: (nat, Progress) -> bool)
    requires i <= n && inv(i, p)
    requires forall j: nat, q :: i <= j < n && inv(j, q) ==> turn(j, q).raised.None? && inv(j + 1, turn(j, q).p)
    ensures Loop(turn, n, i, p).raised.None?
    decreases n - i
  {
    if i < n {
      LoopSucceeds(turn, n, i + 1, turn(i, p).p, inv);
    }
  }

  // ---------------------------------------------------------------------
  // What the metadata step does

  /** The catalogue fields a download reads: image name, url and grid
      bounding box of every sheet. */
  ghost predicate SameFiles(d0: Downloader, d: Downloader) {
    && |d.features| == |d0.features|
    && (forall k :: 0 <= k < |d0.features| ==>
          d.features[k].image == d0.features[k].image && d.features[k].imageUrl == d0.features[k].imageUrl
          && d.features[k].gridBb == d0.features[k].gridBb)
  }

  /** The row names the sheet it was read from. */
  predicate NamesSheet(f: Feature, row: MetadataRow) {
    && row.name == MapName(f.image) + ".png"
    && row.url == f.imageUrl
    && f.gridBb == Some(row.gridBb)
  }

  ghost predicate Unmoved(d: Downloader, d': Downloader) {
    SameSheets(d, d') && FlagsGrow(d, d') && d'.foundQueries == d.foundQueries && d'.mergedPolygon == d.mergedPolygon
  }

  /** What the loop relies on from its metadata step: it touches neither the
      list of merged files nor the sheets' files, and a success adds one row
      naming the sheet. */
  ghost predicate SaveLaws(save: (Progress, nat) -> Outcome) {
    SaveKeepsList(save) && SaveKeepsState(save) && SaveAddsRow(save)
  }

  ghost predicate SaveKeepsList(save: (Progress, nat) -> Outcome) {
    forall p: Progress, k: nat :: k < |p.d.features| ==>
      save(p, k).p.written == p.written && save(p, k).p.downloaded == p.downloaded
  }

  ghost predicate SaveKeepsState(save: (Progress, nat) -> Outcome) {
    forall p: Progress, k: nat :: k < |p.d.features| ==>
      Unmoved(p.d, save(p, k).p.d) && SameFiles(p.d, save(p, k).p.d)
  }

  ghost predicate SaveAddsRow(save: (Progress, nat) -> Outcome) {
    forall p: Progress, k: nat :: k < |p.d.features| && save(p, k).raised.None? ==>
      && |save(p, k).p.rows| == |p.rows| + 1 && save(p, k).p.rows[..|p.rows|] == p.rows
      && NamesSheet(p.d.features[k], save(p, k).p.rows[|p.rows|])
  }

  /** Deriving publication dates changes nothing a download reads, even
      when it stops part way. */
  lemma ExtractKeepsFiles(d: Downloader, o: Oracles)
    ensures SameFiles(d, ExtractPublishedDates(d, o).after)
  {
    var step := f => DateStep(o, f);
    var r := Derive(d.features, step);
    assert ExtractPublishedDates(d, o).after.features == r.features;
    forall k | 0 <= k < |d.features|
      ensures r.features[k].gridBb == d.features[k].gridBb
    {
      if r.features[k] != d.features[k] {
        assert r.features[k] == DateStep(o, d.features[k]).value;
      }
    }
  }

  lemma SaveMetadataLaws(o: Oracles, p: Progress, k: nat)
    requires k < |p.d.features|
    ensures var v := SaveMetadata(o, p, k);
      && Unmoved(p.d, v.p.d) && SameFiles(p.d, v.p.d)
      && (v.raised.None? ==> (|v.p.rows| == |p.rows| + 1 && v.p.rows[..|p.rows|] == p.rows && NamesSheet(p.d.features[k], v.p.rows[|p.rows|])))
  {
    ExtractKeepsFiles(p.d, o);
  }

  lemma SaverLaws(o: Oracles)
    ensures SaveLaws(Saver(o))
  {
    forall p: Progress, k: nat | k < |p.d.features|
      ensures var v := Saver(o)(p, k);
        && v.p.written == p.written && v.p.downloaded == p.downloaded
        && Unmoved(p.d, v.p.d) && SameFiles(p.d, v.p.d)
        && (v.raised.None? ==> (|v.p.rows| == |p.rows| + 1 && v.p.rows[..|p.rows|] == p.rows && NamesSheet(p.d.features[k], v.p.rows[|p.rows|])))
    {
      SaveMetadataLaws(o, p, k);
    }
  }

  lemma LoopKeepsSheets(d: Downloader, io: Io, pathSave: string, overwrite: bool, sheets: seq<nat>, save: (Progress, nat) -> Outcome)
    requires SaveKeepsState(save)
    ensures Unmoved(d, Loop(Turn(io, pathSave, overwrite, sheets, save), |sheets|, 0, Progress(d, [], [], [])).p.d)
  {
    var turn := Turn(io, pathSave, overwrite, sheets, save);
    var inv := (q: Progress) => Unmoved(d, q.d);
    forall j: nat, q | inv(q) ensures inv(turn(j, q).p) {
      TurnUnmoved(io, pathSave, overwrite, sheets, save, j, q);
      Chain(d, q.d, turn(j, q).p.d);
    }
    LoopKeeps(turn, |sheets|, 0, Progress(d, [], [], []), inv);
  }

  lemma TurnUnmoved(io: Io, pathSave: string, overwrite: bool, sheets: seq<nat>, save: (Progress, nat) -> Outcome, j: nat, q: Progress)
    requires SaveKeepsState(save)
    ensures Unmoved(q.d, Turn(io, pathSave, overwrite, sheets, save)(j, q).p.d)
  {
    var v := Turn(io, pathSave, overwrite, sheets, save)(j, q);
    if j < |sheets| && sheets[j] < |q.d.features| {
      var f := q.d.features[sheets[j]];
      var path := SheetPath(pathSave, f.image);
      if Skips(io, overwrite, q.written, path) || f.gridBb.None? || !io.merge(path, f.gridBb.value) {
        assert v.p == q;
        UnmovedItself(q.d);
      } else {
        var q' := q.(written := q.written + [path], downloaded := q.downloaded + [j]);
        assert v == save(q', sheets[j]);
      }
    } else {
      assert v.p == q;
      UnmovedItself(q.d);
    }
  }

  /** A downloader no turn touched is unmoved. */
  lemma UnmovedItself(d: Downloader)
    ensures Unmoved(d, d)
  {
  }

  /** Keeping the files is transitive. */
  lemma SameFilesChain(d: Downloader, d': Downloader, d'': Downloader)
    requires SameFiles(d, d') && SameFiles(d', d'')
    ensures SameFiles(d, d'')
  {
  }

  // ---------------------------------------------------------------------
  // Properties of the loop

  /** No file saved before the run is in the list, and none twice. */
  ghost predicate Fresh(io: Io, written: seq<string>) {
    && (forall j :: 0 <= j < |written| ==> !io.saved(written[j]))
    && (forall j, k :: 0 <= j < k < |written| ==> written[j] != written[k])
  }

  lemma TurnFresh(io: Io, pathSave: string, sheets: seq<nat>, save: (Progress, nat) -> Outcome, j: nat, q: Progress)
    requires SaveKeepsList(save)
    requires Fresh(io, q.written)
    ensures Fresh(io, Turn(io, pathSave, false, sheets, save)(j, q).p.written)
  {
    var v := Turn(io, pathSave, false, sheets, save)(j, q);
    if j < |sheets| && sheets[j] < |q.d.features| {
      var f := q.d.features[sheets[j]];
      var path := SheetPath(pathSave, f.image);
      if Skips(io, false, q.written, path) || f.gridBb.None? || !io.merge(path, f.gridBb.value) {
        assert v.p == q;
      } else {
        var q' := q.(written := q.written + [path], downloaded := q.downloaded + [j]);
        assert v == save(q', sheets[j]);
        assert v.p.written == q.written + [path];
        assert !io.saved(path) && path !in q.written;
      }
    } else {
      assert v.p == q;
    }
  }

  /** Without `overwrite` no map on disk is downloaded again, neither one
      saved before the run nor one merged earlier in it, whether or not the
      run ends in an error. */
  lemma DownloadNeverRewrites(d: Downloader, o: Oracles, io: Io, pathSave: string, sheets: seq<nat>, file: Option<seq<MetadataRow>>)
    requires InRange(sheets, |d.features|)
    ensures Fresh(io, DownloadMapSheets(d, o, io, pathSave, sheets, false, file).written)
  {
    var turn := Turn(io, pathSave, false, sheets, Saver(o));
    var inv := (q: Progress) => Fresh(io, q.written);
    SaverLaws(o);
    forall j: nat, q | inv(q) ensures inv(turn(j, q).p) {
      TurnFresh(io, pathSave, sheets, Saver(o), j, q);
    }
    LoopKeeps(turn, |sheets|, 0, Progress(d, [], [], []), inv);
  }

  /** A merged sheet: its file is the sheet's path, its tiles merged, and
      its row names the sheet. */
  ghost predicate MergedAs(d0: Downloader, io: Io, pathSave: string, k: nat, path: string, row: MetadataRow) {
    && k < |d0.features|
    && path == SheetPath(pathSave, d0.features[k].image)
    && io.merge(path, row.gridBb)
    && NamesSheet(d0.features[k], row)
  }

  /** One file, one position and one row per merged sheet, positions before
      `bound` and increasing. */
  ghost predicate Recorded(d0: Downloader, io: Io, pathSave: string, sheets: seq<nat>, bound: nat,
                           written: seq<string>, downloaded: seq<nat>, rows: seq<MetadataRow>) {
    && bound <= |sheets|
    && |written| == |downloaded| == |rows|
    && (forall j :: 0 <= j < |downloaded| ==>
          downloaded[j] < bound && MergedAs(d0, io, pathSave, sheets[downloaded[j]], written[j], rows[j]))
    && (forall j, k :: 0 <= j < k < |downloaded| ==> downloaded[j] < downloaded[k])
  }

  /** The invariant of any run: the downloader's files are those it started
      with and every map downloaded so far is on record. */
  ghost predicate Logged(d0: Downloader, io: Io, pathSave: string, sheets: seq<nat>, j: nat, q: Progress) {
    SameFiles(d0, q.d) && Recorded(d0, io, pathSave, sheets, j, q.written, q.downloaded, q.rows)
  }

  lemma TurnRecords(d0: Downloader, io: Io, pathSave: string, overwrite: bool, sheets: seq<nat>, save: (Progress, nat) -> Outcome, j: nat, q: Progress)
    requires SaveKeepsList(save) && SaveKeepsState(save) && SaveAddsRow(save)
    requires j < |sheets| && InRange(sheets, |d0.features|)
    requires Logged(d0, io, pathSave, sheets, j, q)
    ensures var v := Turn(io, pathSave, overwrite, sheets, save)(j, q);
      v.raised.None? ==> Logged(d0, io, pathSave, sheets, j + 1, v.p)
  {
    var k := sheets[j];
    var f := q.d.features[k];
    var path := SheetPath(pathSave, f.image);
    var v := Turn(io, pathSave, overwrite, sheets, save)(j, q);
    if Skips(io, overwrite, q.written, path) || f.gridBb.None? || !io.merge(path, f.gridBb.value) {
      assert v.p == q;
      RecordedWiden(d0, io, pathSave, sheets, j, q.written, q.downloaded, q.rows);
    } else {
      var q' := q.(written := q.written + [path], downloaded := q.downloaded + [j]);
      assert v == save(q', k);
      if v.raised.None? {
        var row := SavedRow(save, q', k);
        SameFilesChain(d0, q.d, v.p.d);
        assert MergedAs(d0, io, pathSave, k, path, row);
        RecordedSnoc(d0, io, pathSave, sheets, j, q.written, q.downloaded, q.rows, path, row);
      }
    }
  }

  /** What a successful metadata step leaves behind: one more row, naming the
      sheet, and the same downloader files. */
  lemma SavedRow(save: (Progress, nat) -> Outcome, p: Progress, k: nat) returns (row: MetadataRow)
    requires SaveKeepsList(save) && SaveKeepsState(save) && SaveAddsRow(save)
    requires k < |p.d.features| && save(p, k).raised.None?
    ensures var v := save(p, k);
      && v.p.written == p.written && v.p.downloaded == p.downloaded
      && v.p.rows == p.rows + [row] && NamesSheet(p.d.features[k], row)
      && SameFiles(p.d, v.p.d)
  {
    var v := save(p, k);
    row := v.p.rows[|p.rows|];
    assert v.p.rows == v.p.rows[..|p.rows|] + [row];
  }

  lemma RecordedWiden(d0: Downloader, io: Io, pathSave: string, sheets: seq<nat>, j: nat,
                      written: seq<string>, downloaded: seq<nat>, rows: seq<MetadataRow>)
    requires j < |sheets|
    requires Recorded(d0, io, pathSave, sheets, j, written, downloaded, rows)
    ensures Recorded(d0, io, pathSave, sheets, j + 1, written, downloaded, rows)
  {
  }

  lemma RecordedSnoc(d0: Downloader, io: Io, pathSave: string, sheets: seq<nat>, j: nat,
                     written: seq<string>, downloaded: seq<nat>, rows: seq<MetadataRow>, path: string, row: MetadataRow)
    requires j < |sheets|
    requires Recorded(d0, io, pathSave, sheets, j, written, downloaded, rows)
    requires MergedAs(d0, io, pathSave, sheets[j], path, row)
    ensures Recorded(d0, io, pathSave, sheets, j + 1, written + [path], downloaded + [j], rows + [row])
  {
    var w, dl, rs := written + [path], downloaded + [j], rows + [row];
    forall i | 0 <= i < |dl|
      ensures dl[i] < j + 1 && MergedAs(d0, io, pathSave, sheets[dl[i]], w[i], rs[i])
    {
      if i < |downloaded| {
        assert dl[i] == downloaded[i] && w[i] == written[i] && rs[i] == rows[i];
      }
    }
  }

  /** A run that raises nothing merged each listed file from the sheet at
      the matching position, in the order of `sheets`, with one metadata
      row naming that sheet. */
  lemma DownloadRecords(d: Downloader, o: Oracles, io: Io, pathSave: string, sheets: seq<nat>, overwrite: bool, file: Option<seq<MetadataRow>>)
    requires InRange(sheets, |d.features|)
    ensures var r := DownloadMapSheets(d, o, io, pathSave, sheets, overwrite, file);
      r.raised.None? ==> Recorded(d, io, pathSave, sheets, |sheets|, r.written, r.downloaded, r.rows)
  {
    SaverLaws(o);
    TurnsLog(d, io, pathSave, overwrite, sheets, Saver(o));
    assert SameFiles(d, d);
    assert Recorded(d, io, pathSave, sheets, 0, [], [], []);
    LoopLogged(d, io, pathSave, sheets, Turn(io, pathSave, overwrite, sheets, Saver(o)), 0, Progress(d, [], [], []));
  }

  /** Every successful turn carries `Logged` one sheet further. */
  ghost predicate LogsEachTurn(d0: Downloader, io: Io, pathSave: string, sheets: seq<nat>, turn: (nat, Progress) -> Outcome) {
    forall j: nat, q: Progress :: j < |sheets| && Logged(d0, io, pathSave, sheets, j, q) && turn(j, q).raised.None? ==>
      Logged(d0, io, pathSave, sheets, j + 1, turn(j, q).p)
  }

  lemma TurnsLog(d0: Downloader, io: Io, pathSave: string, overwrite: bool, sheets: seq<nat>, save: (Progress, nat) -> Outcome)
    requires SaveKeepsList(save) && SaveKeepsState(save) && SaveAddsRow(save)
    requires InRange(sheets, |d0.features|)
    ensures LogsEachTurn(d0, io, pathSave, sheets, Turn(io, pathSave, overwrite, sheets, save))
  {
    forall j: nat, q: Progress | j < |sheets| && Logged(d0, io, pathSave, sheets, j, q) {
      TurnRecords(d0, io, pathSave, overwrite, sheets, save, j, q);
    }
  }

  lemma {:induction false} LoopLogged(d0: Downloader, io: Io, pathSave: string, sheets: seq<nat>,
                                      turn: (nat, Progress) -> Outcome, i: nat, p: Progress)
    requires LogsEachTurn(d0, io, pathSave, sheets, turn)
    requires i <= |sheets| && Logged(d0, io, pathSave, sheets, i, p)
    ensures var v := Loop(turn, |sheets|, i, p);
      v.raised.None? ==> Logged(d0, io, pathSave, sheets, |sheets|, v.p)
    decreases |sheets| - i
  {
    if i < |sheets| {
      var v := turn(i, p);
      if v.raised.None? {
        LoopLogged(d0, io, pathSave, sheets, turn, i + 1, v.p);
      }
    }
  }

  /** The positions from i on of the sheets whose tiles merge. */
  function Mergeable(d0: Downloader, io: Io, pathSave: string, sheets: seq<nat>, i: nat): seq<nat>
    requires i <= |sheets| && InRange(sheets, |d0.features|)
    decreases |sheets| - i
  {
    if i == |sheets| then []
    else MergeableAt(d0, io, pathSave, sheets, i) + Mergeable(d0, io, pathSave, sheets, i + 1)
  }

  /** Position i if the sheet there merges, else nothing. */
  function MergeableAt(d0: Downloader, io: Io, pathSave: string, sheets: seq<nat>, i: nat): seq<nat>
    requires i < |sheets| && InRange(sheets, |d0.features|)
  {
    var f := d0.features[sheets[i]];
    if f.gridBb.Some? && io.merge(SheetPath(pathSave, f.image), f.gridBb.value) then [i] else []
  }

  /** The invariant of an overwriting run: what is downloaded so far, followed
      by what the remaining sheets will add, is every mergeable sheet. */
  ghost predicate OnTrack(d0: Downloader, io: Io, pathSave: string, sheets: seq<nat>, all: seq<nat>, j: nat, q: Progress)
    requires InRange(sheets, |d0.features|)
  {
    j <= |sheets| && SameFiles(d0, q.d) && q.downloaded + Mergeable(d0, io, pathSave, sheets, j) == all
  }

  lemma TurnOverwrites(d0: Downloader, io: Io, pathSave: string, sheets: seq<nat>, save: (Progress, nat) -> Outcome,
                       all: seq<nat>, j: nat, q: Progress)
    requires SaveKeepsList(save) && SaveKeepsState(save)
    requires j < |sheets| && InRange(sheets, |d0.features|)
    requires OnTrack(d0, io, pathSave, sheets, all, j, q)
    ensures var v := Turn(io, pathSave, true, sheets, save)(j, q);
      v.raised.None? ==> OnTrack(d0, io, pathSave, sheets, all, j + 1, v.p)
  {
    var k := sheets[j];
    var f := q.d.features[k];
    var path := SheetPath(pathSave, f.image);
    var v := Turn(io, pathSave, true, sheets, save)(j, q);
    var here, rest := MergeableAt(d0, io, pathSave, sheets, j), Mergeable(d0, io, pathSave, sheets, j + 1);
    assert Mergeable(d0, io, pathSave, sheets, j) == here + rest;
    assert f.gridBb == d0.features[k].gridBb && f.image == d0.features[k].image;
    if f.gridBb.None? || !io.merge(path, f.gridBb.value) {
      assert v.p == q;
      assert here == [];
      assert q.downloaded + here == q.downloaded;
    } else {
      var q' := q.(written := q.written + [path], downloaded := q.downloaded + [j]);
      assert v == save(q', k);
      assert here == [j];
      assert q.downloaded + (here + rest) == (q.downloaded + here) + rest;
      if v.raised.None? {
        SameFilesChain(d0, q.d, v.p.d);
      }
    }
  }

  /** With `overwrite` every sheet is attempted: a run that raises nothing
      merged exactly the sheets whose tiles merge, files on disk or not. */
  lemma DownloadOverwrites(d: Downloader, o: Oracles, io: Io, pathSave: string, sheets: seq<nat>, file: Option<seq<MetadataRow>>)
    requires InRange(sheets, |d.features|)
    ensures var r := DownloadMapSheets(d, o, io, pathSave, sheets, true, file);
      r.raised.None? ==> r.downloaded == Mergeable(d, io, pathSave, sheets, 0)
  {
    SaverLaws(o);
    LoopOverwrites(d, io, pathSave, sheets, Saver(o));
  }

  /** The loop behind `DownloadOverwrites`, for any metadata step that keeps
      the sheet list and the downloader's state. */
  lemma LoopOverwrites(d: Downloader, io: Io, pathSave: string, sheets: seq<nat>, save: (Progress, nat) -> Outcome)
    requires InRange(sheets, |d.features|)
    requires SaveKeepsList(save) && SaveKeepsState(save)
    ensures var v := Loop(Turn(io, pathSave, true, sheets, save), |sheets|, 0, Progress(d, [], [], []));
      v.raised.None? ==> v.p.downloaded == Mergeable(d, io, pathSave, sheets, 0)
  {
    var all := Mergeable(d, io, pathSave, sheets, 0);
    TurnsTrack(d, io, pathSave, sheets, save, all);
    assert SameFiles(d, d);
    assert [] + all == all;
    LoopOnTrack(d, io, pathSave, sheets, all, Turn(io, pathSave, true, sheets, save), 0, Progress(d, [], [], []));
    var v := Loop(Turn(io, pathSave, true, sheets, save), |sheets|, 0, Progress(d, [], [], []));
    if v.raised.None? {
      assert v.p.downloaded + [] == v.p.downloaded;
    }
  }

  /** Every successful turn carries `OnTrack` one sheet further. */
  ghost predicate TracksEachTurn(d0: Downloader, io: Io, pathSave: string, sheets: seq<nat>, all: seq<nat>, turn: (nat, Progress) -> Outcome)
    requires InRange(sheets, |d0.features|)
  {
    forall j: nat, q: Progress :: j < |sheets| && OnTrack(d0, io, pathSave, sheets, all, j, q) && turn(j, q).raised.None? ==>
      OnTrack(d0, io, pathSave, sheets, all, j + 1, turn(j, q).p)
  }

  lemma TurnsTrack(d0: Downloader, io: Io, pathSave: string, sheets: seq<nat>, save: (Progress, nat) -> Outcome, all: seq<nat>)
    requires SaveKeepsList(save) && SaveKeepsState(save)
    requires InRange(sheets, |d0.features|)
    ensures TracksEachTurn(d0, io, pathSave, sheets, all, Turn(io, pathSave, true, sheets, save))
  {
    forall j: nat, q: Progress | j < |sheets| && OnTrack(d0, io, pathSave, sheets, all, j, q) {
      TurnOverwrites(d0, io, pathSave, sheets, save, all, j, q);
    }
  }

  lemma {:induction false} LoopOnTrack(d0: Downloader, io: Io, pathSave: string, sheets: seq<nat>, all: seq<nat>,
                                       turn: (nat, Progress) -> Outcome, i: nat, p: Progress)
    requires InRange(sheets, |d0.features|)
    requires TracksEachTurn(d0, io, pathSave, sheets, all, turn)
    requires i <= |sheets| && OnTrack(d0, io, pathSave, sheets, all, i, p)
    ensures var v := Loop(turn, |sheets|, i, p);
      v.raised.None? ==> OnTrack(d0, io, pathSave, sheets, all, |sheets|, v.p)
    decreases |sheets| - i
  {
    if i < |sheets| {
      var v := turn(i, p);
      if v.raised.None? {
        LoopOnTrack(d0, io, pathSave, sheets, all, turn, i + 1, v.p);
      }
    }
  }

  /** The positions from i on that a run without `overwrite` downloads,
      given the files `written` so far in the run: a sheet is fetched when
      its file was neither on disk before the run nor merged earlier in it,
      and its tiles merge. */
  function Fetched(d0: Downloader, io: Io, pathSave: string, sheets: seq<nat>, i: nat, written: seq<string>): (r: seq<nat>)
    requires i <= |sheets| && InRange(sheets, |d0.features|)
    ensures forall j :: 0 <= j < |r| ==> i <= r[j] < |sheets|
    decreases |sheets| - i
  {
    if i == |sheets| then []
    else
      var f := d0.features[sheets[i]];
      var path := SheetPath(pathSave, f.image);
      if !io.saved(path) && path !in written && f.gridBb.Some? && io.merge(path, f.gridBb.value)
      then [i] + Fetched(d0, io, pathSave, sheets, i + 1, written + [path])
      else Fetched(d0, io, pathSave, sheets, i + 1, written)
  }

  /** The invariant of a run without `overwrite`: what is downloaded so far,
      followed by what the remaining sheets will add given the files written
      so far, is the whole download. */
  ghost predicate OnSkipTrack(d0: Downloader, io: Io, pathSave: string, sheets: seq<nat>, all: seq<nat>, j: nat, q: Progress)
    requires InRange(sheets, |d0.features|)
  {
    j <= |sheets| && SameFiles(d0, q.d) && q.downloaded + Fetched(d0, io, pathSave, sheets, j, q.written) == all
  }

  lemma TurnSkips(d0: Downloader, io: Io, pathSave: string, sheets: seq<nat>, save: (Progress, nat) -> Outcome,
                  all: seq<nat>, j: nat, q: Progress)
    requires SaveKeepsList(save) && SaveKeepsState(save)
    requires j < |sheets| && InRange(sheets, |d0.features|)
    requires OnSkipTrack(d0, io, pathSave, sheets, all, j, q)
    ensures var v := Turn(io, pathSave, false, sheets, save)(j, q);
      v.raised.None? ==> OnSkipTrack(d0, io, pathSave, sheets, all, j + 1, v.p)
  {
    var k := sheets[j];
    var f := q.d.features[k];
    var path := SheetPath(pathSave, f.image);
    var v := Turn(io, pathSave, false, sheets, save)(j, q);
    assert f.gridBb == d0.features[k].gridBb && f.image == d0.features[k].image;
    if Skips(io, false, q.written, path) || f.gridBb.None? || !io.merge(path, f.gridBb.value) {
      assert v.p == q;
      assert Fetched(d0, io, pathSave, sheets, j, q.written) == Fetched(d0, io, pathSave, sheets, j + 1, q.written);
    } else {
      var q' := q.(written := q.written + [path], downloaded := q.downloaded + [j]);
      assert v == save(q', k);
      var rest := Fetched(d0, io, pathSave, sheets, j + 1, q.written + [path]);
      assert Fetched(d0, io, pathSave, sheets, j, q.written) == [j] + rest;
      assert q.downloaded + ([j] + rest) == (q.downloaded + [j]) + rest;
      if v.raised.None? {
        SameFilesChain(d0, q.d, v.p.d);
      }
    }
  }

  /** Every successful turn carries `OnSkipTrack` one sheet further. */
  ghost predicate SkipsEachTurn(d0: Downloader, io: Io, pathSave: string, sheets: seq<nat>, all: seq<nat>, turn: (nat, Progress) -> Outcome)
    requires InRange(sheets, |d0.features|)
  {
    forall j: nat, q: Progress :: j < |sheets| && OnSkipTrack(d0, io, pathSave, sheets, all, j, q) && turn(j, q).raised.None? ==>
      OnSkipTrack(d0, io, pathSave, sheets, all, j + 1, turn(j, q).p)
  }

  lemma TurnsSkip(d0: Downloader, io: Io, pathSave: string, sheets: seq<nat>, save: (Progress, nat) -> Outcome, all: seq<nat>)
    requires SaveKeepsList(save) && SaveKeepsState(save)
    requires InRange(sheets, |d0.features|)
    ensures SkipsEachTurn(d0, io, pathSave, sheets, all, Turn(io, pathSave, false, sheets, save))
  {
    forall j: nat, q: Progress | j < |sheets| && OnSkipTrack(d0, io, pathSave, sheets, all, j, q) {
      TurnSkips(d0, io, pathSave, sheets, save, all, j, q);
    }
  }

  lemma {:induction false} LoopOnSkipTrack(d0: Downloader, io: Io, pathSave: string, sheets: seq<nat>, all: seq<nat>,
                                           turn: (nat, Progress) -> Outcome, i: nat, p: Progress)
    requires InRange(sheets, |d0.features|)
    requires SkipsEachTurn(d0, io, pathSave, sheets, all, turn)
    requires i <= |sheets| && OnSkipTrack(d0, io, pathSave, sheets, all, i, p)
    ensures var v := Loop(turn, |sheets|, i, p);
      v.raised.None? ==> OnSkipTrack(d0, io, pathSave, sheets, all, |sheets|, v.p)
    decreases |sheets| - i
  {
    if i < |sheets| {
      var v := turn(i, p);
      if v.raised.None? {
        LoopOnSkipTrack(d0, io, pathSave, sheets, all, turn, i + 1, v.p);
      }
    }
  }

  /** The loop behind `DownloadSkipsExisting`, for any metadata step that
      keeps the sheet list and the downloader's state. */
  lemma LoopSkips(d: Downloader, io: Io, pathSave: string, sheets: seq<nat>, save: (Progress, nat) -> Outcome)
    requires InRange(sheets, |d.features|)
    requires SaveKeepsList(save) && SaveKeepsState(save)
    ensures var v := Loop(Turn(io, pathSave, false, sheets, save), |sheets|, 0, Progress(d, [], [], []));
      v.raised.None? ==> v.p.downloaded == Fetched(d, io, pathSave, sheets, 0, [])
  {
    var all := Fetched(d, io, pathSave, sheets, 0, []);
    TurnsSkip(d, io, pathSave, sheets, save, all);
    assert SameFiles(d, d);
    assert [] + all == all;
    LoopOnSkipTrack(d, io, pathSave, sheets, all, Turn(io, pathSave, false, sheets, save), 0, Progress(d, [], [], []));
    var v := Loop(Turn(io, pathSave, false, sheets, save), |sheets|, 0, Progress(d, [], [], []));
    if v.raised.None? {
      assert v.p.downloaded + [] == v.p.downloaded;
    }
  }

  /** Without `overwrite`, a run that raises nothing downloads exactly the
      sheets whose file is neither on disk before the run nor merged earlier
      in it and whose tiles merge. */
  lemma DownloadSkipsExisting(d: Downloader, o: Oracles, io: Io, pathSave: string, sheets: seq<nat>, file: Option<seq<MetadataRow>>)
    requires InRange(sheets, |d.features|)
    ensures var r := DownloadMapSheets(d, o, io, pathSave, sheets, false, file);
      r.raised.None? ==> r.downloaded == Fetched(d, io, pathSave, sheets, 0, [])
  {
    SaverLaws(o);
    LoopSkips(d, io, pathSave, sheets, Saver(o));
  }

  /** `Fetched` takes a position exactly when its file is new, not already
      written and its tiles merge, and then counts that file as written. */
  lemma FetchedHead(d0: Downloader, io: Io, pathSave: string, sheets: seq<nat>, i: nat, written: seq<string>)
    requires i < |sheets| && InRange(sheets, |d0.features|)
    ensures var f := d0.features[sheets[i]];
      var path := SheetPath(pathSave, f.image);
      var r := Fetched(d0, io, pathSave, sheets, i, written);
      && (|r| > 0 && r[0] == i <==> !io.saved(path) && path !in written && f.gridBb.Some? && io.merge(path, f.gridBb.value))
  {
    var f := d0.features[sheets[i]];
    var path := SheetPath(pathSave, f.image);
    if !(!io.saved(path) && path !in written && f.gridBb.Some? && io.merge(path, f.gridBb.value)) {
      var r := Fetched(d0, io, pathSave, sheets, i + 1, written);
      assert forall j :: 0 <= j < |r| ==> r[j] > i;
    }
  }

  /** The file sheet position k of `sheets` is saved to. */
  function PathAt(d0: Downloader, pathSave: string, sheets: seq<nat>, k: nat): string
    requires k < |sheets| && InRange(sheets, |d0.features|)
  {
    SheetPath(pathSave, d0.features[sheets[k]].image)
  }

  /** Position k is among those fetched from i on exactly when its file was
      not on disk, was not written before position i, is not the file of an
      earlier fetched position, and its tiles merge. */
  lemma {:induction false} FetchedExactly(d0: Downloader, io: Io, pathSave: string, sheets: seq<nat>, i: nat, written: seq<string>, k: nat)
    requires i <= k < |sheets| && InRange(sheets, |d0.features|)
    ensures var r := Fetched(d0, io, pathSave, sheets, i, written);
      var f := d0.features[sheets[k]];
      var path := PathAt(d0, pathSave, sheets, k);
      k in r <==> && !io.saved(path) && path !in written
                  && (forall j :: j in r && j < k ==> PathAt(d0, pathSave, sheets, j) != path)
                  && f.gridBb.Some? && io.merge(path, f.gridBb.value)
    decreases |sheets| - i
  {
    var fi := d0.features[sheets[i]];
    var pi := PathAt(d0, pathSave, sheets, i);
    var taken := !io.saved(pi) && pi !in written && fi.gridBb.Some? && io.merge(pi, fi.gridBb.value);
    var written' := if taken then written + [pi] else written;
    if k == i {
      var rest := Fetched(d0, io, pathSave, sheets, i + 1, written');
      assert i !in rest;
    } else {
      FetchedExactly(d0, io, pathSave, sheets, i + 1, written', k);
    }
  }

  /** The downloader is either the one the loop started with or, once the
      first row needed them, the one with publication dates derived. */
  ghost predicate Stage(d0: Downloader, o: Oracles, d: Downloader) {
    || d == d0
    || (!d0.publishedDates && ExtractPublishedDates(d0, o).raised.None? && d == ExtractPublishedDates(d0, o).after)
  }

  /** What makes a download run through: every sheet has its grid bounding
      box at a valid zoom, and publication dates are derived or derivable. */
  ghost predicate ReadyToDownload(d: Downloader, o: Oracles) {
    && Valid(d)
    && d.gridBbs
    && (forall k :: 0 <= k < |d.features| ==>
          d.features[k].gridBb.value.lowerCorner.z >= 0 && d.features[k].gridBb.value.upperCorner.z >= 0)
    && (d.publishedDates || ExtractPublishedDates(d, o).raised.None?)
  }

  /** What the loop needs for a run without error: at every stage the
      metadata step succeeds and stays at a stage. */
  ghost predicate SaveSucceeds(save: (Progress, nat) -> Outcome, d0: Downloader, o: Oracles) {
    forall p: Progress, k: nat :: k < |d0.features| && Stage(d0, o, p.d) ==>
      save(p, k).raised.None? && Stage(d0, o, save(p, k).p.d)
  }

  lemma StageSameFiles(d0: Downloader, o: Oracles, d: Downloader)
    requires Stage(d0, o, d)
    ensures SameFiles(d0, d)
  {
    ExtractKeepsFiles(d0, o);
  }

  lemma SaveMetadataSucceeds(o: Oracles, d0: Downloader, p: Progress, k: nat)
    requires ReadyToDownload(d0, o) && Stage(d0, o, p.d) && k < |d0.features|
    ensures k < |p.d.features|
    ensures SaveMetadata(o, p, k).raised.None? && Stage(d0, o, SaveMetadata(o, p, k).p.d)
  {
    StageSameFiles(d0, o, p.d);
    var s := if p.d.publishedDates then Step(p.d, None) else ExtractPublishedDates(p.d, o);
    assert s.raised.None? && Stage(d0, o, s.after);
    StageSameFiles(d0, o, s.after);
    assert s.after.features[k].publishedDate.Some?;
  }

  lemma SaverSucceeds(o: Oracles, d0: Downloader)
    requires ReadyToDownload(d0, o)
    ensures SaveSucceeds(Saver(o), d0, o)
  {
    forall p: Progress, k: nat | k < |d0.features| && Stage(d0, o, p.d)
      ensures Saver(o)(p, k).raised.None? && Stage(d0, o, Saver(o)(p, k).p.d)
    {
      SaveMetadataSucceeds(o, d0, p, k);
    }
  }

  lemma TurnSucceeds(d0: Downloader, o: Oracles, io: Io, pathSave: string, overwrite: bool, sheets: seq<nat>, save: (Progress, nat) -> Outcome, j: nat, q: Progress)
    requires ReadyToDownload(d0, o) && SaveSucceeds(save, d0, o)
    requires j < |sheets| && InRange(sheets, |d0.features|)
    requires Stage(d0, o, q.d)
    ensures var v := Turn(io, pathSave, overwrite, sheets, save)(j, q);
      v.raised.None? && Stage(d0, o, v.p.d)
  {
    StageSameFiles(d0, o, q.d);
    var k := sheets[j];
    var f := q.d.features[k];
    assert f.gridBb == d0.features[k].gridBb;
    var path := SheetPath(pathSave, f.image);
    var q' := q.(written := q.written + [path], downloaded := q.downloaded + [j]);
    assert Stage(d0, o, q'.d);
  }

  /** A downloader whose flags promise grid bounding boxes, and whose
      publication dates are derived or derivable, downloads without error. */
  lemma DownloadSucceeds(d: Downloader, o: Oracles, io: Io, pathSave: string, sheets: seq<nat>, overwrite: bool, file: Option<seq<MetadataRow>>)
    requires InRange(sheets, |d.features|)
    requires ReadyToDownload(d, o)
    ensures DownloadMapSheets(d, o, io, pathSave, sheets, overwrite, file).raised.None?
  {
    var turn := Turn(io, pathSave, overwrite, sheets, Saver(o));
    var inv := (j: nat, q: Progress) => Stage(d, o, q.d);
    SaverSucceeds(o, d);
    forall j: nat, q | 0 <= j < |sheets| && inv(j, q) ensures turn(j, q).raised.None? && inv(j + 1, turn(j, q).p) {
      TurnSucceeds(d, o, io, pathSave, overwrite, sheets, Saver(o), j, q);
    }
    assert Stage(d, o, d);
    LoopSucceeds(turn, |sheets|, 0, Progress(d, [], [], []), inv);
  }
}

=== FILE: geometry.dfy ===
/** The planar geometry the downloader hands to its geometry library.  The
    shapes the model itself builds (boxes, two-point lines, points) are
    concrete; every predicate between shapes, the union of many shapes and the
    bounds of a shape the model did not build are supplied by a
    `GeometryOracle`, because they are computational geometry. */
module Geometry {
  import opened Common

  /** A point in (x, y) = (longitude, latitude) order. */
  datatype XY = XY(x: real, y: real)

  /** Axis-aligned bounds in the library's (min_x, min_y, max_x, max_y) order. */
  datatype Bounds = Bounds(minX: real, minY: real, maxX: real, maxY: real)

  datatype Geom =
    | Box(x1: real, y1: real, x2: real, y2: real)   // rectangle built from two opposite corners
    | OtherPolygon(tag: nat)                         // any other polygon, e.g. a catalogue sheet outline
    | LineString(points: seq<XY>)
    | Point(at: XY)
    | Multi(parts: seq<Geom>)                        // a multi-part geometry such as a MultiPolygon
    | Other(tag: nat)                                // a geometry of some other kind

  predicate IsPolygon(g: Geom) {
    g.Box? || g.OtherPolygon?
  }

  datatype GeometryOracle = GeometryOracle(
    within: (Geom, Geom) -> bool,
    intersects: (Geom, Geom) -> bool,
    contains: (Geom, Geom) -> bool,
    disjoint: (Geom, Geom) -> bool,
    unionOf: seq<Geom> -> Geom,
    boundsOf: Geom -> Bounds)

  /** The one law of the geometry library the model relies on: a shape that
      lies within another also intersects it. */
  ghost predicate WithinImpliesIntersects(o: GeometryOracle) {
    forall a, b :: o.within(a, b) ==> o.intersects(a, b)
  }

  predicate Ordered(b: Bounds) {
    b.minX <= b.maxX && b.minY <= b.maxY
  }

  function Min(a: real, b: real): real { if a <= b then a else b }
  function Max(a: real, b: real): real { if a <= b then b else a }

  /** Bounds of a shape; a box's bounds are its corners, normalised. */
  function BoundsOf(o: GeometryOracle, g: Geom): (b: Bounds)
    ensures g.Box? ==> Ordered(b)
    ensures g.Box? ==> b.minX <= g.x1 && b.minX <= g.x2 && (b.minX == g.x1 || b.minX == g.x2)
    ensures g.Box? ==> b.maxX >= g.x1 && b.maxX >= g.x2 && (b.maxX == g.x1 || b.maxX == g.x2)
    ensures g.Box? ==> b.minY <= g.y1 && b.minY <= g.y2 && (b.minY == g.y1 || b.minY == g.y2)
    ensures g.Box? ==> b.maxY >= g.y1 && b.maxY >= g.y2 && (b.maxY == g.y1 || b.maxY == g.y2)
  {
    match g
    case Box(x1, y1, x2, y2) => Bounds(Min(x1, x2), Min(y1, y2), Max(x1, x2), Max(y1, y2))
    case _ => o.boundsOf(g)
  }

  /** `shape(geometry).geoms[0]`: the first part of a multi-part geometry; a
      single-part geometry has no `geoms` and an empty one has no first part. */
  function FirstPart(g: Geom): (r: Result<Geom>)
    ensures r.Ok? <==> g.Multi? && |g.parts| > 0
    ensures r.Ok? ==> r.value in g.parts && r.value == g.parts[0]
  {
    if g.Multi? && |g.parts| > 0 then Ok(g.parts[0]) else Err(NoGeometryParts)
  }
}

=== FILE: queries.dfy ===
/** The `query_map_sheets_by_*` operations of the sheet downloader: each one
    validates its arguments, runs the derivation it needs, clears the
    results unless asked to append, then walks the catalogue in order and
    appends every matching feature it does not already hold. */
module Queries {
  import opened Common
  import opened Geometry
  import opened DownloaderUtils
  import opened Catalogue

  /** What a query compares each feature against. */
  datatype Criterion =
    | WfsIds(ids: seq<int>)
    | WithinPolygon(polygon: Geom)
    | IntersectsPolygon(polygon: Geom)
    | ContainsPoint(point: Geom)
    | CrossesLine(line: Geom)
    | MatchesString(pattern: string, keys: seq<string>)

  /** How a query recognises a match it already holds.  `ByFeature` is
      `feature not in found_queries`; `Never` is a test that never finds
      anything, such as comparing a polygon with the stored features. */
  datatype Dedup = ByFeature | Never

  datatype IdsArgument = OneId(id: int) | IdList(ids: seq<int>) | NotIds
  /** `coords`: a pair `Point` accepts, a tuple it refuses, or no tuple. */
  datatype CoordsArgument = Pair(x: real, y: real) | BadTuple | NotATuple
  datatype StringArgument = Str(s: string) | NotAString
  datatype KeysArgument = NoKeys | OneKey(key: string) | KeyList(keys: seq<string>) | NotKeys

  datatype ScanResult = ScanResult(found: seq<nat>, raised: Option<Error>)

  // ---------------------------------------------------------------------
  // Matching one feature

  /** `reduce(lambda d, key: d.get(key), keys, value)`: `None` stands for
      Python's `None`.  A missing last key gives `None`; a missing earlier
      key makes the next `.get` fail. */
  function Walk(current: Option<Value>, keys: seq<string>): (r: Result<Option<Value>>)
    ensures r.Err? ==> r.error == NotADictionary
    decreases |keys|
  {
    if |keys| == 0 then Ok(current)
    else match current
      case Some(Dict(m)) => Walk(if keys[0] in m then Some(m[keys[0]]) else None, keys[1..])
      case _ => Err(NotADictionary)
  }

  /** The key walk reads a feature as its catalogue file holds it: the
      top-level `type` and the GeoJSON geometry's own `type` are reached,
      and walking past a text fails. */
  lemma WalkFeatureKeys(f: Feature)
    ensures "type" !in ModelledKeys
    ensures Walk(Some(AsValue(f)), ["type"]) == Ok(if "type" in f.otherEntries then Some(f.otherEntries["type"]) else None)
    ensures Walk(Some(AsValue(f)), ["geometry", "type"]) == Ok(if "type" in f.geometryEntries then Some(f.geometryEntries["type"]) else None)
    ensures Walk(Some(AsValue(f)), ["id", "type"]) == Err(NotADictionary)
  {
    var top := AsValue(f).entries;
    assert "type" in top <==> "type" in f.otherEntries;
    assert ["geometry", "type"][1..] == ["type"];
    assert ["id", "type"][1..] == ["type"];
  }

  /** `str(value)`, with `str(None) == "None"`. */
  function TextOf(o: Oracles, v: Option<Value>): string {
    if v.None? then "None" else o.render(v.value)
  }

  /** Whether a feature satisfies the criterion; reading a derived key that
      was never set raises. */
  function Hit(o: Oracles, c: Criterion, f: Feature): (r: Result<bool>)
    ensures r.Err? ==> ScanError(r.error)
    ensures c.MatchesString? ==> (r.Ok? ==> o.compiles(c.pattern)) && (r == Err(InvalidPattern(c.pattern)) <==> !o.compiles(c.pattern) && Walk(Some(AsValue(f)), c.keys).Ok?)
  {
    match c
    case WfsIds(ids) =>
      if f.wfsIdNo.None? then Err(MissingKey("wfs_id_no")) else Ok(f.wfsIdNo.value in ids)
    case WithinPolygon(q) =>
      if f.polygon.None? then Err(MissingKey("polygon")) else Ok(o.geo.within(f.polygon.value, q))
    case IntersectsPolygon(q) =>
      if f.polygon.None? then Err(MissingKey("polygon")) else Ok(o.geo.intersects(f.polygon.value, q))
    case ContainsPoint(p) =>
      if f.polygon.None? then Err(MissingKey("polygon")) else Ok(o.geo.contains(f.polygon.value, p))
    case CrossesLine(l) =>
      if f.polygon.None? then Err(MissingKey("polygon")) else Ok(o.geo.intersects(f.polygon.value, l))
    case MatchesString(pattern, keys) =>
      var v :- Walk(Some(AsValue(f)), keys);
      if !o.compiles(pattern) then Err(InvalidPattern(pattern))
      else Ok(o.search(pattern, TextOf(o, v)))
  }

  /** The errors a scan can stop with: a derived key that is missing, a
      key walk through something that is not a dictionary, or a search
      pattern that does not compile. */
  predicate ScanError(e: Error) {
    e.MissingKey? || e.NotADictionary? || e.InvalidPattern?
  }

  /** The per-feature test a query scans with. */
  function HitOf(o: Oracles, c: Criterion): Feature -> Result<bool> {
    f => Hit(o, c, f)
  }

  predicate IsMatch(hit: Feature -> Result<bool>, f: Feature) {
    hit(f) == Ok(true)
  }

  /** The positions from k on of the features that match, in catalogue
      order: the reference the scans are measured against. */
  function Matches(fs: seq<Feature>, hit: Feature -> Result<bool>, k: nat): seq<nat>
    requires k <= |fs|
    decreases |fs| - k
  {
    if k == |fs| then []
    else (if IsMatch(hit, fs[k]) then [k] else []) + Matches(fs, hit, k + 1)
  }

  /** Some held position refers to a feature equal to f. */
  ghost predicate Holds(fs: seq<Feature>, found: seq<nat>, f: Feature) {
    exists j :: 0 <= j < |found| && found[j] < |fs| && fs[found[j]] == f
  }

  predicate AlreadyHeld(fs: seq<Feature>, found: seq<nat>, k: nat, rule: Dedup)
    requires k < |fs|
  {
    rule.ByFeature? && exists j :: 0 <= j < |found| && found[j] < |fs| && fs[found[j]] == fs[k]
  }

  // ---------------------------------------------------------------------
  // The scan shared by every query

  /** The loop `for feature in self.features: ... append if new` from
      position k on; an error stops the loop with what was appended so far. */
  function Scan(fs: seq<Feature>, found: seq<nat>, k: nat, hit: Feature -> Result<bool>, rule: Dedup): (r: ScanResult)
    requires k <= |fs|
    ensures |found| <= |r.found| <= |found| + (|fs| - k)
    decreases |fs| - k
  {
    if k == |fs| then ScanResult(found, None)
    else match hit(fs[k])
      case Err(e) => ScanResult(found, Some(e))
      case Ok(_) => Scan(fs, Next(fs, found, k, hit, rule), k + 1, hit, rule)
  }

  /** The results after looking at sheet k. */
  function Next(fs: seq<Feature>, found: seq<nat>, k: nat, hit: Feature -> Result<bool>, rule: Dedup): seq<nat>
    requires k < |fs| && hit(fs[k]).Ok?
  {
    if hit(fs[k]).value && !AlreadyHeld(fs, found, k, rule) then found + [k] else found
  }

  /** A scan keeps what it started with and appends, in increasing order,
      positions from k on of matching sheets. */
  lemma {:induction false} ScanExtends(fs: seq<Feature>, found: seq<nat>, k: nat, hit: Feature -> Result<bool>, rule: Dedup)
    requires k <= |fs|
    ensures var r := Scan(fs, found, k, hit, rule);
      && |found| <= |r.found| && r.found[..|found|] == found
      && (forall i :: |found| <= i < |r.found| ==> k <= r.found[i] < |fs| && IsMatch(hit, fs[r.found[i]]))
      && (forall i, j :: |found| <= i < j < |r.found| ==> r.found[i] < r.found[j])
    decreases |fs| - k
  {
    if k < |fs| && hit(fs[k]).Ok? {
      var found' := Next(fs, found, k, hit, rule);
      assert Scan(fs, found, k, hit, rule) == Scan(fs, found', k + 1, hit, rule);
      NextAppends(fs, found, k, hit, rule);
      ScanExtends(fs, found', k + 1, hit, rule);
      PrefixOfPrefix(found, found', Scan(fs, found', k + 1, hit, rule).found);
    }
  }

  /** Looking at sheet k keeps the results or appends k, a match. */
  lemma NextAppends(fs: seq<Feature>, found: seq<nat>, k: nat, hit: Feature -> Result<bool>, rule: Dedup)
    requires k < |fs| && hit(fs[k]).Ok?
    ensures var n := Next(fs, found, k, hit, rule);
      n == found || (n == found + [k] && IsMatch(hit, fs[k]))
  {
  }

  lemma PrefixOfPrefix(a: seq<nat>, b: seq<nat>, c: seq<nat>)
    requires |a| <= |b| && b[..|a|] == a
    requires |b| <= |c| && c[..|b|] == b
    ensures c[..|a|] == a
  {
    assert c[..|a|] == c[..|b|][..|a|];
  }

  /** A scan runs to the end exactly when no test raises, and otherwise
      reports the error of a sheet it reached. */
  lemma {:induction false} ScanRaises(fs: seq<Feature>, found: seq<nat>, k: nat, hit: Feature -> Result<bool>, rule: Dedup)
    requires k <= |fs|
    ensures var r := Scan(fs, found, k, hit, rule);
      && (r.raised.None? <==> forall i :: k <= i < |fs| ==> hit(fs[i]).Ok?)
      && (r.raised.Some? ==> exists i :: k <= i < |fs| && hit(fs[i]) == Err(r.raised.value))
    decreases |fs| - k
  {
    if k < |fs| && hit(fs[k]).Ok? {
      assert Scan(fs, found, k, hit, rule) == Scan(fs, Next(fs, found, k, hit, rule), k + 1, hit, rule);
      ScanRaises(fs, Next(fs, found, k, hit, rule), k + 1, hit, rule);
    }
  }

  /** After a deduplicating scan that ran to the end, every matching sheet
      from k on is held. */
  lemma {:induction false} ScanHoldsMatches(fs: seq<Feature>, found: seq<nat>, k: nat, hit: Feature -> Result<bool>)
    requires k <= |fs|
    requires Scan(fs, found, k, hit, ByFeature).raised.None?
    ensures forall i :: k <= i < |fs| && IsMatch(hit, fs[i]) ==> Holds(fs, Scan(fs, found, k, hit, ByFeature).found, fs[i])
    decreases |fs| - k
  {
    if k < |fs| {
      assert hit(fs[k]).Ok?;
      var found' := Next(fs, found, k, hit, ByFeature);
      assert Scan(fs, found, k, hit, ByFeature) == Scan(fs, found', k + 1, hit, ByFeature);
      ScanHoldsMatches(fs, found', k + 1, hit);
      if IsMatch(hit, fs[k]) {
        ScanExtends(fs, found', k + 1, hit, ByFeature);
        NextHolds(fs, found, k, hit);
        HeldStaysHeld(fs, found', Scan(fs, found', k + 1, hit, ByFeature).found, fs[k]);
      }
    }
  }

  /** After a deduplicating step on a match, the matching sheet is held. */
  lemma NextHolds(fs: seq<Feature>, found: seq<nat>, k: nat, hit: Feature -> Result<bool>)
    requires k < |fs| && IsMatch(hit, fs[k])
    ensures Holds(fs, Next(fs, found, k, hit, ByFeature), fs[k])
  {
    var found' := Next(fs, found, k, hit, ByFeature);
    if !AlreadyHeld(fs, found, k, ByFeature) {
      assert found'[|found|] == k;
    }
  }

  lemma HeldStaysHeld(fs: seq<Feature>, found: seq<nat>, more: seq<nat>, f: Feature)
    requires |found| <= |more| && more[..|found|] == found
    requires Holds(fs, found, f)
    ensures Holds(fs, more, f)
  {
    var j :| 0 <= j < |found| && found[j] < |fs| && fs[found[j]] == f;
    assert more[j] == found[j];
  }

  /** Without deduplication a scan appends exactly the matches. */
  lemma {:induction false} ScanNeverAppendsMatches(fs: seq<Feature>, found: seq<nat>, k: nat, hit: Feature -> Result<bool>)
    requires k <= |fs|
    requires Scan(fs, found, k, hit, Never).raised.None?
    ensures Scan(fs, found, k, hit, Never).found == found + Matches(fs, hit, k)
    decreases |fs| - k
  {
    if k < |fs| {
      assert hit(fs[k]).Ok?;
      var found' := Next(fs, found, k, hit, Never);
      assert Scan(fs, found, k, hit, Never) == Scan(fs, found', k + 1, hit, Never);
      ScanNeverAppendsMatches(fs, found', k + 1, hit);
      AppendStep(found, fs, hit, k, found');
    }
  }

  /** Appending the matches from k is appending sheet k's match and then
      the matches from k + 1. */
  lemma AppendStep(found: seq<nat>, fs: seq<Feature>, hit: Feature -> Result<bool>, k: nat, found': seq<nat>)
    requires k < |fs|
    requires found' == found + (if IsMatch(hit, fs[k]) then [k] else [])
    ensures found + Matches(fs, hit, k) == found' + Matches(fs, hit, k + 1)
  {
    assert Matches(fs, hit, k) == (if IsMatch(hit, fs[k]) then [k] else []) + Matches(fs, hit, k + 1);
  }

  /** A scan that finds every match already held appends nothing. */
  lemma {:induction false} ScanHeldAppendsNothing(fs: seq<Feature>, found: seq<nat>, k: nat, hit: Feature -> Result<bool>)
    requires k <= |fs|
    requires forall i :: k <= i < |fs| && IsMatch(hit, fs[i]) ==> Holds(fs, found, fs[i])
    ensures Scan(fs, found, k, hit, ByFeature).found == found
    decreases |fs| - k
  {
    if k < |fs| && hit(fs[k]).Ok? {
      assert Next(fs, found, k, hit, ByFeature) == found;
      assert Scan(fs, found, k, hit, ByFeature) == Scan(fs, found, k + 1, hit, ByFeature);
      ScanHeldAppendsNothing(fs, found, k + 1, hit);
    }
  }

  /** No two catalogue entries are the same sheet. */
  ghost predicate DistinctSheets(fs: seq<Feature>) {
    forall i, j :: 0 <= i < j < |fs| ==> Raw(fs[i]) != Raw(fs[j])
  }

  /** On a catalogue of distinct sheets, starting from results that all lie
      before k, the deduplicating scan appends exactly the matches. */
  lemma {:induction false} ScanDistinctAppendsMatches(fs: seq<Feature>, found: seq<nat>, k: nat, hit: Feature -> Result<bool>)
    requires k <= |fs|
    requires DistinctSheets(fs)
    requires forall i :: 0 <= i < |found| ==> found[i] < k
    requires Scan(fs, found, k, hit, ByFeature).raised.None?
    ensures Scan(fs, found, k, hit, ByFeature).found == found + Matches(fs, hit, k)
    decreases |fs| - k
  {
    if k < |fs| {
      assert hit(fs[k]).Ok?;
      assert !AlreadyHeld(fs, found, k, ByFeature) by {
        forall j | 0 <= j < |found| && found[j] < |fs|
          ensures fs[found[j]] != fs[k]
        {
          assert Raw(fs[found[j]]) != Raw(fs[k]);
        }
      }
      var found' := Next(fs, found, k, hit, ByFeature);
      assert Scan(fs, found, k, hit, ByFeature) == Scan(fs, found', k + 1, hit, ByFeature);
      ScanDistinctAppendsMatches(fs, found', k + 1, hit);
      AppendStep(found, fs, hit, k, found');
    }
  }

  // ---------------------------------------------------------------------
  // The queries

  /** Clears the results unless appending, then scans the whole catalogue. */
  function Run(d: Downloader, hit: Feature -> Result<bool>, append: bool, rule: Dedup): (r: Step)
    ensures r.after == d.(foundQueries := r.after.foundQueries)
    ensures FoundInRange(d) ==> FoundInRange(r.after)
    ensures append ==> |d.foundQueries| <= |r.after.foundQueries| && r.after.foundQueries[..|d.foundQueries|] == d.foundQueries
    ensures r.raised.None? <==> forall i :: 0 <= i < |d.features| ==> hit(d.features[i]).Ok?
    ensures r.raised.Some? ==> exists i :: 0 <= i < |d.features| && hit(d.features[i]) == Err(r.raised.value)
    ensures r.raised.None? && rule.ByFeature? ==> forall i :: 0 <= i < |d.features| && IsMatch(hit, d.features[i]) ==>
      Holds(d.features, r.after.foundQueries, d.features[i])
    ensures !append && r.raised.None? && (rule.Never? || DistinctSheets(d.features)) ==>
      r.after.foundQueries == Matches(d.features, hit, 0)
  {
    var start := if append then d.foundQueries else [];
    var s := Scan(d.features, start, 0, hit, rule);
    ScanExtends(d.features, start, 0, hit, rule);
    ScanRaises(d.features, start, 0, hit, rule);
    RunFacts(d.features, start, hit, rule);
    Step(d.(foundQueries := s.found), s.raised)
  }

  /** What a scan of the whole catalogue yields: every match held when it
      deduplicates, and, from empty results, exactly the matches when it
      cannot deduplicate or when no two sheets are the same. */
  lemma RunFacts(fs: seq<Feature>, start: seq<nat>, hit: Feature -> Result<bool>, rule: Dedup)
    ensures Scan(fs, start, 0, hit, rule).raised.None? && rule.ByFeature? ==>
      forall i :: 0 <= i < |fs| && IsMatch(hit, fs[i]) ==> Holds(fs, Scan(fs, start, 0, hit, rule).found, fs[i])
    ensures start == [] && Scan(fs, start, 0, hit, rule).raised.None? && (rule.Never? || DistinctSheets(fs)) ==>
      Scan(fs, start, 0, hit, rule).found == Matches(fs, hit, 0)
  {
    if Scan(fs, start, 0, hit, rule).raised.None? {
      if rule.ByFeature? {
        ScanHoldsMatches(fs, start, 0, hit);
      }
      if start == [] {
        if rule.Never? {
          ScanNeverAppendsMatches(fs, [], 0, hit);
        } else if DistinctSheets(fs) {
          ScanDistinctAppendsMatches(fs, [], 0, hit);
        }
      }
    }
  }

  /** The derived field a query reads. */
  datatype Need = NeedsPolygons | NeedsWfsIdNos | NeedsNothing

  predicate Ready(d: Downloader, need: Need) {
    match need
    case NeedsPolygons => d.polygons
    case NeedsWfsIdNos => d.wfsIdNos
    case NeedsNothing => true
  }

  /** `if not self.polygons: self.get_polygons()` and its counterpart for
      the id numbers. */
  function Prepare(d: Downloader, need: Need): (r: Step)
    ensures SameSheets(d, r.after) && FlagsGrow(d, r.after)
    ensures r.after.foundQueries == d.foundQueries
    ensures r.raised.None? ==> Ready(r.after, need)
    ensures r.raised.Some? ==> r.raised == Some(NoGeometryParts) || r.raised.value.NotAnInteger?
    ensures Ready(d, need) ==> r == Step(d, None)
  {
    if Ready(d, need) then Step(d, None)
    else if need.NeedsPolygons? then GetPolygons(d)
    else ExtractWfsIdNos(d)
  }

  /** Runs the derivation the query needs, then the scan. */
  function Query(d: Downloader, hit: Feature -> Result<bool>, need: Need, append: bool, rule: Dedup): (r: Step)
    ensures SameSheets(d, r.after) && FlagsGrow(d, r.after)
    ensures FoundInRange(d) ==> FoundInRange(r.after)
    ensures r.raised.None? ==> Ready(r.after, need)
    ensures r.raised.Some? ==>
      (r.raised == Prepare(d, need).raised || exists i :: 0 <= i < |r.after.features| && hit(r.after.features[i]) == Err(r.raised.value))
    ensures append ==> |d.foundQueries| <= |r.after.foundQueries| && r.after.foundQueries[..|d.foundQueries|] == d.foundQueries
    ensures r.raised.None? && !append && (rule.Never? || DistinctSheets(d.features)) ==>
      r.after.foundQueries == Matches(r.after.features, hit, 0)
  {
    var s := Prepare(d, need);
    if s.raised.Some? then s
    else
      DistinctKept(d, s.after);
      var r := Run(s.after, hit, append, rule);
      assert SameSheets(s.after, r.after) && FlagsGrow(s.after, r.after);
      Chain(d, s.after, r.after);
      r
  }

  /** Every query keeps the state invariant, whether or not it raises. */
  lemma QueryKeepsValid(d: Downloader, hit: Feature -> Result<bool>, need: Need, append: bool, rule: Dedup)
    requires Valid(d)
    ensures Valid(Query(d, hit, need, append, rule).after)
  {
    var p := Prepare(d, need);
    PrepareKeepsValid(d, need);
    if p.raised.None? {
      assert Query(d, hit, need, append, rule) == Run(p.after, hit, append, rule);
      RunKeepsValid(p.after, hit, append, rule);
    }
  }

  lemma PrepareKeepsValid(d: Downloader, need: Need)
    requires Valid(d)
    ensures Valid(Prepare(d, need).after)
  {
    if !Ready(d, need) {
      if need.NeedsPolygons? {
        GetPolygonsKeepsValid(d);
      } else {
        ExtractWfsIdNosKeepsValid(d);
      }
    }
  }

  lemma RunKeepsValid(d: Downloader, hit: Feature -> Result<bool>, append: bool, rule: Dedup)
    requires Valid(d)
    ensures Valid(Run(d, hit, append, rule).after)
  {
  }

  /** A query stops only with a derivation error or a scan error, never with
      an argument error. */
  lemma QueryErrorKind(d: Downloader, o: Oracles, c: Criterion, need: Need, append: bool, rule: Dedup)
    ensures var r := Query(d, HitOf(o, c), need, append, rule);
      r.raised.Some? ==> !r.raised.value.InvalidArgument? && !r.raised.value.UnknownMode?
  {
    var r := Query(d, HitOf(o, c), need, append, rule);
    if r.raised.Some? && r.raised != Prepare(d, need).raised {
      var i :| 0 <= i < |r.after.features| && HitOf(o, c)(r.after.features[i]) == Err(r.raised.value);
      assert ScanError(Hit(o, c, r.after.features[i]).error);
    }
  }

  lemma DistinctKept(d: Downloader, d': Downloader)
    requires SameSheets(d, d')
    ensures DistinctSheets(d.features) ==> DistinctSheets(d'.features)
  {
    if DistinctSheets(d.features) {
      forall i, j | 0 <= i < j < |d'.features|
        ensures Raw(d'.features[i]) != Raw(d'.features[j])
      {
        assert Raw(d.features[i]) != Raw(d.features[j]);
      }
    }
  }

  /** Running a deduplicating query again, appending, changes nothing: every
      match is already held and no test raises. */
  lemma QueryIdempotent(d: Downloader, hit: Feature -> Result<bool>, need: Need, append: bool)
    requires Query(d, hit, need, append, ByFeature).raised.None?
    ensures var s := Query(d, hit, need, append, ByFeature);
      Query(s.after, hit, need, true, ByFeature) == s
  {
    var s := Query(d, hit, need, append, ByFeature);
    var p := Prepare(d, need);
    assert s == Run(p.after, hit, append, ByFeature);
    assert Prepare(s.after, need) == Step(s.after, None);
    RunIdempotent(p.after, hit, append);
  }

  lemma RunIdempotent(d: Downloader, hit: Feature -> Result<bool>, append: bool)
    requires Run(d, hit, append, ByFeature).raised.None?
    ensures var s := Run(d, hit, append, ByFeature);
      Run(s.after, hit, true, ByFeature) == s
  {
    var s := Run(d, hit, append, ByFeature);
    ScanRaises(d.features, s.after.foundQueries, 0, hit, ByFeature);
    ScanHeldAppendsNothing(d.features, s.after.foundQueries, 0, hit);
  }

  /** Running a query that cannot deduplicate again, appending, holds every
      match a second time. */
  lemma QueryRepeats(d: Downloader, hit: Feature -> Result<bool>, need: Need, append: bool)
    requires Query(d, hit, need, append, Never).raised.None?
    ensures var s := Query(d, hit, need, append, Never);
      var t := Query(s.after, hit, need, true, Never);
      t.raised.None? && t.after.foundQueries == s.after.foundQueries + Matches(s.after.features, hit, 0)
  {
    var s := Query(d, hit, need, append, Never);
    var p := Prepare(d, need);
    assert s == Run(p.after, hit, append, Never);
    assert Prepare(s.after, need) == Step(s.after, None);
    RunRepeats(p.after, hit, append);
  }

  lemma RunRepeats(d: Downloader, hit: Feature -> Result<bool>, append: bool)
    requires Run(d, hit, append, Never).raised.None?
    ensures var s := Run(d, hit, append, Never);
      var t := Run(s.after, hit, true, Never);
      t.raised.None? && t.after.foundQueries == s.after.foundQueries + Matches(d.features, hit, 0)
  {
    var s := Run(d, hit, append, Never);
    ScanRaises(d.features, s.after.foundQueries, 0, hit, Never);
    ScanNeverAppendsMatches(d.features, s.after.foundQueries, 0, hit);
  }

  /** `query_map_sheets_by_wfs_ids`: extracts the id numbers first when
      needed, and only then checks that `wfs_ids` is an int or a list. */
  function QueryByWfsIds(d: Downloader, o: Oracles, wfsIds: IdsArgument, append: bool): (r: Step)
    ensures SameSheets(d, r.after) && FlagsGrow(d, r.after)
    ensures r.raised == Some(InvalidArgument("wfs_ids")) <==> wfsIds.NotIds? && Prepare(d, NeedsWfsIdNos).raised.None?
    ensures r.raised == Some(InvalidArgument("wfs_ids")) ==> r.after.foundQueries == d.foundQueries
    ensures r.raised.None? ==> r.after.wfsIdNos
    ensures r.raised.None? && !append && DistinctSheets(d.features) ==>
      r.after.foundQueries == Matches(r.after.features, HitOf(o, WfsIds(RequestedIds(wfsIds))), 0)
  {
    var s := Prepare(d, NeedsWfsIdNos);
    if s.raised.Some? then s
    else if wfsIds.NotIds? then Step(s.after, Some(InvalidArgument("wfs_ids")))
    else
      QueryErrorKind(d, o, WfsIds(RequestedIds(wfsIds)), NeedsWfsIdNos, append, ByFeature);
      Query(d, HitOf(o, WfsIds(RequestedIds(wfsIds))), NeedsWfsIdNos, append, ByFeature)
  }

  function RequestedIds(wfsIds: IdsArgument): seq<int> {
    match wfsIds
    case OneId(id) => [id]
    case IdList(ids) => ids
    case NotIds => []
  }

  predicate IsPolygonMode(mode: string) {
    mode == "within" || mode == "intersects"
  }

  function PolygonCriterion(polygon: Geom, mode: string): Criterion {
    if mode == "within" then WithinPolygon(polygon) else IntersectsPolygon(polygon)
  }

  /** `query_map_sheets_by_polygon` as written: in `within` mode the
      duplicate test compares the sheet's polygon with the stored features,
      so it never recognises a held feature. */
  function QueryByPolygon(d: Downloader, o: Oracles, polygon: Geom, mode: string, append: bool): (r: Step)
    ensures SameSheets(d, r.after) && FlagsGrow(d, r.after)
    ensures !IsPolygon(polygon) <==> r.raised == Some(InvalidArgument("polygon")) && r.after == d
    ensures IsPolygon(polygon) && !IsPolygonMode(mode) <==> r.raised == Some(UnknownMode(mode)) && r.after == d
    ensures r.raised.None? ==> r.after.polygons
    ensures r.raised.None? && !append && (mode == "within" || DistinctSheets(d.features)) ==>
      r.after.foundQueries == Matches(r.after.features, HitOf(o, PolygonCriterion(polygon, mode)), 0)
  {
    if !IsPolygon(polygon) then Step(d, Some(InvalidArgument("polygon")))
    else if !IsPolygonMode(mode) then Step(d, Some(UnknownMode(mode)))
    else
      var rule := if mode == "within" then Never else ByFeature;
      QueryErrorKind(d, o, PolygonCriterion(polygon, mode), NeedsPolygons, append, rule);
      Query(d, HitOf(o, PolygonCriterion(polygon, mode)), NeedsPolygons, append, rule)
  }

  /** `query_map_sheets_by_polygon` with the `within` duplicate test that the
      source evidently intends: the same feature test as every other query. */
  function QueryByPolygonCorrected(d: Downloader, o: Oracles, polygon: Geom, mode: string, append: bool): (r: Step)
    ensures SameSheets(d, r.after) && FlagsGrow(d, r.after)
    ensures !IsPolygon(polygon) <==> r.raised == Some(InvalidArgument("polygon")) && r.after == d
    ensures IsPolygon(polygon) && !IsPolygonMode(mode) <==> r.raised == Some(UnknownMode(mode)) && r.after == d
    ensures r.raised.None? ==> r.after.polygons
    ensures r.raised.None? && !append && DistinctSheets(d.features) ==>
      r.after.foundQueries == Matches(r.after.features, HitOf(o, PolygonCriterion(polygon, mode)), 0)
  {
    if !IsPolygon(polygon) then Step(d, Some(InvalidArgument("polygon")))
    else if !IsPolygonMode(mode) then Step(d, Some(UnknownMode(mode)))
    else
      QueryErrorKind(d, o, PolygonCriterion(polygon, mode), NeedsPolygons, append, ByFeature);
      Query(d, HitOf(o, PolygonCriterion(polygon, mode)), NeedsPolygons, append, ByFeature)
  }

  /** `query_map_sheets_by_coordinates`: `coords` must be a tuple (x, y)
      that `Point` accepts. */
  function QueryByCoordinates(d: Downloader, o: Oracles, coords: CoordsArgument, append: bool): (r: Step)
    ensures SameSheets(d, r.after) && FlagsGrow(d, r.after)
    ensures coords.NotATuple? <==> r.raised == Some(InvalidArgument("coords")) && r.after == d
    ensures coords.BadTuple? <==> r.raised == Some(InvalidPoint) && r.after == d
    ensures r.raised.None? ==> r.after.polygons
    ensures r.raised.None? && !append && DistinctSheets(d.features) ==>
      r.after.foundQueries == Matches(r.after.features, HitOf(o, ContainsPoint(Point(XY(coords.x, coords.y)))), 0)
  {
    match coords
    case NotATuple => Step(d, Some(InvalidArgument("coords")))
    case BadTuple => Step(d, Some(InvalidPoint))
    case Pair(x, y) =>
      QueryErrorKind(d, o, ContainsPoint(Point(XY(x, y))), NeedsPolygons, append, ByFeature);
      Query(d, HitOf(o, ContainsPoint(Point(XY(x, y)))), NeedsPolygons, append, ByFeature)
  }

  /** `query_map_sheets_by_line`: `line` must be a line string. */
  function QueryByLine(d: Downloader, o: Oracles, line: Geom, append: bool): (r: Step)
    ensures SameSheets(d, r.after) && FlagsGrow(d, r.after)
    ensures !line.LineString? <==> r.raised == Some(InvalidArgument("line")) && r.after == d
    ensures r.raised.None? ==> r.after.polygons
    ensures r.raised.None? && !append && DistinctSheets(d.features) ==>
      r.after.foundQueries == Matches(r.after.features, HitOf(o, CrossesLine(line)), 0)
  {
    if !line.LineString? then Step(d, Some(InvalidArgument("line")))
    else
      QueryErrorKind(d, o, CrossesLine(line), NeedsPolygons, append, ByFeature);
      Query(d, HitOf(o, CrossesLine(line)), NeedsPolygons, append, ByFeature)
  }

  /** `query_map_sheets_by_string`: `string` must be a string and `keys`
      absent, a string or a list; no derivation runs. */
  function QueryByString(d: Downloader, o: Oracles, pattern: StringArgument, keys: KeysArgument, append: bool): (r: Step)
    ensures r.after == d.(foundQueries := r.after.foundQueries)
    ensures pattern.NotAString? <==> r.raised == Some(InvalidArgument("string")) && r.after == d
    ensures pattern.Str? && keys.NotKeys? <==> r.raised == Some(InvalidArgument("keys")) && r.after == d
    ensures r.raised.None? && !append && DistinctSheets(d.features) ==>
      r.after.foundQueries == Matches(d.features, HitOf(o, MatchesString(pattern.s, KeyPath(keys))), 0)
  {
    if pattern.NotAString? then Step(d, Some(InvalidArgument("string")))
    else if keys.NotKeys? then Step(d, Some(InvalidArgument("keys")))
    else
      QueryErrorKind(d, o, MatchesString(pattern.s, KeyPath(keys)), NeedsNothing, append, ByFeature);
      Query(d, HitOf(o, MatchesString(pattern.s, KeyPath(keys))), NeedsNothing, append, ByFeature)
  }

  function KeyPath(keys: KeysArgument): seq<string> {
    match keys
    case NoKeys => []
    case OneKey(k) => [k]
    case KeyList(ks) => ks
    case NotKeys => []
  }

  /** A string query whose pattern does not compile raises on the first
      sheet, before anything is appended: only an empty catalogue gets
      through. The error is the pattern's unless walking the first sheet's
      keys fails first. */
  lemma QueryByStringBadPattern(d: Downloader, o: Oracles, pattern: string, keys: KeysArgument, append: bool)
    requires !keys.NotKeys? && !o.compiles(pattern)
    ensures var r := QueryByString(d, o, Str(pattern), keys, append);
      && (r.raised.None? <==> |d.features| == 0)
      && r.after.foundQueries == (if append then d.foundQueries else [])
      && (|d.features| > 0 && Walk(Some(AsValue(d.features[0])), KeyPath(keys)).Ok? ==> r.raised == Some(InvalidPattern(pattern)))
  {
    var hit := HitOf(o, MatchesString(pattern, KeyPath(keys)));
    var start := if append then d.foundQueries else [];
    assert QueryByString(d, o, Str(pattern), keys, append) == Run(d, hit, append, ByFeature);
    if |d.features| > 0 {
      assert hit(d.features[0]).Err?;
      assert Scan(d.features, start, 0, hit, ByFeature) == ScanResult(start, Some(hit(d.features[0]).error));
    }
  }

  // ---------------------------------------------------------------------
  // Printing the results

  /** `print_found_queries`: the printout reads each result's polygon, so
      the polygons are derived first when the flag is off. The text printed
      is not modelled. */
  function PrintFoundQueries(d: Downloader): (r: Step)
    ensures SameSheets(d, r.after) && FlagsGrow(d, r.after)
    ensures r.after.foundQueries == d.foundQueries
    ensures d.polygons ==> r == Step(d, None)
    ensures r.raised.None? <==> d.polygons || forall i :: 0 <= i < |d.features| ==> PolygonStep(d.features[i]).Ok?
    ensures r.raised.None? <==> r.after.polygons
    ensures r.raised.Some? ==> r.raised == Some(NoGeometryParts)
  {
    Prepare(d, NeedsPolygons)
  }

  /** The call to `print_found_queries()` that ends a query asked to
      show its results, made only when the query raised nothing. */
  function Printing(q: Step, printResults: bool): (r: Step)
    ensures !printResults || q.raised.Some? || q.after.polygons ==> r == q
    ensures SameSheets(q.after, r.after) && FlagsGrow(q.after, r.after)
    ensures r.after.foundQueries == q.after.foundQueries
    ensures printResults && q.raised.None? ==> (r.raised.None? <==> r.after.polygons)
    ensures r.raised.Some? ==> r.raised == q.raised || r.raised == Some(NoGeometryParts)
  {
    if printResults && q.raised.None? then PrintFoundQueries(q.after) else q
  }

  /** `query_map_sheets_by_wfs_ids` asked to show its results: showing
      keeps the results, and derives the polygons unless they are there. */
  function QueryByWfsIdsPrinted(d: Downloader, o: Oracles, wfsIds: IdsArgument, append: bool, printResults: bool): (r: Step)
    ensures var q := QueryByWfsIds(d, o, wfsIds, append);
      && r.after.foundQueries == q.after.foundQueries
      && (!printResults || q.raised.Some? ==> r == q)
      && (printResults && q.raised.None? ==>
            (r.raised.None? <==> r.after.polygons && r.after.wfsIdNos)
            && (r.raised.Some? ==> r.raised == Some(NoGeometryParts)))
  {
    Printing(QueryByWfsIds(d, o, wfsIds, append), printResults)
  }

  /** `query_map_sheets_by_string` asked to show its results:
      without showing only the results change; showing may derive the polygons
      too, or raise part-way through deriving them. */
  function QueryByStringPrinted(d: Downloader, o: Oracles, pattern: StringArgument, keys: KeysArgument, append: bool, printResults: bool): (r: Step)
    ensures var q := QueryByString(d, o, pattern, keys, append);
      && r.after.foundQueries == q.after.foundQueries
      && (!printResults || q.raised.Some? || d.polygons ==> r == q)
      && (printResults && q.raised.None? ==>
            (r.raised.None? <==> r.after.polygons)
            && (r.raised.Some? ==> r.raised == Some(NoGeometryParts)))
  {
    Printing(QueryByString(d, o, pattern, keys, append), printResults)
  }

  /** The queries that derive the polygons themselves change nothing more
      when they show their results. */
  lemma PrintingAfterPolygonQueries(d: Downloader, o: Oracles, polygon: Geom, mode: string, coords: CoordsArgument, line: Geom, append: bool)
    ensures var q := QueryByPolygon(d, o, polygon, mode, append); Printing(q, true) == q
    ensures var q := QueryByCoordinates(d, o, coords, append); Printing(q, true) == q
    ensures var q := QueryByLine(d, o, line, append); Printing(q, true) == q
  {
  }

  // ---------------------------------------------------------------------
  // Properties of the queries

  /** Asking the same question again, appending, leaves the results as
      they were. */
  lemma QueryByWfsIdsIdempotent(d: Downloader, o: Oracles, wfsIds: IdsArgument, append: bool)
    requires QueryByWfsIds(d, o, wfsIds, append).raised.None?
    ensures var s := QueryByWfsIds(d, o, wfsIds, append);
      QueryByWfsIds(s.after, o, wfsIds, true) == s
  {
    QueryIdempotent(d, HitOf(o, WfsIds(RequestedIds(wfsIds))), NeedsWfsIdNos, append);
  }

  lemma QueryByPolygonIntersectsIdempotent(d: Downloader, o: Oracles, polygon: Geom, append: bool)
    requires QueryByPolygon(d, o, polygon, "intersects", append).raised.None?
    ensures var s := QueryByPolygon(d, o, polygon, "intersects", append);
      QueryByPolygon(s.after, o, polygon, "intersects", true) == s
  {
    QueryIdempotent(d, HitOf(o, IntersectsPolygon(polygon)), NeedsPolygons, append);
  }

  /** As written, a `within` query repeated with `append=True` holds every
      matching sheet twice. */
  lemma QueryByPolygonWithinRepeats(d: Downloader, o: Oracles, polygon: Geom, append: bool)
    requires QueryByPolygon(d, o, polygon, "within", append).raised.None?
    ensures var s := QueryByPolygon(d, o, polygon, "within", append);
      var t := QueryByPolygon(s.after, o, polygon, "within", true);
      t.raised.None? && t.after.foundQueries == s.after.foundQueries + Matches(s.after.features, HitOf(o, WithinPolygon(polygon)), 0)
  {
    QueryRepeats(d, HitOf(o, WithinPolygon(polygon)), NeedsPolygons, append);
  }

  /** With the duplicate test corrected, both modes are idempotent. */
  lemma QueryByPolygonCorrectedIdempotent(d: Downloader, o: Oracles, polygon: Geom, mode: string, append: bool)
    requires QueryByPolygonCorrected(d, o, polygon, mode, append).raised.None?
    ensures var s := QueryByPolygonCorrected(d, o, polygon, mode, append);
      QueryByPolygonCorrected(s.after, o, polygon, mode, true) == s
  {
    QueryIdempotent(d, HitOf(o, PolygonCriterion(polygon, mode)), NeedsPolygons, append);
  }

  lemma QueryByCoordinatesIdempotent(d: Downloader, o: Oracles, coords: CoordsArgument, append: bool)
    requires QueryByCoordinates(d, o, coords, append).raised.None?
    ensures var s := QueryByCoordinates(d, o, coords, append);
      QueryByCoordinates(s.after, o, coords, true) == s
  {
    QueryIdempotent(d, HitOf(o, ContainsPoint(Point(XY(coords.x, coords.y)))), NeedsPolygons, append);
  }

  lemma QueryByLineIdempotent(d: Downloader, o: Oracles, line: Geom, append: bool)
    requires QueryByLine(d, o, line, append).raised.None?
    ensures var s := QueryByLine(d, o, line, append);
      QueryByLine(s.after, o, line, true) == s
  {
    QueryIdempotent(d, HitOf(o, CrossesLine(line)), NeedsPolygons, append);
  }

  lemma QueryByStringIdempotent(d: Downloader, o: Oracles, pattern: StringArgument, keys: KeysArgument, append: bool)
    requires QueryByString(d, o, pattern, keys, append).raised.None?
    ensures var s := QueryByString(d, o, pattern, keys, append);
      QueryByString(s.after, o, pattern, keys, true) == s
  {
    QueryIdempotent(d, HitOf(o, MatchesString(pattern.s, KeyPath(keys))), NeedsNothing, append);
  }

  /** Every sheet that lies within a polygon also intersects it. */
  lemma {:induction false} WithinMatchesIntersect(fs: seq<Feature>, o: Oracles, polygon: Geom, k: nat)
    requires k <= |fs|
    requires WithinImpliesIntersects(o.geo)
    ensures forall i :: i in Matches(fs, HitOf(o, WithinPolygon(polygon)), k) ==>
      i in Matches(fs, HitOf(o, IntersectsPolygon(polygon)), k)
    decreases |fs| - k
  {
    if k < |fs| {
      WithinMatchesIntersect(fs, o, polygon, k + 1);
    }
  }

  /** A fresh `within` query finds a subset of what a fresh `intersects`
      query with the same polygon finds. */
  lemma WithinResultsIntersect(d: Downloader, o: Oracles, polygon: Geom)
    requires WithinImpliesIntersects(o.geo) && DistinctSheets(d.features)
    requires QueryByPolygon(d, o, polygon, "within", false).raised.None?
    requires QueryByPolygon(d, o, polygon, "intersects", false).raised.None?
    ensures forall i :: i in QueryByPolygon(d, o, polygon, "within", false).after.foundQueries ==>
      i in QueryByPolygon(d, o, polygon, "intersects", false).after.foundQueries
  {
    var fs := Prepare(d, NeedsPolygons).after.features;
    assert QueryByPolygon(d, o, polygon, "within", false).after.features == fs;
    assert QueryByPolygon(d, o, polygon, "intersects", false).after.features == fs;
    WithinMatchesIntersect(fs, o, polygon, 0);
  }
}
